=== FILE: README.md ===
# Ontology Reading: a Dafny model of the graph core

Ontology Reading keeps a knowledge graph, the "ontology", that an AI
service builds and updates from text the user reads. The graph holds
concept nodes and relation edges. This project models the part of the
application that decides what a graph is and how it changes:

- **Validation and the graph-widget converters** (`OntologyUtils`). The
  validator's ordered checks, first failure wins. Empty-graph creation and
  re-stamping. The converters to and from the graph widget's node and edge
  records.
- **Snapshot comparison** (`OntologyDiff`). Nodes and edges are matched by
  id. The comparison yields added, removed and modified lists, plus the
  one-line-per-category summary and the "anything changed?" test.
- **Browser storage** (`Storage`). The graph, the history (capped at 100)
  and the settings under their three keys. Settings resolution against
  build-time defaults. Export, import and clear-all.
- **The application store** (`OntologyStore`). Every action as a
  transition of one immutable state. A graph edit is built, re-stamped, and
  installed only if it validates and the write succeeds. `addEdge`
  appears both as written and as corrected (see Findings).
- **Mermaid text** (`Mermaid`). The serialiser that writes a graph as a
  `graph TD` diagram, grouping members under their `subgraph` blocks. The
  line-by-line parser that reads a diagram back into a graph, with its
  regular expressions written out as explicit matchers. The built-in
  example diagram.
- **Prompt templates** (`Templates`). The three prompt texts and
  `getPromptTemplate`: it picks a template, serialises a graph parameter,
  and substitutes `{key}` placeholders.

Shared pieces are `Wrappers` (`Option`), `Strings` (ECMAScript trimming,
searching, splitting, `replace` with a string pattern, decimal rendering)
and `Model`.

`Model` holds the records as the JavaScript reads them from loose JSON:
- a string property is a `Field` (`None` for an absent key, `undefined` or `null`);
- `Truthy`, `Or` and `Show` are JavaScript's truthiness, `||` and template
  interpolation;
- an object literal that names a key twice is a list of `Entries` in which
  the last one wins.

Clocks, id generation and `JSON.stringify` are parameters. `now` and
`genId` are the strings the source would obtain from `new Date()` and
`generateId`. `stringify` is the serialiser. `localStorage` is a `Disk`
value: a map from key to document and a flag saying whether writes
succeed.

In three places the code behaves in ways a reader may not expect; the
model follows the code:
- Comparing a graph with itself reports no change only when ids are
  unique. With a repeated node id, the earlier node is reported as
  modified into the later one (`OntologyDiff.CompareSelfWithRepeatedId`).
- Validation does not require unique ids (`OntologyUtils.DuplicateIdsAccepted`).
- The bundled sample graph does not validate (`OntologyUtils.SampleOntologyRejected`).

## Model

| member | source | states |
|---|---|---|
| OntologyUtils.CheckNodes | src/utils/ontologyUtils.js:173-177 | the node loop accepts exactly when every node has a non-empty id and name, and otherwise fails with the missing-field message |
| OntologyUtils.CheckEdges | src/utils/ontologyUtils.js:179-188 | the edge loop accepts exactly when every edge is complete and both its endpoints are node ids; otherwise the message is that of the first failing edge, missing fields reported before dangling endpoints |
| OntologyUtils.ValidateOntology | src/utils/ontologyUtils.js:159-191 | valid exactly when the graph is well formed; the null, nodes-not-array, edges-not-array, node-field and first-bad-edge errors are produced in that order of precedence |
| OntologyUtils.CreateEmptyOntology | src/utils/ontologyUtils.js:196-204 | version 1, empty node and edge arrays, the two given stamps, and the result validates |
| OntologyUtils.UpdateOntologyTimestamp | src/utils/ontologyUtils.js:209-214 | only `updated_at` changes, so the validation verdict is unchanged |
| OntologyUtils.SampleOntologyRejected | src/utils/mockData.js:2-77 | the bundled sample graph is rejected at `edge-1` as dangling, because its duplicate `source` key turns every endpoint into 'manual' |
| OntologyUtils.DuplicateIdsAccepted | src/utils/ontologyUtils.js:173-188 | two nodes with the same id and two edges with the same id still validate |
| OntologyUtils.ToFlowNodes | src/utils/ontologyUtils.js:15-30 | one widget node per node, same id, data is the node with `label` defaulting to the name |
| OntologyUtils.ToFlowEdges | src/utils/ontologyUtils.js:35-52 | one widget edge per edge with the same id and endpoints, the relation as its label and the edge as its data |
| OntologyUtils.FromFlowNodes | src/utils/ontologyUtils.js:57-69 | one node per widget node, ids kept in order; for any widget node, the name is an own truthy `label` else `name`, and type, description and provenance are the data's when non-empty, else 'concept', '' and 'manual' |
| OntologyUtils.FromFlowEdges | src/utils/ontologyUtils.js:74-87 | one edge per widget edge with id and target kept; the later `source` key wins, so the start is the data's provenance or 'manual', never the widget edge's endpoint; the relation is the widget label, else the data's relation, else '关联'; the description is the data's when non-empty, else '' |
| OntologyUtils.FlowEdgeEndpointLost | src/utils/ontologyUtils.js:74-87 | a widget edge without data comes back starting at 'manual' whatever it was drawn between |
| OntologyUtils.NodeRoundTrip | src/utils/ontologyUtils.js:15-69 | to the widget and back keeps each node's id and name (an own `label` replaces the name) and defaults type, description and provenance; nodes with all of those set come back identical |
| OntologyUtils.EdgeRoundTrip | src/utils/ontologyUtils.js:35-87 | to the widget and back keeps id, target, relation and description (or their defaults); the start node survives only as the provenance value |
| Model.EdgeLiteralSourceTwice | src/store/useOntologyStore.js:170-177 | an edge literal that writes `source` twice denotes the edge whose `source` is the second value |
| OntologyDiff.Latest | src/utils/ontologyDiff.js:33-37 | the item a `Map` built from the list keeps for a key: absent exactly when no item has the key, otherwise one of the list's items with it |
| OntologyDiff.IndexBy | src/utils/ontologyDiff.js:33-37 | the map's keys are the list's ids and each maps to the last item with that id |
| OntologyDiff.Unmatched | src/utils/ontologyDiff.js:41-61 | the filter keeps exactly the items whose id is not in the other graph |
| OntologyDiff.UnmatchedConcat | src/utils/ontologyDiff.js:41-61 | the filter distributes over concatenation, so it keeps order |
| OntologyDiff.Changed | src/utils/ontologyDiff.js:44-53 | a change is reported exactly for a new item whose id the old graph has and whose compared fields differ from the old item kept under that id |
| OntologyDiff.ChangedConcat | src/utils/ontologyDiff.js:44-53 | the changes of two runs of new items are the changes of the first run followed by those of the second, so order and repeats of the new list are kept |
| OntologyDiff.ChangedSingle | src/utils/ontologyDiff.js:44-53 | one new item gives one change, paired with the old item kept under its id, exactly when that id is known and the compared fields differ; otherwise none |
| OntologyDiff.ClassifySpec | src/utils/ontologyDiff.js:41-85 | added, removed and modified are characterised member by member for either kind of record |
| OntologyDiff.ClassifyDisjoint | src/utils/ontologyDiff.js:41-85 | no id appears in two of the three classes, even when ids repeat |
| OntologyDiff.CompareOntologies | src/utils/ontologyDiff.js:11-88 | with a graph missing, everything on the other side is added or removed; otherwise, per kind, added = new items with unknown id, removed = old items with unknown id, modified = new items whose fields differ from the last old item with their id |
| OntologyDiff.CompareNodesIgnoreEdges | src/utils/ontologyDiff.js:39-61 | replacing the edge lists of either graph leaves the added, removed and modified nodes unchanged |
| OntologyDiff.CompareEdgesIgnoreNodes | src/utils/ontologyDiff.js:63-85 | replacing the node lists of either graph leaves the added, removed and modified edges unchanged |
| OntologyDiff.NodeModified | src/utils/ontologyDiff.js:93-99 | two nodes count as modified exactly when they still differ after their id, provenance, label and properties are made equal |
| OntologyDiff.EdgeModified | src/utils/ontologyDiff.js:104-111 | two edges count as modified exactly when they still differ after their id, relation type, strength and cross-domain flag are made equal |
| OntologyDiff.CompareDisjoint | src/utils/ontologyDiff.js:41-85 | within each kind no id is both added and removed, or added or removed and modified |
| OntologyDiff.ClassifySelf | src/utils/ontologyDiff.js:41-85 | unique-id items compared with themselves give three empty classes |
| OntologyDiff.CompareSelfEmpty | src/utils/ontologyDiff.js:11-88 | a graph with unique ids compared with itself gives no difference |
| OntologyDiff.ClassifyTwins | src/utils/ontologyDiff.js:33-61 | two records under one key compared with themselves: nothing added or removed, the earlier reported as modified against the later one the id map kept |
| OntologyDiff.ClassifyReplaceOne | src/utils/ontologyDiff.js:33-61 | keeping one record, dropping one and adding one under three distinct keys classifies exactly the new one as added and the dropped one as removed |
| OntologyDiff.CompareSelfWithRepeatedId | src/utils/ontologyDiff.js:33-61 | with a repeated node id, comparing a graph with itself reports the earlier twin as modified into the later one |
| OntologyDiff.CompareScenario | src/utils/ontologyDiff.js:11-88 | an update that keeps one node, drops one, adds one and swaps the only edge for another (all ids distinct) reports exactly the new node and edge as added, the old ones as removed, and nothing as modified |
| OntologyDiff.HasSignificantChanges | src/utils/ontologyDiff.js:153-162 | true exactly when some list of the comparison is non-empty |
| OntologyDiff.SummaryLineIffReported | src/utils/ontologyDiff.js:116-142 | a category's line (its marker, then the names or the count) is in the summary exactly when that category's list is non-empty |
| OntologyDiff.SummaryLinePosition | src/utils/ontologyDiff.js:116-142 | the summary has as many lines as there are non-empty categories, and a non-empty category's line comes right after the lines of the non-empty categories before it in the order added nodes, added edges, modified nodes, modified edges, removed nodes, removed edges |
| OntologyDiff.SummaryFollowsCategoryOrder | src/utils/ontologyDiff.js:116-142 | of two non-empty categories, the earlier one in that order has its line earlier in the summary |
| OntologyDiff.GenerateDiffSummary | src/utils/ontologyDiff.js:116-148 | with no line pushed the text is '无变更'; otherwise it is the lines joined by newlines |
| OntologyDiff.SummarySplitsIntoLines | src/utils/ontologyDiff.js:116-148 | when the listed node names hold no newline, splitting a summary with changes at newlines gives back exactly its lines |
| OntologyDiff.SummarySentinelIffNoChanges | src/utils/ontologyDiff.js:143-147 | the summary is the no-change sentinel exactly when there are no significant changes |
| Storage.Put | src/utils/storage.js:21-29 | a write succeeds exactly when the store is writable, then the key holds the document; a failed write changes nothing; other keys are untouched |
| Storage.Remove | src/utils/storage.js:31-39 | the key is gone and nothing else changes |
| Storage.GetOntology | src/utils/storage.js:11-19 | a graph is read only from a graph document stored under the graph key; a missing or unparsable entry reads as null |
| Storage.SaveOntology | src/utils/storage.js:21-29 | a successful save reads back as the saved graph; a failed one changes nothing |
| Storage.ClearOntology | src/utils/storage.js:31-39 | the graph reads back as absent and other keys are untouched |
| Storage.GetHistory | src/utils/storage.js:42-50 | a non-empty history is read only from a history document stored under the history key; a missing or unparsable entry reads as empty |
| Storage.ReadsOwnKeyOnly | src/utils/storage.js:2-115 | each getter reads its own key, so a change under one key leaves what the other two getters return unchanged |
| Storage.SaveHistory | src/utils/storage.js:52-60 | a successful save reads back as the saved list |
| Storage.ClearHistory | src/utils/storage.js:72-80 | the history reads back empty and other keys are untouched |
| Storage.PushBounded | src/utils/storage.js:62-68 | the new item is first, older items follow in order, and the length grows by one until 100 and stays the same from then on |
| Storage.AddHistoryItem | src/utils/storage.js:62-70 | on a writable store the history becomes the bounded push of the item onto what was stored |
| Storage.NewestPush | src/utils/storage.js:62-68 | pushing onto the newest hundred of a list is the newest hundred of the extended list |
| Storage.AddAllKeepsNewest | src/utils/storage.js:62-70 | adding items one at a time to an empty history leaves the last hundred, newest first |
| Storage.GetSettings | src/utils/storage.js:83-115 | each field is the saved value if truthy, else the environment's if truthy, else 'moonshot', 'moonshot-v1-8k' or ''; provider and model are never empty |
| Storage.SaveSettings | src/utils/storage.js:117-125 | a successful save reads back as the saved record |
| Storage.SettingsRoundTrip | src/utils/storage.js:83-125 | settings whose fields are all non-empty read back unchanged after a save |
| Storage.SettingsResolutionIdempotent | src/utils/storage.js:83-125 | saving the resolved settings and resolving again changes nothing |
| Storage.ExportAll | src/utils/storage.js:128-136 | the export holds what the three getters return and the given date |
| Storage.ImportAll | src/utils/storage.js:138-154 | without data: false and nothing written; with data: true even when writes fail, each present section replaces the stored one, absent sections and other keys are kept |
| Storage.ExportImportRoundTrip | src/utils/storage.js:128-154 | importing an export into a writable store reproduces the graph, the history and the resolved settings |
| Storage.ClearAll | src/utils/storage.js:157-162 | the graph and history go; the settings and every other key stay |
| OntologyStore.SaveOntology | src/store/useOntologyStore.js:78-92 | succeeds exactly when the graph validates and the write succeeds; on success the graph is installed and stored and the error cleared; on failure only the error changes, to the validation message or the save-failed message |
| OntologyStore.UpdateOntology | src/store/useOntologyStore.js:97-100 | the re-stamped graph is installed exactly when it is well formed and the store is writable; history and settings are untouched |
| OntologyStore.NewNode | src/store/useOntologyStore.js:112-118 | each of id, name, type and description is the given value when non-empty, else the generated id, '新概念', 'concept' and '' respectively; provenance is 'manual' |
| OntologyStore.AddNode | src/store/useOntologyStore.js:105-126 | no graph: the not-initialised error and false; otherwise succeeds exactly when the graph with the node appended is well formed and the store writable |
| OntologyStore.AddNodeSucceeds | src/store/useOntologyStore.js:105-126 | on a valid graph and writable store, a node with a non-empty id is appended and nothing else changes |
| OntologyStore.PatchNodes | src/store/useOntologyStore.js:137-139 | same length; nodes with the given id are merged with the update, others are untouched |
| OntologyStore.UpdateNode | src/store/useOntologyStore.js:131-143 | no graph: false and no change; otherwise succeeds exactly when the patched graph is well formed and the store writable |
| OntologyStore.UpdateNodeKeepingIdsSucceeds | src/store/useOntologyStore.js:131-143 | an update that leaves ids alone and keeps names non-empty always succeeds on a valid graph and writable store |
| OntologyStore.NodesWithout | src/store/useOntologyStore.js:154 | exactly the nodes with another id are kept |
| OntologyStore.EdgesAvoiding | src/store/useOntologyStore.js:155-157 | exactly the edges touching neither end at the id are kept |
| OntologyStore.FilterConcat | src/store/useOntologyStore.js:154-157 | filtering two runs gives the filtered first run followed by the filtered second, so `filter` keeps order and repeats |
| OntologyStore.NodesWithoutKeepsOrder | src/store/useOntologyStore.js:154 | the kept nodes are those of each run in turn, and a single node is kept exactly when its id differs |
| OntologyStore.EdgesAvoidingKeepsOrder | src/store/useOntologyStore.js:155-157 | the kept edges are those of each run in turn, and a single edge is kept exactly when neither end is the node |
| OntologyStore.WithoutNodeKeepsValid | src/store/useOntologyStore.js:152-158 | removing a node with all its edges keeps a valid graph valid |
| OntologyStore.DeleteNode | src/store/useOntologyStore.js:148-161 | on a valid graph it fails only when the write fails; on success exactly the node and its edges are gone |
| OntologyStore.NewEdge | src/store/useOntologyStore.js:170-177 | the appended edge starts at 'manual', not at the given endpoint |
| OntologyStore.AddEdge | src/store/useOntologyStore.js:166-185 | no graph: false; otherwise succeeds exactly when the graph with that edge appended is well formed and the store writable |
| OntologyStore.AddEdgeAlwaysRejected | src/store/useOntologyStore.js:166-185 | unless a node has the id 'manual', adding an edge to a valid graph always fails with the dangling-edge message and leaves the graph as it was |
| OntologyStore.IntendedEdge | src/store/useOntologyStore.js:170-177 | the corrected record keeps the given endpoints and id |
| OntologyStore.AddEdgeIntended | src/store/useOntologyStore.js:166-185 | the corrected action succeeds exactly when the graph with the intended edge is well formed and the store writable |
| OntologyStore.AddEdgeIntendedSucceeds | src/store/useOntologyStore.js:166-185 | with the correction, an edge between two existing nodes is appended with its start node intact |
| OntologyStore.PatchEdges | src/store/useOntologyStore.js:196-198 | same length; edges with the given id are merged with the update, others are untouched |
| OntologyStore.UpdateEdge | src/store/useOntologyStore.js:190-202 | succeeds exactly when the patched graph is well formed and the store writable |
| OntologyStore.UpdateEdgeWithinGraphSucceeds | src/store/useOntologyStore.js:190-202 | an update that keeps the id non-empty and moves endpoints only onto existing nodes always succeeds on a valid graph and writable store |
| OntologyStore.EdgesWithout | src/store/useOntologyStore.js:213 | exactly the edges with another id are kept |
| OntologyStore.EdgesWithoutKeepsOrder | src/store/useOntologyStore.js:213 | the kept edges are those of each run in turn, and a single edge is kept exactly when its id differs |
| OntologyStore.DeleteEdge | src/store/useOntologyStore.js:207-217 | the nodes are untouched, exactly the edges with that id go, and on a valid graph it fails only when the write fails |
| OntologyStore.ClearOntology | src/store/useOntologyStore.js:222-230 | the stored graph is removed, a valid empty graph is shown, output and error cleared, nothing else changes |
| OntologyStore.UpdateSettings | src/store/useOntologyStore.js:295-302 | each field the update names wins, others are kept; the merged record is shown and, on a writable store, stored |
| OntologyStore.StampItem | src/store/useOntologyStore.js:273-277 | the item's own id and timestamp win over the generated ones; nothing else changes |
| OntologyStore.AddHistoryItem | src/store/useOntologyStore.js:272-282 | the shown history is what the store holds after the bounded push of the stamped item |
| OntologyStore.Initialize | src/store/useOntologyStore.js:44-55 | the stored graph, history and resolved settings are installed as they are, output cleared |
| OntologyStore.InitializeSkipsValidation | src/store/useOntologyStore.js:44-55 | a stored graph that fails validation (the sample graph) is installed anyway |
| OntologyStore.LoadOntology | src/store/useOntologyStore.js:60-73 | succeeds exactly when a stored graph exists and validates; then it is installed, otherwise only the error may change |
| OntologyStore.Step | src/store/useOntologyStore.js:78-323 | no action other than `initialize` changes the held graph to anything but a valid graph |
| OntologyStore.RunKeepsValid | src/store/useOntologyStore.js:78-323 | from a valid (or absent) graph, every sequence of actions ends with a valid (or absent) graph |
| Mermaid.GetExampleMermaid | src/components/OntologyManagement.jsx:452-492 | the example diagram starts with the `graph TD` header |
| Mermaid.Group | src/components/OntologyManagement.jsx:282-302 | every block key has a caption and a bucket, and every captioned key is a block key |
| Mermaid.GroupOrder | src/components/OntologyManagement.jsx:286-305 | the blocks are exactly the keys of the subgraph nodes |
| Mermaid.GroupLabel | src/components/OntologyManagement.jsx:287-290 | a block's caption is the name of the last subgraph node filed under its key |
| Mermaid.GroupBucket | src/components/OntologyManagement.jsx:286-302 | a node is listed in a block exactly when it names that block and no subgraph node for the block comes after it |
| Mermaid.GroupStandalone | src/components/OntologyManagement.jsx:298-301 | the standalone nodes are exactly those that are neither subgraph nodes nor name a block |
| Mermaid.OrphanMemberOmitted | src/components/OntologyManagement.jsx:291-316 | a node naming a block that no subgraph node opens is written nowhere |
| Mermaid.Render | src/components/OntologyManagement.jsx:279-334 | the text starts with the header and ends with the edge lines, or with the standalone lines when edges are absent |
| Mermaid.GenerateMermaid | src/components/OntologyManagement.jsx:276-335 | a missing graph or node list gives the example diagram; otherwise the rendering of nodes and edges |
| Mermaid.RunEnd | src/components/OntologyManagement.jsx:350-402 | the end of the maximal run of characters with a property, as a greedy regular-expression class consumes it |
| Mermaid.IdAt | src/components/OntologyManagement.jsx:378-402 | an id is an upper-case letter followed by digits |
| Mermaid.MatchSubgraphAt | src/components/OntologyManagement.jsx:350 | a header match has a non-empty key free of white space and a non-empty caption free of `]` |
| Mermaid.MatchNode | src/components/OntologyManagement.jsx:378 | a node match has a non-empty id and a non-empty name |
| Mermaid.MatchLabelled | src/components/OntologyManagement.jsx:400 | a labelled arrow has non-empty ends and relation |
| Mermaid.MatchPiped | src/components/OntologyManagement.jsx:401 | a piped arrow has non-empty ends and relation |
| Mermaid.MatchPlain | src/components/OntologyManagement.jsx:402-419 | a bare arrow has non-empty ends and the relation 'related-to' |
| Mermaid.ClassifyLine | src/components/OntologyManagement.jsx:344-434 | a line is read after trimming and dropping one final `;`, and what it yields has non-empty parts |
| Mermaid.ParseStep | src/components/OntologyManagement.jsx:349-434 | one line adds at most one record, never reuses a node id, numbers edges from 1 in order, and adds an edge exactly for an arrow line; a header opens its block and adds the block node when its id is new; `end` only closes the block; a node line with a new id adds the concept node tagged with the open block; an arrow line adds edge number `|edges| + 1`; any other line changes nothing |
| Mermaid.OpenBlockAt | src/components/OntologyManagement.jsx:342-375 | after some lines, the open block is the one opened by the last header, unless an `end` follows it, in which case none is open |
| Mermaid.OpenBlockNone | src/components/OntologyManagement.jsx:342 | before any header or `end`, no block is open |
| Mermaid.ParsePrefix | src/components/OntologyManagement.jsx:344-434 | nodes, once read, keep their place at the head of the node list |
| Mermaid.NodeLineTaggedWithOpenBlock | src/components/OntologyManagement.jsx:350-393 | a new node line whose nearest earlier header or `end` is a header adds a node whose `properties.subgraph` is that block's id and whose description is `属于: ` followed by the block's caption |
| Mermaid.NodeLineUntagged | src/components/OntologyManagement.jsx:371-393 | a new node line read after an `end`, or before any header, adds a node whose `properties.subgraph` is null and whose description is empty |
| Mermaid.ParseLines | src/components/OntologyManagement.jsx:344-435 | the lines are folded in order and yield at most one record per line |
| Mermaid.ParseLinesInv | src/components/OntologyManagement.jsx:344-435 | the parsed records have distinct node ids, complete fields and edge ids `edge-1`, `edge-2`, … in order |
| Mermaid.ParseMermaid | src/components/OntologyManagement.jsx:338-449 | version 1 and the given stamps; the nodes and edges are those of the line-by-line parse (so the block tagging above applies); distinct node ids; edges named `edge-1`, `edge-2`, … in order; the core concepts are the first five node names |
| Mermaid.ParsedValidIffEndpointsKnown | src/components/OntologyManagement.jsx:338-449 | a parsed graph validates exactly when every edge's ends are parsed node ids |
| Mermaid.ClassifyIgnoresFinalNewline | src/components/OntologyManagement.jsx:341-345 | a line reads the same with or without a final newline, so generated lines and the newline-free lines of the split agree |
| Mermaid.NodeLineReadsBack | src/components/OntologyManagement.jsx:311-320 | a node line as written, with or without its newline, reads back as the same node, when the id has the parser's form and the name is free of `]`, `"` and the word `subgraph` |
| Mermaid.EdgeLineReadsBack | src/components/OntologyManagement.jsx:330 | an edge line as written, with or without its newline, reads back as the same arrow with the relation trimmed, when the relation has no `-` and does not start with white space |
| Mermaid.BlockHeaderReadsBack | src/components/OntologyManagement.jsx:307 | a block header as written, with or without its newline, reads back as the same key and caption |
| Mermaid.EndLineReadsBack | src/components/OntologyManagement.jsx:315 | the closing line of a block, at any indentation and with or without its newline, reads back as the end of the block |
| Mermaid.PlainArrowReadsBack | src/components/OntologyManagement.jsx:402-419 | for any two ids of the form `[A-Z]\d*`, the line `source --> target` reads as an arrow from source to target with the relation `related-to` |
| Mermaid.PlainArrowDangles | src/components/OntologyManagement.jsx:338-449 | for any two ids, the one-line diagram `source --> target` parses to no nodes and one edge, and the result fails validation at `edge-1` |
| Templates.StringifyParam | src/prompts/templates.js:132-140 | the parameter keeps its keys and order; the named key's value is serialised exactly when it is truthy |
| Templates.GetPromptTemplate | src/prompts/templates.js:123-153 | an unknown type is an error naming it; build fills its template with the parameters; update and format first serialise the graph parameter, then fill |
| Templates.FillVerbatim | src/prompts/templates.js:147-150 | parameters whose placeholders do not occur leave the template unchanged |
| Templates.FillConcat | src/prompts/templates.js:147-150 | substitution with two runs of parameters is substitution with the first, then the second |
| Templates.FillOneEntry | src/prompts/templates.js:148-149 | one parameter replaces only the first occurrence of its placeholder |
| Strings.TrimStartIsSuffix | src/components/OntologyManagement.jsx:345 | leading trimming leaves a suffix of the line |
| Strings.TrimStartDropsSpace | src/components/OntologyManagement.jsx:345 | every character leading trimming drops is ECMAScript white space |
| Strings.TrimStartFirst | src/components/OntologyManagement.jsx:345 | what leading trimming leaves is empty or starts with a character that is not white space |
| Strings.TrimEndIsPrefix | src/components/OntologyManagement.jsx:345 | trailing trimming leaves a prefix of the line |
| Strings.TrimEndDropsSpace | src/components/OntologyManagement.jsx:345 | every character trailing trimming drops is ECMAScript white space |
| Strings.TrimEndLast | src/components/OntologyManagement.jsx:345 | what trailing trimming leaves is empty or ends with a character that is not white space |
| Strings.TrimDropsFinalSpace | src/components/OntologyManagement.jsx:345 | a final white-space character makes no difference to the trimmed line |
| Strings.TrimIsInnerSlice | src/components/OntologyManagement.jsx:345 | a trimmed line is a slice of the line that neither starts nor ends with white space |
| Strings.Split | src/components/OntologyManagement.jsx:341 | splitting gives at least one part, no part holds the separator, and joining the parts gives the text back |
| Strings.IndexOf | src/prompts/templates.js:149 | the search finds the first occurrence at or after the start, or reports that there is none |
| Strings.ReplaceFirstSpec | src/prompts/templates.js:149 | with a string pattern, `replace` changes only the first occurrence, and changes nothing when there is none |
| Strings.DecimalRoundTrip | src/components/OntologyManagement.jsx:423 | the decimal rendering of an edge number reads back as that number |
| Strings.NatToStringInjective | src/components/OntologyManagement.jsx:423 | different edge numbers give different ids |

## Left out

- The user interface (panels, dialogs, the graph drawing) and the AI service calls. They are presentation and network I/O.
- `generateId`, `new Date()` and `JSON.stringify` are not computed. Their results are parameters (`genId`, `now`, `stringify`).
- Node positions and styles written by the widget converters (`calculateNodePosition`, `getNodeStyle`). They are layout only.
- `exportOntologyAsJSON`, `importOntologyFromFile`, and the store's `exportOntology` and `importOntology`. They are file and download I/O. Importing amounts to `updateOntology`, which is modelled.
- JSON parsing of stored documents. A document is modelled as the value last written under its key. A document of the wrong kind reads as absent, like one that does not parse.
- `removeItem` is modelled as never failing. The store's `clearOntology` ignores its result.
- An own `undefined` property, a `null` one and a missing one are not told apart. All three are `None`. Two consequences: the source renders `${null}` as `null` in generated Mermaid node, block and edge lines where the model writes `undefined`; and the diff's `!==` tells a `null` description, type or relation from a missing one and reports the item as modified, where the model reports no change.
- `Object.entries` in the prompt templates is modelled in insertion order. JavaScript lists integer-like keys such as `"1"` first, in ascending order.
- Mermaid.Group: blocks are kept in the order their ids first occur. `Object.keys(subgraphInfo)` lists integer-like block ids (such as the `1` of a parsed `subgraph 1 [X]`) first, in ascending numeric order, so for such ids the source writes the blocks in a different order from `Mermaid.Render`. The model's block order is the source's only when no block id is integer-like.
- `replace` with a string pattern is modelled without the special `$` sequences in the replacement text.
- Strings are sequences of characters, not UTF-16 code units. The regular-expression classes used here never split a surrogate pair.
- Templates.GetPromptTemplate: the text and the parameters are modelled. Throwing is modelled as the `UnknownType` result. The in-place mutation of the caller's object is modelled as the returned parameter list.
- Mermaid.Render: its contract states the text's start and end. The block and node lines in between are characterised by the grouping lemmas and the read-back lemmas, not by Render's own contract.
- Mermaid.ParseMermaid: the parser does not check that edge endpoints name parsed nodes. `ParsedValidIffEndpointsKnown` and `PlainArrowDangles` state what that means for validation. The model does not add such a check.
- OntologyDiff.CompareOntologies: when both graphs are present it requires array-valued `nodes` and `edges`. In the source, any other value makes `.map` throw. When a graph is missing, a truthy non-array `nodes` or `edges` on the other one is modelled as absent and reported as `[]` (`NodesOr`, `EdgesOr`), where the source's `?.nodes || []` reports the value itself.
- Mermaid.GenerateMermaid: a `nodes` key that holds a truthy non-array value is modelled as absent, so the model returns the example diagram where the source passes the `!ontology.nodes` test and then throws at `ontology.nodes.forEach`. Likewise a truthy non-array `edges` makes `Render` write no edge lines where the source throws at `ontology.edges.forEach`.
- OntologyStore.Step: it requires array-valued `nodes` and `edges` in the held graph. In the source, a held graph without them makes the edit actions throw. `initialize`, the one action that can install such a graph, is modelled separately as `Initialize`.

## Findings

| source | as written | input that shows it | evidently intended | confidence | as-written member | corrected member |
|---|---|---|---|---|---|---|
| src/store/useOntologyStore.js:170-177 | the new edge literal writes `source: edgeData.source` and later `source: 'manual'`, so the start node is replaced by the provenance marker | any valid graph without a node whose id is 'manual', and an edge between two of its nodes: validation rejects the edge as dangling and `addEdge` returns false | keep the given start node (provenance belongs under another key) | not executed | OntologyStore.AddEdgeAlwaysRejected | OntologyStore.AddEdgeIntended |

=== FILE: mermaid.dfy ===
/** Conversion between a graph and Mermaid flowchart text: the serialiser
    that groups nodes into subgraph blocks, and the line-oriented parser
    whose regular expressions are written here as deterministic matchers. */
module Mermaid {
  import opened Wrappers
  import opened Model
  import opened Strings
  import opened OntologyUtils

  /** `getExampleMermaid`: the default diagram. */
  const ExampleMermaid: string := "graph TD\n" + ExampleBody

  const ExampleBody: string :=
    "    subgraph A [第一层: 行为体]\n"
    + "        A1[主权国家]\n"
    + "        A2[超国家实体]\n"
    + "        A3[核心企业/行业]\n"
    + "        A4[市场（抽象集合）]\n"
    + "    end\n"
    + "\n"
    + "    subgraph B [第二层: 互动关系]\n"
    + "        B1[贸易与资本流动]\n"
    + "        B2[政治与外交博弈]\n"
    + "        B3[规则制定与制裁]\n"
    + "        B4[技术竞争与合作]\n"
    + "    end\n"
    + "\n"
    + "    subgraph C [第三层: 系统场域]\n"
    + "        C1[全球贸易与产业链系统]\n"
    + "        C2[国际政治与安全体系]\n"
    + "        C3[全球货币与金融体系]\n"
    + "        C4[科技与能源生态系统]\n"
    + "    end\n"
    + "\n"
    + "    subgraph D [第四层: 压力指标]\n"
    + "        D1[经济压力]\n"
    + "        D2[金融压力]\n"
    + "        D3[社会压力]\n"
    + "        D4[地缘压力]\n"
    + "    end\n"
    + "\n"
    + "    subgraph E [第五层: 趋势与风险]\n"
    + "        E1[确定性趋势]\n"
    + "        E2[核心风险]\n"
    + "    end\n"
    + "\n"
    + "    A -- 通过行动产生 --> B;\n"
    + "    B -- 发生于并塑造 --> C;\n"
    + "    C -- 状态体现为 --> D;\n"
    + "    D -- 汇聚与传导为 --> E;\n"
    + "    E -- 反馈影响 --> A;"

  function GetExampleMermaid(): (r: string)
    ensures StartsWith(r, "graph TD\n")
  {
    assert ("graph TD\n" + ExampleBody)[..9] == "graph TD\n";
    ExampleMermaid
  }

  // =====================================================================
  // generateMermaidFromOntology

  /** `node.properties?.is_subgraph` */
  predicate IsSubgraphNode(n: Node) {
    n.properties.Some? && n.properties.value.isSubgraph
  }

  /** The block a non-subgraph node asks to join: its truthy
      `properties.subgraph`. */
  function MemberKey(n: Node): Option<string> {
    if !IsSubgraphNode(n) && n.properties.Some? && Truthy(n.properties.value.subgraph)
    then n.properties.value.subgraph else None
  }

  /** The object key a subgraph node is filed under: its id as a string. */
  function BlockKey(n: Node): string {
    Show(n.id)
  }

  /** The three accumulators of the grouping loop. `order` and `labels`
      together are the `subgraphInfo` object, its keys in insertion order
      (JavaScript would list integer-like keys first; this model does not);
      `buckets` is `subgraphNodes`. */
  datatype Grouping = Grouping(
    order: seq<string>,
    labels: map<string, Field>,
    buckets: map<string, seq<Node>>,
    standalone: seq<Node>)

  /** One iteration of `ontology.nodes.forEach`. A subgraph node (re)sets its
      block's label and empties its bucket; a member is appended to its
      bucket, creating it if need be; any other node is standalone. */
  function GroupStep(g: Grouping, n: Node): Grouping {
    if IsSubgraphNode(n) then
      var k := BlockKey(n);
      g.(order := if k in g.order then g.order else g.order + [k],
         labels := g.labels[k := n.name],
         buckets := g.buckets[k := []])
    else if MemberKey(n).Some? then
      var k := MemberKey(n).value;
      g.(buckets := g.buckets[k := (if k in g.buckets then g.buckets[k] else []) + [n]])
    else
      g.(standalone := g.standalone + [n])
  }

  /** The keys in `order` are those with a label, and each has a bucket. */
  predicate GroupingOk(g: Grouping) {
    && (forall k :: k in g.order ==> k in g.labels)
    && (forall k :: k in g.labels ==> k in g.order && k in g.buckets)
  }

  function Group(nodes: seq<Node>): (g: Grouping)
    ensures GroupingOk(g)
  {
    if |nodes| == 0 then Grouping([], map[], map[], [])
    else GroupStep(Group(nodes[..|nodes| - 1]), nodes[|nodes| - 1])
  }

  /** Some subgraph node is filed under `k`. */
  predicate HasBlock(nodes: seq<Node>, k: string) {
    exists i :: 0 <= i < |nodes| && IsSubgraphNode(nodes[i]) && BlockKey(nodes[i]) == k
  }

  /** No subgraph node filed under `k` comes after position `i`. */
  predicate NoLaterBlock(nodes: seq<Node>, i: nat, k: string) {
    forall j :: i < j < |nodes| ==> !(IsSubgraphNode(nodes[j]) && BlockKey(nodes[j]) == k)
  }

  /** The member `n` occurs at a position that no subgraph node filed under
      `k` follows. */
  predicate SurvivesInBlock(nodes: seq<Node>, n: Node, k: string) {
    MemberKey(n) == Some(k) && exists i :: 0 <= i < |nodes| && nodes[i] == n && NoLaterBlock(nodes, i, k)
  }

  /** The block keys are exactly the keys of the subgraph nodes. */
  lemma {:induction false} GroupOrder(nodes: seq<Node>)
    ensures forall k :: k in Group(nodes).order <==> HasBlock(nodes, k)
    decreases |nodes|
  {
    if |nodes| > 0 {
      var front := nodes[..|nodes| - 1];
      GroupOrder(front);
      forall k ensures HasBlock(nodes, k) <==> HasBlock(front, k) || (IsSubgraphNode(nodes[|nodes| - 1]) && BlockKey(nodes[|nodes| - 1]) == k) {
        if HasBlock(front, k) {
          var i :| 0 <= i < |front| && IsSubgraphNode(front[i]) && BlockKey(front[i]) == k;
          assert nodes[i] == front[i];
        }
        if HasBlock(nodes, k) {
          var i :| 0 <= i < |nodes| && IsSubgraphNode(nodes[i]) && BlockKey(nodes[i]) == k;
          if i < |front| { assert front[i] == nodes[i]; }
        }
      }
    }
  }

  /** A subgraph node filed under `k` sets the label of `k`. */
  lemma LabelStepSame(g: Grouping, n: Node, k: string)
    requires IsSubgraphNode(n) && BlockKey(n) == k
    ensures k in GroupStep(g, n).labels && GroupStep(g, n).labels[k] == n.name
  {
  }

  /** Any other node leaves the label of `k` as it was. */
  lemma LabelStepOther(g: Grouping, n: Node, k: string)
    requires !(IsSubgraphNode(n) && BlockKey(n) == k)
    ensures k in GroupStep(g, n).labels <==> k in g.labels
    ensures k in g.labels ==> GroupStep(g, n).labels[k] == g.labels[k]
  {
  }

  /** A block's label is the name of the last subgraph node filed under it. */
  lemma {:induction false} GroupLabel(nodes: seq<Node>, k: string)
    requires k in Group(nodes).labels
    ensures exists i :: 0 <= i < |nodes| && IsSubgraphNode(nodes[i]) && BlockKey(nodes[i]) == k
                        && nodes[i].name == Group(nodes).labels[k] && NoLaterBlock(nodes, i, k)
    decreases |nodes|
  {
    assert |nodes| > 0;
    var front := nodes[..|nodes| - 1];
    var x := nodes[|nodes| - 1];
    assert Group(nodes) == GroupStep(Group(front), x);
    if IsSubgraphNode(x) && BlockKey(x) == k {
      LabelStepSame(Group(front), x, k);
      assert NoLaterBlock(nodes, |nodes| - 1, k);
    } else {
      LabelStepOther(Group(front), x, k);
      GroupLabel(front, k);
      var i :| 0 <= i < |front| && IsSubgraphNode(front[i]) && BlockKey(front[i]) == k
               && front[i].name == Group(front).labels[k] && NoLaterBlock(front, i, k);
      NoLaterBlockFront(nodes, i, k);
      assert nodes[i] == front[i];
    }
  }

  /** Dropping the last node, when it is not a subgraph node filed under
      `k`, leaves `NoLaterBlock` unchanged for earlier positions. */
  lemma NoLaterBlockFront(nodes: seq<Node>, i: nat, k: string)
    requires i < |nodes| - 1
    requires !(IsSubgraphNode(nodes[|nodes| - 1]) && BlockKey(nodes[|nodes| - 1]) == k)
    ensures NoLaterBlock(nodes, i, k) <==> NoLaterBlock(nodes[..|nodes| - 1], i, k)
  {
    var front := nodes[..|nodes| - 1];
    if NoLaterBlock(front, i, k) {
      forall j | i < j < |nodes| ensures !(IsSubgraphNode(nodes[j]) && BlockKey(nodes[j]) == k) {
        if j < |front| { assert nodes[j] == front[j]; }
      }
    }
  }

  /** Any node other than a subgraph node filed under `k` leaves the
      bucket of `k` alone or appends itself to it. */
  lemma BucketStepOther(g: Grouping, n: Node, k: string)
    requires k in g.buckets && !(IsSubgraphNode(n) && BlockKey(n) == k)
    ensures k in GroupStep(g, n).buckets
    ensures GroupStep(g, n).buckets[k] == g.buckets[k] + (if MemberKey(n) == Some(k) then [n] else [])
  {
  }

  /** A block holds exactly the members filed under it that no later
      subgraph node with the same key has emptied out. */
  lemma {:induction false} GroupBucket(nodes: seq<Node>, k: string, n: Node)
    requires k in Group(nodes).order
    ensures n in Group(nodes).buckets[k] <==> SurvivesInBlock(nodes, n, k)
    decreases |nodes|
  {
    var front := nodes[..|nodes| - 1];
    var x := nodes[|nodes| - 1];
    var g0 := Group(front);
    var g := Group(nodes);
    assert g == GroupStep(g0, x);
    if IsSubgraphNode(x) && BlockKey(x) == k {
      assert g.buckets[k] == [];
    } else {
      assert k in g0.order && k in g0.buckets;
      BucketStepOther(g0, x, k);
      GroupBucket(front, k, n);
      SurvivesFront(nodes, n, k);
      if n == x && MemberKey(n) == Some(k) {
        assert NoLaterBlock(nodes, |nodes| - 1, k);
      }
    }
  }

  /** When the last node is not a subgraph node filed under `k`, a node
      other than the last survives in the block exactly when it survives
      without the last node. */
  lemma SurvivesFront(nodes: seq<Node>, n: Node, k: string)
    requires |nodes| > 0
    requires !(IsSubgraphNode(nodes[|nodes| - 1]) && BlockKey(nodes[|nodes| - 1]) == k)
    ensures n != nodes[|nodes| - 1] ==> (SurvivesInBlock(nodes, n, k) <==> SurvivesInBlock(nodes[..|nodes| - 1], n, k))
    ensures SurvivesInBlock(nodes[..|nodes| - 1], n, k) ==> SurvivesInBlock(nodes, n, k)
  {
    var front := nodes[..|nodes| - 1];
    if SurvivesInBlock(nodes, n, k) && n != nodes[|nodes| - 1] {
      var i :| 0 <= i < |nodes| && nodes[i] == n && NoLaterBlock(nodes, i, k);
      NoLaterBlockFront(nodes, i, k);
      assert front[i] == n;
    }
    if SurvivesInBlock(front, n, k) {
      var i :| 0 <= i < |front| && front[i] == n && NoLaterBlock(front, i, k);
      NoLaterBlockFront(nodes, i, k);
      assert nodes[i] == n;
    }
  }

  /** The standalone nodes are the nodes that are neither subgraph nodes
      nor members. */
  lemma {:induction false} GroupStandalone(nodes: seq<Node>)
    ensures forall n :: n in Group(nodes).standalone <==> n in nodes && !IsSubgraphNode(n) && MemberKey(n).None?
    decreases |nodes|
  {
    if |nodes| > 0 {
      var front := nodes[..|nodes| - 1];
      GroupStandalone(front);
      assert nodes == front + [nodes[|nodes| - 1]];
    }
  }

  /** A member whose block key no subgraph node carries is not emitted:
      it is in no rendered block and not standalone. */
  lemma OrphanMemberOmitted(nodes: seq<Node>, n: Node, k: string)
    requires n in nodes && MemberKey(n) == Some(k)
    requires !HasBlock(nodes, k)
    ensures var g := Group(nodes);
      && k !in g.order
      && n !in g.standalone
      && forall k' :: k' in g.order ==> n !in g.buckets[k']
  {
    var g := Group(nodes);
    GroupOrder(nodes);
    GroupStandalone(nodes);
    forall k' | k' in g.order ensures n !in g.buckets[k'] {
      GroupBucket(nodes, k', n);
    }
  }

  /** `${id}[${name}]` with its indentation and line break. */
  function NodeLine(indent: string, n: Node): string {
    indent + Show(n.id) + "[" + Show(n.name) + "]\n"
  }

  function NodeLines(indent: string, nodes: seq<Node>): string {
    if |nodes| == 0 then "" else NodeLine(indent, nodes[0]) + NodeLines(indent, nodes[1..])
  }

  /** One `subgraph … end` block with its member lines. */
  function BlockText(g: Grouping, k: string): string
    requires k in g.labels && k in g.buckets
  {
    "    subgraph " + k + " [" + Show(g.labels[k]) + "]\n" + NodeLines("        ", g.buckets[k]) + "    end\n\n"
  }

  function BlocksText(g: Grouping, keys: seq<string>): string
    requires forall k :: k in keys ==> k in g.labels && k in g.buckets
  {
    if |keys| == 0 then "" else BlockText(g, keys[0]) + BlocksText(g, keys[1..])
  }

  /** `    ${edge.source} -- ${edge.relation} --> ${edge.target};` */
  function EdgeLine(e: Edge): string {
    "    " + Show(e.source) + " -- " + Show(e.relation) + " --> " + Show(e.target) + ";\n"
  }

  function EdgeLines(edges: seq<Edge>): (r: string)
    ensures |edges| > 0 ==> StartsWith(r, EdgeLine(edges[0]))
  {
    if |edges| == 0 then "" else EdgeLine(edges[0]) + EdgeLines(edges[1..])
  }

  predicate EndsWith(s: string, suffix: string) {
    |suffix| <= |s| && s[|s| - |suffix|..] == suffix
  }

  lemma SuffixOfConcat(a: string, b: string)
    ensures EndsWith(a + b, b)
  {
    assert (a + b)[|a|..] == b;
  }

  /** The text for a graph with a node array: the header, the blocks in key
      order, the standalone nodes, and last one line per edge. */
  function Render(nodes: seq<Node>, edges: Option<seq<Edge>>): (r: string)
    ensures StartsWith(r, "graph TD\n")
    ensures edges.Some? ==> EndsWith(r, EdgeLines(edges.value))
    ensures edges.None? ==> var g := Group(nodes);
              EndsWith(r, NodeLines("    ", g.standalone) + (if |g.standalone| > 0 then "\n" else ""))
  {
    var g := Group(nodes);
    var standalone := NodeLines("    ", g.standalone) + (if |g.standalone| > 0 then "\n" else "");
    var tail := if edges.Some? then EdgeLines(edges.value) else "";
    var r := "graph TD\n" + BlocksText(g, g.order) + standalone + tail;
    assert r[..9] == "graph TD\n";
    SuffixOfConcat("graph TD\n" + BlocksText(g, g.order) + standalone, tail);
    assert edges.None? ==> r == "graph TD\n" + BlocksText(g, g.order) + standalone;
    SuffixOfConcat("graph TD\n" + BlocksText(g, g.order), standalone);
    r
  }

  /** `generateMermaidFromOntology`: the example when there is no graph or
      no node array, the rendered graph otherwise. */
  function GenerateMermaid(o: Option<Ontology>): (r: string)
    ensures o.None? || o.value.nodes.None? ==> r == ExampleMermaid
    ensures o.Some? && o.value.nodes.Some? ==> r == Render(o.value.nodes.value, o.value.edges)
  {
    if o.None? || o.value.nodes.None? then ExampleMermaid
    else Render(o.value.nodes.value, o.value.edges)
  }

  // =====================================================================
  // parseMermaidToOntology: the matchers

  /** End of the longest run, starting at `i`, of characters satisfying `p`. */
  function RunEnd(t: string, i: nat, p: char -> bool): (j: nat)
    requires i <= |t|
    ensures i <= j <= |t|
    ensures forall k :: i <= k < j ==> p(t[k])
    ensures j < |t| ==> !p(t[j])
    decreases |t| - i
  {
    if i < |t| && p(t[i]) then RunEnd(t, i + 1, p) else i
  }

  predicate IsUpper(c: char) { 'A' <= c <= 'Z' }
  predicate NotSpace(c: char) { !IsSpace(c) }
  predicate NotCloseBracket(c: char) { c != ']' }
  predicate NameChar(c: char) { c != ']' && c != '"' }
  predicate NotDash(c: char) { c != '-' }
  predicate NotPipe(c: char) { c != '|' }

  /** `[A-Z]\d*` at `i`: the end of the id. The digit run is maximal, since
      every pattern requires a non-digit after it or nothing at all. */
  function IdAt(t: string, i: nat): (r: Option<nat>)
    requires i <= |t|
    ensures r.Some? ==> i < r.value <= |t| && IsUpper(t[i])
    ensures r.Some? ==> forall k :: i < k < r.value ==> IsDigit(t[k])
  {
    if i < |t| && IsUpper(t[i]) then Some(RunEnd(t, i + 1, IsDigit)) else None
  }

  datatype SubgraphHead = SubgraphHead(id: string, caption: string)

  /** `subgraph\s+(\S+)\s+\[([^\]]+)\]` at position `p`. Each `\s+` and
      `\S+` can only take its maximal run (a shorter one leaves a character
      of the wrong class for what follows), and the caption is everything
      up to the first `]`, which must exist and not come first. */
  function MatchSubgraphAt(t: string, p: nat): (r: Option<SubgraphHead>)
    requires OccursAt(t, "subgraph", p)
    ensures r.Some? ==> |r.value.id| > 0 && |r.value.caption| > 0
    ensures r.Some? ==> forall k :: 0 <= k < |r.value.id| ==> !IsSpace(r.value.id[k])
    ensures r.Some? ==> forall k :: 0 <= k < |r.value.caption| ==> r.value.caption[k] != ']'
  {
    var e1 := RunEnd(t, p + 8, IsSpace);
    var e2 := RunEnd(t, e1, NotSpace);
    var e3 := RunEnd(t, e2, IsSpace);
    if e1 > p + 8 && e2 > e1 && e3 > e2 && e3 < |t| && t[e3] == '[' then
      var e4 := RunEnd(t, e3 + 1, NotCloseBracket);
      if e4 > e3 + 1 && e4 < |t| then
        Some(SubgraphHead(t[e1..e2], t[e3 + 1..e4]))
      else None
    else None
  }

  /** The subgraph pattern is not anchored: the first position where
      `subgraph` starts a match decides. */
  function FindSubgraph(t: string, from: nat): (r: Option<SubgraphHead>)
    ensures r.Some? ==> |r.value.id| > 0 && |r.value.caption| > 0
    decreases |t| - from
  {
    if from + 8 > |t| then None
    else if OccursAt(t, "subgraph", from) && MatchSubgraphAt(t, from).Some? then MatchSubgraphAt(t, from)
    else FindSubgraph(t, from + 1)
  }

  /** `^([A-Z]\d*)\["?([^\]"]+)"?\]`: an opening quote is taken when
      present, the name is the maximal run free of `]` and `"`, and it must
      be closed by `]` or `"]`. */
  function MatchNode(t: string): (r: Option<(string, string)>)
    ensures r.Some? ==> |r.value.0| > 0 && |r.value.1| > 0
  {
    match IdAt(t, 0)
    case None => None
    case Some(d) =>
      if d < |t| && t[d] == '[' then
        var s := if d + 1 < |t| && t[d + 1] == '"' then d + 2 else d + 1;
        var e := RunEnd(t, s, NameChar);
        if e > s && e < |t| && (t[e] == ']' || (t[e] == '"' && e + 1 < |t| && t[e + 1] == ']'))
        then Some((t[..d], t[s..e]))
        else None
      else None
  }

  datatype Arrow = Arrow(source: string, relation: string, target: string)

  /** `^([A-Z]\d*)\s+--\s+([^-]+)\s+-->\s+([A-Z]\d*)`. The relation cannot
      contain `-`, so the arrow must start at `q`, the first `-` after the
      `--`, and the character before it must be white space. When text
      other than white space precedes `q`, the relation runs from the end
      of the white space after `--` to just before `q`. When only white space
      does, backtracking leaves a single white-space character as the
      relation, which needs a run of at least three. */
  function MatchLabelled(t: string): (r: Option<Arrow>)
    ensures r.Some? ==> |r.value.source| > 0 && |r.value.target| > 0 && |r.value.relation| > 0
  {
    match IdAt(t, 0)
    case None => None
    case Some(d) =>
      var w := RunEnd(t, d, IsSpace);
      if w == d || !OccursAt(t, "--", w) then None
      else LabelledRest(t, d, w + 2)
  }

  /** The labelled pattern after its first `--`, which ends at `a`; the
      source id is `t[..d]`. */
  function LabelledRest(t: string, d: nat, a: nat): (r: Option<Arrow>)
    requires d <= |t| && 2 <= a <= |t|
    ensures r.Some? ==> r.value.source == t[..d] && |r.value.target| > 0 && |r.value.relation| > 0
  {
    var e := RunEnd(t, a, IsSpace);
    var q := RunEnd(t, a, NotDash);
    if e == a || !OccursAt(t, "-->", q) || !IsSpace(t[q - 1]) then None
    else if q == e && e - a < 3 then None
    else
      var relation := if q > e then t[e..q - 1] else t[e - 2..e - 1];
      match LabelledTarget(t, q)
      case None => None
      case Some(target) => Some(Arrow(t[..d], relation, target))
  }

  /** The target id after the `-->` that starts at `q`, past the white
      space the pattern demands. */
  function LabelledTarget(t: string, q: nat): (r: Option<string>)
    requires q + 3 <= |t|
    ensures r.Some? ==> |r.value| > 0
  {
    var w2 := RunEnd(t, q + 3, IsSpace);
    if w2 == q + 3 then None
    else match IdAt(t, w2)
      case None => None
      case Some(d2) => Some(t[w2..d2])
  }

  /** `^([A-Z]\d*)\s+-->?\|([^|]+)\|\s+([A-Z]\d*)`: the `>` is taken when
      present, and the relation is everything up to the next `|`. */
  function MatchPiped(t: string): (r: Option<Arrow>)
    ensures r.Some? ==> |r.value.source| > 0 && |r.value.target| > 0 && |r.value.relation| > 0
  {
    match IdAt(t, 0)
    case None => None
    case Some(d) =>
      var w := RunEnd(t, d, IsSpace);
      if w == d || !OccursAt(t, "--", w) then None
      else
        var o := if w + 2 < |t| && t[w + 2] == '>' then w + 3 else w + 2;
        if o >= |t| || t[o] != '|' then None
        else
          var c := RunEnd(t, o + 1, NotPipe);
          if c == o + 1 || c == |t| then None
          else
            var w2 := RunEnd(t, c + 1, IsSpace);
            if w2 == c + 1 then None
            else match IdAt(t, w2)
              case None => None
              case Some(d2) => Some(Arrow(t[..d], t[o + 1..c], t[w2..d2]))
  }

  /** `^([A-Z]\d*)\s+-->\s+([A-Z]\d*)`, with the relation `related-to`. */
  function MatchPlain(t: string): (r: Option<Arrow>)
    ensures r.Some? ==> |r.value.source| > 0 && |r.value.target| > 0 && r.value.relation == "related-to"
  {
    match IdAt(t, 0)
    case None => None
    case Some(d) =>
      var w := RunEnd(t, d, IsSpace);
      if w == d || !OccursAt(t, "-->", w) then None
      else
        var w2 := RunEnd(t, w + 3, IsSpace);
        if w2 == w + 3 then None
        else match IdAt(t, w2)
          case None => None
          case Some(d2) => Some(Arrow(t[..d], "related-to", t[w2..d2]))
  }

  /** `line.replace(/;$/, '')`: one trailing semicolon goes. */
  function StripSemicolon(t: string): string {
    if |t| > 0 && t[|t| - 1] == ';' then t[..|t| - 1] else t
  }

  /** What a line contributes, decided in the code's order: subgraph
      header, `end`, node, then the three edge forms. */
  datatype LineKind =
    | SubgraphLine(head: SubgraphHead)
    | EndLine
    | NodeDecl(id: string, name: string)
    | Link(arrow: Arrow)
    | OtherLine

  function ClassifyLine(raw: string): (k: LineKind)
    ensures k.NodeDecl? ==> |k.id| > 0 && |k.name| > 0
    ensures k.SubgraphLine? ==> |k.head.id| > 0 && |k.head.caption| > 0
    ensures k.Link? ==> |k.arrow.source| > 0 && |k.arrow.target| > 0
  {
    ClassifyTrimmed(StripSemicolon(Trim(raw)))
  }

  /** The decision for a line already trimmed and stripped of `;`. */
  function ClassifyTrimmed(t: string): (k: LineKind)
    ensures k.NodeDecl? ==> |k.id| > 0 && |k.name| > 0
    ensures k.SubgraphLine? ==> |k.head.id| > 0 && |k.head.caption| > 0
    ensures k.Link? ==> |k.arrow.source| > 0 && |k.arrow.target| > 0
  {
    match FindSubgraph(t, 0)
    case Some(h) => SubgraphLine(h)
    case None =>
      if t == "end" then EndLine
      else match MatchNode(t)
        case Some(m) => NodeDecl(m.0, m.1)
        case None =>
          match MatchLabelled(t)
          case Some(a) => Link(a.(relation := Trim(a.relation)))
          case None =>
            match MatchPiped(t)
            case Some(a) => Link(a.(relation := Trim(a.relation)))
            case None =>
              match MatchPlain(t)
              case Some(a) => Link(a)
              case None => OtherLine
  }

  // =====================================================================
  // parseMermaidToOntology: the fold over lines

  const Domain := "DOM_SOCIETY_TECH"

  /** The node a subgraph header adds. */
  function BlockNode(h: SubgraphHead): Node {
    Node(Some(h.id), Some(h.caption), Some("SYSTEM_MODEL"), Some("子图: " + h.caption), None, None,
         Some(Props(true, None, Some("SYSTEM_MODEL"), Some(Domain))))
  }

  /** The node a node line adds, tagged with the open block, if any. */
  function ConceptNode(id: string, name: string, current: Option<SubgraphHead>): Node {
    Node(Some(id), Some(name), Some("THEORY_CONCEPT"),
         Some(if current.Some? then "属于: " + current.value.caption else ""), None, None,
         Some(Props(false, if current.Some? then Some(current.value.id) else None, Some("THEORY_CONCEPT"), Some(Domain))))
  }

  /** The `k`-th edge of the parse (counting from 1). */
  function ParsedEdge(k: nat, a: Arrow): Edge {
    Edge(Some("edge-" + NatToString(k)), Some(a.source), Some(a.target), Some(a.relation), Some(""),
         Some("structural"), Some("medium"), Some(false))
  }

  predicate HasNodeId(nodes: seq<Node>, id: string) {
    exists n :: n in nodes && n.id == Some(id)
  }

  datatype ParseState = ParseState(nodes: seq<Node>, edges: seq<Edge>, current: Option<SubgraphHead>)

  /** Node ids are distinct. */
  predicate DistinctIds(nodes: seq<Node>) {
    forall i, j :: 0 <= i < j < |nodes| ==> nodes[i].id != nodes[j].id
  }

  /** Appending a node under an id not yet present keeps ids distinct. */
  lemma AppendNewId(nodes: seq<Node>, n: Node)
    requires n.id.Some? && !HasNodeId(nodes, n.id.value)
    ensures DistinctIds(nodes) ==> DistinctIds(nodes + [n])
  {
    if DistinctIds(nodes) {
      forall i, j | 0 <= i < j < |nodes| + 1 ensures (nodes + [n])[i].id != (nodes + [n])[j].id {
        if j == |nodes| { assert nodes[i] in nodes; }
      }
    }
  }

  /** What the parse keeps true of its accumulators: node ids are distinct,
      every node has a non-empty id and name, edges are numbered `edge-1`,
      `edge-2`, … in order and have non-empty endpoints. */
  predicate ParseInv(st: ParseState) {
    && DistinctIds(st.nodes)
    && (forall n :: n in st.nodes ==> NodeComplete(n))
    && (forall i :: 0 <= i < |st.edges| ==> st.edges[i].id == Some("edge-" + NatToString(i + 1)))
    && (forall e :: e in st.edges ==> EdgeComplete(e))
  }

  /** Adding a complete node under a new id keeps the invariant. */
  lemma AddNodeKeepsInv(st: ParseState, n: Node, c: Option<SubgraphHead>)
    requires n.id.Some? && !HasNodeId(st.nodes, n.id.value) && NodeComplete(n)
    ensures ParseInv(st) ==> ParseInv(ParseState(st.nodes + [n], st.edges, c))
  {
    AppendNewId(st.nodes, n);
  }

  /** Adding the next numbered edge, with two endpoints, keeps the invariant. */
  lemma AddEdgeKeepsInv(st: ParseState, a: Arrow)
    requires |a.source| > 0 && |a.target| > 0
    ensures ParseInv(st) ==> ParseInv(st.(edges := st.edges + [ParsedEdge(|st.edges| + 1, a)]))
  {
  }

  /** One iteration of `lines.forEach`: it keeps the invariant and adds at
      most one record. A node is added only under a new id; an edge always. */
  function ParseStep(st: ParseState, line: LineKind): (r: ParseState)
    requires line.NodeDecl? ==> |line.id| > 0 && |line.name| > 0
    requires line.SubgraphLine? ==> |line.head.id| > 0 && |line.head.caption| > 0
    requires line.Link? ==> |line.arrow.source| > 0 && |line.arrow.target| > 0
    ensures ParseInv(st) ==> ParseInv(r)
    ensures |r.nodes| + |r.edges| <= |st.nodes| + |st.edges| + 1
    ensures |st.nodes| <= |r.nodes| && r.nodes[..|st.nodes|] == st.nodes
    ensures line.Link? <==> |r.edges| == |st.edges| + 1
    ensures line.SubgraphLine? ==>
              && r.current == Some(line.head) && r.edges == st.edges
              && (HasNodeId(st.nodes, line.head.id) ==> r.nodes == st.nodes)
              && (!HasNodeId(st.nodes, line.head.id) ==> r.nodes == st.nodes + [BlockNode(line.head)])
    ensures line.EndLine? ==> r == st.(current := None)
    ensures line.NodeDecl? ==>
              && r.current == st.current && r.edges == st.edges
              && (HasNodeId(st.nodes, line.id) ==> r.nodes == st.nodes)
              && (!HasNodeId(st.nodes, line.id) ==> r.nodes == st.nodes + [ConceptNode(line.id, line.name, st.current)])
    ensures line.Link? ==> r == st.(edges := st.edges + [ParsedEdge(|st.edges| + 1, line.arrow)])
    ensures line.OtherLine? ==> r == st
  {
    match line
    case SubgraphLine(h) =>
      if HasNodeId(st.nodes, h.id) then st.(current := Some(h))
      else
        AddNodeKeepsInv(st, BlockNode(h), Some(h));
        ParseState(st.nodes + [BlockNode(h)], st.edges, Some(h))
    case EndLine => st.(current := None)
    case NodeDecl(id, name) =>
      if HasNodeId(st.nodes, id) then st
      else
        AddNodeKeepsInv(st, ConceptNode(id, name, st.current), st.current);
        st.(nodes := st.nodes + [ConceptNode(id, name, st.current)])
    case Link(a) =>
      AddEdgeKeepsInv(st, a);
      st.(edges := st.edges + [ParsedEdge(|st.edges| + 1, a)])
    case OtherLine => st
  }

  /** The lines folded in order. */
  function ParseLines(lines: seq<string>): (st: ParseState)
    ensures |st.nodes| + |st.edges| <= |lines|
    decreases |lines|
  {
    if |lines| == 0 then ParseState([], [], None)
    else ParseStep(ParseLines(lines[..|lines| - 1]), ClassifyLine(lines[|lines| - 1]))
  }

  /** The fold keeps the parse invariant: distinct node ids, complete
      fields, edges numbered from 1 in order. */
  lemma {:induction false} ParseLinesInv(lines: seq<string>)
    ensures ParseInv(ParseLines(lines))
    decreases |lines|
  {
    if |lines| > 0 {
      ParseLinesInv(lines[..|lines| - 1]);
      ParseLast(lines);
    }
  }

  /** `parseMermaidToOntology`; the clock is read twice. */
  function ParseMermaid(code: string, createdAt: string, updatedAt: string): (r: Ontology)
    ensures r.version == 1 && r.createdAt == createdAt && r.updatedAt == updatedAt
    ensures r.nodes.Some? && r.edges.Some?
    ensures r.nodes.value == ParseLines(Split(code, '\n')).nodes && r.edges.value == ParseLines(Split(code, '\n')).edges
    ensures DistinctIds(r.nodes.value)
    ensures forall i :: 0 <= i < |r.edges.value| ==> r.edges.value[i].id == Some("edge-" + NatToString(i + 1))
    ensures |r.nodes.value| + |r.edges.value| <= |Split(code, '\n')|
    ensures r.metadata.Some?
    ensures var names := r.metadata.value.coreConcepts;
      && |names| == (if |r.nodes.value| < 5 then |r.nodes.value| else 5)
      && forall i :: 0 <= i < |names| ==> names[i] == r.nodes.value[i].name
  {
    var st := ParseLines(Split(code, '\n'));
    ParseLinesInv(Split(code, '\n'));
    Ontology(1, createdAt, updatedAt, Some(st.nodes), Some(st.edges),
             Some(Metadata([Domain], [], FirstNames(st.nodes))))
  }

  /** `nodes.slice(0, 5).map(n => n.name)`. */
  function FirstNames(nodes: seq<Node>): (names: seq<Field>)
    ensures |names| == (if |nodes| < 5 then |nodes| else 5)
    ensures forall i :: 0 <= i < |names| ==> names[i] == nodes[i].name
  {
    var k := if |nodes| < 5 then |nodes| else 5;
    seq(k, i requires 0 <= i < k => nodes[i].name)
  }

  // ---------------------------------------------------------------------
  // Block tagging: which block a node line is filed under

  /** A line that opens or closes a block. */
  predicate IsMark(k: LineKind) {
    k.SubgraphLine? || k.EndLine?
  }

  /** Line `i` is the last header or `end` among the first `j` lines. */
  predicate LastMarkBefore(lines: seq<string>, i: int, j: int) {
    && 0 <= i < j <= |lines|
    && IsMark(ClassifyLine(lines[i]))
    && forall m :: i < m < j ==> !IsMark(ClassifyLine(lines[m]))
  }

  /** None of the first `j` lines is a header or `end`. */
  predicate NoMarkBefore(lines: seq<string>, j: int) {
    j <= |lines| && forall m :: 0 <= m < j ==> !IsMark(ClassifyLine(lines[m]))
  }

  /** The block line `i` leaves open: its own, if it is a header. */
  function OpenedBy(k: LineKind): Option<SubgraphHead> {
    if k.SubgraphLine? then Some(k.head) else None
  }

  /** A last line that is not a header or `end` leaves the last mark where it was. */
  lemma LastMarkFront(lines: seq<string>, i: int)
    requires |lines| > 0 && !IsMark(ClassifyLine(lines[|lines| - 1]))
    requires LastMarkBefore(lines, i, |lines|)
    ensures LastMarkBefore(lines[..|lines| - 1], i, |lines| - 1)
  {
    var front := lines[..|lines| - 1];
    forall m | i < m < |front| ensures !IsMark(ClassifyLine(front[m])) {
      assert front[m] == lines[m];
    }
  }

  /** The block the parse holds open after the lines whose last header or
      `end` is line `i`: the header's block, or none after an `end`. */
  lemma {:induction false} OpenBlockAt(lines: seq<string>, i: int)
    requires LastMarkBefore(lines, i, |lines|)
    ensures ParseLines(lines).current == OpenedBy(ClassifyLine(lines[i]))
    decreases |lines|
  {
    var front := lines[..|lines| - 1];
    ParseLast(lines);
    CurrentStep(ParseLines(front), lines[|lines| - 1]);
    if i < |lines| - 1 {
      LastMarkFront(lines, i);
      OpenBlockAt(front, i);
      assert front[i] == lines[i];
    }
  }

  /** The parse of non-empty lines is one step on from that of all but the last. */
  lemma ParseLast(lines: seq<string>)
    requires |lines| > 0
    ensures ParseLines(lines) == ParseStep(ParseLines(lines[..|lines| - 1]), ClassifyLine(lines[|lines| - 1]))
  {
  }

  /** A header opens its block, `end` closes it, any other line leaves it. */
  lemma CurrentStep(st: ParseState, line: string)
    ensures ParseStep(st, ClassifyLine(line)).current
            == if IsMark(ClassifyLine(line)) then OpenedBy(ClassifyLine(line)) else st.current
  {
  }

  /** Without any header or `end`, no block is open. */
  lemma {:induction false} OpenBlockNone(lines: seq<string>)
    requires NoMarkBefore(lines, |lines|)
    ensures ParseLines(lines).current == None
    decreases |lines|
  {
    if |lines| > 0 {
      var front := lines[..|lines| - 1];
      assert NoMarkBefore(front, |front|) by {
        forall m | 0 <= m < |front| ensures !IsMark(ClassifyLine(front[m])) {
          assert front[m] == lines[m];
        }
      }
      OpenBlockNone(front);
      ParseLast(lines);
      CurrentStep(ParseLines(front), lines[|lines| - 1]);
    }
  }

  /** The nodes read from the first `j` lines stay, in place, at the head
      of the nodes read from all of them. */
  lemma {:induction false} ParsePrefix(lines: seq<string>, j: nat)
    requires j <= |lines|
    ensures var before := ParseLines(lines[..j]).nodes;
      |before| <= |ParseLines(lines).nodes| && ParseLines(lines).nodes[..|before|] == before
    decreases |lines|
  {
    if j < |lines| {
      var front := lines[..|lines| - 1];
      assert front[..j] == lines[..j];
      ParsePrefix(front, j);
      ParseLast(lines);
      PrefixTrans(ParseLines(lines).nodes, ParseLines(front).nodes, ParseLines(lines[..j]).nodes);
    } else {
      assert lines[..j] == lines;
    }
  }

  lemma PrefixTrans<T>(a: seq<T>, b: seq<T>, c: seq<T>)
    requires |b| <= |a| && a[..|b|] == b && |c| <= |b| && b[..|c|] == c
    ensures a[..|c|] == c
  {
    assert a[..|c|] == a[..|b|][..|c|];
  }

  /** The parse of the first `j + 1` lines is one step on from that of the first `j`. */
  lemma ParseOneMore(lines: seq<string>, j: nat)
    requires j < |lines|
    ensures ParseLines(lines[..j + 1]) == ParseStep(ParseLines(lines[..j]), ClassifyLine(lines[j]))
  {
    assert lines[..j + 1][..j] == lines[..j];
  }

  /** A node line read while a block is open is filed under that block:
      the node it adds is tagged with the block's id and described as
      belonging to its caption. */
  lemma NodeLineTaggedWithOpenBlock(lines: seq<string>, i: nat, j: nat)
    requires LastMarkBefore(lines, i, j) && ClassifyLine(lines[i]).SubgraphLine?
    requires j < |lines| && ClassifyLine(lines[j]).NodeDecl?
    requires !HasNodeId(ParseLines(lines[..j]).nodes, ClassifyLine(lines[j]).id)
    ensures var p := |ParseLines(lines[..j]).nodes|;
      var h := ClassifyLine(lines[i]).head;
      var k := ClassifyLine(lines[j]);
      && p < |ParseLines(lines).nodes|
      && ParseLines(lines).nodes[p].id == Some(k.id)
      && ParseLines(lines).nodes[p].name == Some(k.name)
      && ParseLines(lines).nodes[p].properties.Some?
      && ParseLines(lines).nodes[p].properties.value.subgraph == Some(h.id)
      && ParseLines(lines).nodes[p].description == Some("属于: " + h.caption)
  {
    TaggedNode(lines, j);
    OpenBlockBefore(lines, j, i);
  }

  /** A node line read after an `end`, or before any header, is filed under
      no block: its `subgraph` is null and its description empty. */
  lemma NodeLineUntagged(lines: seq<string>, j: nat)
    requires j < |lines| && ClassifyLine(lines[j]).NodeDecl?
    requires NoMarkBefore(lines, j) || exists i :: LastMarkBefore(lines, i, j) && ClassifyLine(lines[i]).EndLine?
    requires !HasNodeId(ParseLines(lines[..j]).nodes, ClassifyLine(lines[j]).id)
    ensures var p := |ParseLines(lines[..j]).nodes|;
      var k := ClassifyLine(lines[j]);
      && p < |ParseLines(lines).nodes|
      && ParseLines(lines).nodes[p].id == Some(k.id)
      && ParseLines(lines).nodes[p].name == Some(k.name)
      && ParseLines(lines).nodes[p].properties.Some?
      && ParseLines(lines).nodes[p].properties.value.subgraph.None?
      && ParseLines(lines).nodes[p].description == Some("")
  {
    TaggedNode(lines, j);
    if NoMarkBefore(lines, j) {
      OpenBlockNoneBefore(lines, j);
    } else {
      var i :| LastMarkBefore(lines, i, j) && ClassifyLine(lines[i]).EndLine?;
      OpenBlockBefore(lines, j, i);
    }
  }

  /** The node a new node line adds, as it appears in the final list. */
  lemma TaggedNode(lines: seq<string>, j: nat)
    requires j < |lines| && ClassifyLine(lines[j]).NodeDecl?
    requires !HasNodeId(ParseLines(lines[..j]).nodes, ClassifyLine(lines[j]).id)
    ensures var st := ParseLines(lines[..j]);
      var k := ClassifyLine(lines[j]);
      && |st.nodes| < |ParseLines(lines).nodes|
      && ParseLines(lines).nodes[|st.nodes|] == ConceptNode(k.id, k.name, st.current)
  {
    var st := ParseLines(lines[..j]);
    StepPrefix(lines, j);
    NewNodeStep(st, lines[j]);
    PrefixIndex(ParseLines(lines).nodes, ParseStep(st, ClassifyLine(lines[j])).nodes, |st.nodes|);
  }

  /** What line `j` adds to the first `j` lines' nodes stays, in place, in the final list. */
  lemma StepPrefix(lines: seq<string>, j: nat)
    requires j < |lines|
    ensures var after := ParseStep(ParseLines(lines[..j]), ClassifyLine(lines[j])).nodes;
      |after| <= |ParseLines(lines).nodes| && ParseLines(lines).nodes[..|after|] == after
  {
    ParseOneMore(lines, j);
    ParsePrefix(lines, j + 1);
  }

  /** A node line under a new id appends its concept node. */
  lemma NewNodeStep(st: ParseState, line: string)
    requires ClassifyLine(line).NodeDecl? && !HasNodeId(st.nodes, ClassifyLine(line).id)
    ensures var k := ClassifyLine(line);
      ParseStep(st, k).nodes == st.nodes + [ConceptNode(k.id, k.name, st.current)]
  {
  }

  lemma PrefixIndex<T>(a: seq<T>, b: seq<T>, k: nat)
    requires |b| <= |a| && a[..|b|] == b && k < |b|
    ensures a[k] == b[k]
  {
    assert a[..|b|][k] == a[k];
  }

  /** The open block after the first `j` lines, read off those lines. */
  lemma OpenBlockBefore(lines: seq<string>, j: nat, i: int)
    requires j <= |lines|
    requires LastMarkBefore(lines, i, j)
    ensures ParseLines(lines[..j]).current == OpenedBy(ClassifyLine(lines[i]))
  {
    var pre := lines[..j];
    forall m | i < m < j ensures !IsMark(ClassifyLine(pre[m])) {
      assert pre[m] == lines[m];
    }
    assert pre[i] == lines[i];
    OpenBlockAt(pre, i);
  }

  /** With no header or `end` among the first `j` lines, no block is open. */
  lemma OpenBlockNoneBefore(lines: seq<string>, j: nat)
    requires NoMarkBefore(lines, j)
    ensures ParseLines(lines[..j]).current == None
  {
    var pre := lines[..j];
    forall m | 0 <= m < j ensures !IsMark(ClassifyLine(pre[m])) {
      assert pre[m] == lines[m];
    }
    OpenBlockNone(pre);
  }

  /** Parsing checks no endpoint: the result validates exactly when every
      edge starts and ends at a parsed node id. */
  lemma ParsedValidIffEndpointsKnown(code: string, createdAt: string, updatedAt: string)
    ensures var r := ParseMermaid(code, createdAt, updatedAt);
      ValidateOntology(Some(r)) == Valid <==>
        forall e :: e in r.edges.value ==> e.source in NodeIds(r.nodes.value) && e.target in NodeIds(r.nodes.value)
  {
    ParseLinesInv(Split(code, '\n'));
  }

  // =====================================================================
  // Rendered lines read back

  /** A Mermaid node id as the parser accepts it: `[A-Z]\d*`. */
  predicate IsMermaidId(s: string) {
    |s| > 0 && IsUpper(s[0]) && forall k :: 1 <= k < |s| ==> IsDigit(s[k])
  }

  predicate AllSpace(s: string) {
    forall k :: 0 <= k < |s| ==> IsSpace(s[k])
  }

  /** The word `subgraph` does not occur in `s`. */
  predicate NoSubgraphWord(s: string) {
    forall j: nat | j <= |s| :: !OccursAt(s, "subgraph", j)
  }

  lemma {:induction false} RunEndAt(t: string, i: nat, j: nat, p: char -> bool)
    requires i <= j <= |t|
    requires forall k :: i <= k < j ==> p(t[k])
    requires j < |t| ==> !p(t[j])
    ensures RunEnd(t, i, p) == j
    decreases j - i
  {
    if i < j {
      RunEndAt(t, i + 1, j, p);
    }
  }

  lemma {:induction false} IdAtEnd(t: string, i: nat, id: string)
    requires IsMermaidId(id) && i + |id| <= |t| && t[i..i + |id|] == id
    requires i + |id| < |t| ==> !IsDigit(t[i + |id|])
    ensures IdAt(t, i) == Some(i + |id|)
  {
    assert t[i] == id[0];
    forall k | i + 1 <= k < i + |id| ensures IsDigit(t[k]) {
      assert t[k] == id[k - i];
    }
    RunEndAt(t, i + 1, i + |id|, IsDigit);
  }

  lemma {:induction false} TrimStartPadded(pre: string, rest: string)
    requires AllSpace(pre) && |rest| > 0 && !IsSpace(rest[0])
    ensures TrimStart(pre + rest) == rest
    decreases |pre|
  {
    if |pre| > 0 {
      assert (pre + rest)[1..] == pre[1..] + rest;
      TrimStartPadded(pre[1..], rest);
    } else {
      assert pre + rest == rest;
    }
  }

  lemma {:induction false} TrimEndPadded(rest: string, post: string)
    requires AllSpace(post) && |rest| > 0 && !IsSpace(rest[|rest| - 1])
    ensures TrimEnd(rest + post) == rest
    decreases |post|
  {
    if |post| > 0 {
      assert (rest + post)[..|rest + post| - 1] == rest + post[..|post| - 1];
      TrimEndPadded(rest, post[..|post| - 1]);
    } else {
      assert rest + post == rest;
    }
  }

  /** `trim` removes exactly the white-space padding around a core that
      neither starts nor ends with white space. */
  lemma TrimPadded(pre: string, core: string, post: string)
    requires AllSpace(pre) && AllSpace(post)
    requires |core| > 0 && !IsSpace(core[0]) && !IsSpace(core[|core| - 1])
    ensures Trim(pre + core + post) == core
  {
    assert pre + core + post == pre + (core + post);
    TrimStartPadded(pre, core + post);
    TrimEndPadded(core, post);
  }

  lemma {:induction false} FindSubgraphNone(t: string, from: nat)
    requires NoSubgraphWord(t)
    ensures FindSubgraph(t, from) == None
    decreases |t| - from
  {
    if from + 8 <= |t| {
      FindSubgraphNone(t, from + 1);
    }
  }

  predicate IsLower(c: char) { 'a' <= c <= 'z' }

  /** A `subgraph` in `a + b + c`, where neither `a` nor `c` holds a
      lower-case letter, lies within `b`. */
  lemma SubgraphWordInside(a: string, b: string, c: string)
    requires forall k :: 0 <= k < |a| ==> !IsLower(a[k])
    requires forall k :: 0 <= k < |c| ==> !IsLower(c[k])
    requires NoSubgraphWord(b)
    ensures NoSubgraphWord(a + b + c)
  {
    var t := a + b + c;
    forall j: nat | j <= |t| ensures !OccursAt(t, "subgraph", j) {
      if OccursAt(t, "subgraph", j) {
        SubgraphWordWithin(a, b, c, j);
        assert false;
      }
    }
  }

  /** Where `subgraph` occurs in `a + b + c`, it occurs in `b`. */
  lemma SubgraphWordWithin(a: string, b: string, c: string, j: nat)
    requires forall k :: 0 <= k < |a| ==> !IsLower(a[k])
    requires forall k :: 0 <= k < |c| ==> !IsLower(c[k])
    requires OccursAt(a + b + c, "subgraph", j)
    ensures |a| <= j && OccursAt(b, "subgraph", j - |a|)
  {
    var t := a + b + c;
    var w := t[j..j + 8];
    assert IsLower(t[j]) && IsLower(t[j + 7]) by {
      assert w[0] == t[j] && w[7] == t[j + 7];
    }
    assert |a| <= j;
    assert j + 8 <= |a| + |b|;
    var i: nat := j - |a|;
    assert t[|a|..|a| + |b|] == b;
    assert b[i..i + 8] == t[|a|..|a| + |b|][i..i + 8] == w;
  }

  /** The three outcomes of the line decision the read-back lemmas need. */
  lemma ClassifyLineVia(raw: string, t: string)
    ensures StripSemicolon(Trim(raw)) == t ==> ClassifyLine(raw) == ClassifyTrimmed(t)
  {
  }

  lemma ClassifyTrimmedNode(t: string, id: string, name: string)
    ensures FindSubgraph(t, 0) == None && t != "end" && MatchNode(t) == Some((id, name))
            ==> ClassifyTrimmed(t) == NodeDecl(id, name)
  {
  }

  lemma ClassifyTrimmedLabelled(t: string, a: Arrow)
    ensures FindSubgraph(t, 0) == None && t != "end" && MatchNode(t) == None && MatchLabelled(t) == Some(a)
            ==> ClassifyTrimmed(t) == Link(a.(relation := Trim(a.relation)))
  {
  }

  lemma ClassifyTrimmedPlain(t: string, a: Arrow)
    ensures FindSubgraph(t, 0) == None && t != "end" && MatchNode(t) == None
            && MatchLabelled(t) == None && MatchPiped(t) == None && MatchPlain(t) == Some(a)
            ==> ClassifyTrimmed(t) == Link(a)
  {
  }

  /** `[A-Z]\d*` at the start of a string that continues with `c`. */
  lemma IdBeforeChar(id: string, rest: string)
    requires IsMermaidId(id) && |rest| > 0 && !IsDigit(rest[0])
    ensures IdAt(id + rest, 0) == Some(|id|)
  {
    assert (id + rest)[..|id|] == id;
    IdAtEnd(id + rest, 0, id);
  }

  /** The node pattern, on a line laid out as it expects. */
  lemma MatchNodeAt(t: string, d: nat, e: nat)
    requires IdAt(t, 0) == Some(d)
    requires d + 1 < e < |t| && t[d] == '[' && t[d + 1] != '"' && t[e] == ']'
    requires forall k :: d + 1 <= k < e ==> NameChar(t[k])
    ensures MatchNode(t) == Some((t[..d], t[d + 1..e]))
  {
    RunEndAt(t, d + 1, e, NameChar);
  }

  lemma MatchNodeOf(id: string, name: string)
    requires IsMermaidId(id)
    requires |name| > 0 && forall k :: 0 <= k < |name| ==> NameChar(name[k])
    ensures MatchNode(id + "[" + name + "]") == Some((id, name))
  {
    var t := id + "[" + name + "]";
    var d := |id|;
    assert t == id + ("[" + name + "]");
    IdBeforeChar(id, "[" + name + "]");
    var e := d + 1 + |name|;
    forall k | d + 1 <= k < e ensures NameChar(t[k]) {
      assert t[k] == name[k - d - 1];
    }
    MatchNodeAt(t, d, e);
    assert t[..d] == id;
    assert t[d + 1..e] == name;
  }

  lemma NodeLineTrimmed(indent: string, id: string, name: string)
    requires AllSpace(indent) && IsMermaidId(id)
    ensures StripSemicolon(Trim(indent + id + "[" + name + "]\n")) == id + "[" + name + "]"
  {
    var t := id + "[" + name + "]";
    assert indent + id + "[" + name + "]\n" == indent + t + "\n";
    assert t[0] == id[0];
    assert AllSpace("\n") by { assert "\n"[0] == '\n'; }
    TrimPadded(indent, t, "\n");
  }

  lemma NodeLineNoSubgraph(id: string, name: string)
    requires IsMermaidId(id) && NoSubgraphWord(name)
    ensures FindSubgraph(id + "[" + name + "]", 0) == None
  {
    forall k | 0 <= k < |id + "["| ensures !IsLower((id + "[")[k]) {
      if k < |id| { assert (id + "[")[k] == id[k]; }
    }
    SubgraphWordInside(id + "[", name, "]");
    FindSubgraphNone(id + "[" + name + "]", 0);
  }

  /** Split lines lack the newline each generated line ends with; the
      reading is the same with or without it, since the line is trimmed
      first. */
  lemma ClassifyIgnoresFinalNewline(line: string)
    ensures ClassifyLine(line + "\n") == ClassifyLine(line)
  {
    TrimDropsFinalSpace(line, '\n');
  }

  /** A node line as the serialiser writes it, `id[name]` on its own
      indented line, reads back as a node with that id and name, provided
      the id has the parser's form and the name is non-empty, free of `]`
      and `"`, and does not contain the word `subgraph`. */
  lemma NodeLineReadsBack(indent: string, id: string, name: string)
    requires AllSpace(indent) && IsMermaidId(id)
    requires |name| > 0 && NoSubgraphWord(name)
    requires forall k :: 0 <= k < |name| ==> NameChar(name[k])
    ensures ClassifyLine(indent + id + "[" + name + "]\n") == NodeDecl(id, name)
    ensures ClassifyLine(indent + id + "[" + name + "]") == NodeDecl(id, name)
  {
    var line := indent + id + "[" + name + "]";
    ClassifyIgnoresFinalNewline(line);
    assert line + "\n" == indent + id + "[" + name + "]\n";
    var t := id + "[" + name + "]";
    NodeLineTrimmed(indent, id, name);
    NodeLineNoSubgraph(id, name);
    assert t != "end" by { assert t[0] == id[0]; }
    MatchNodeOf(id, name);
    ClassifyTrimmedNode(t, id, name);
    ClassifyLineVia(indent + id + "[" + name + "]\n", t);
  }

  /** The labelled-edge pattern, on a line laid out as it expects: one space
      each side of `--` and of `-->`, and a relation that starts with no
      white space and has no `-`. */
  predicate LabelledLayout(t: string, d: nat, q: nat) {
    && IdAt(t, 0) == Some(d)
    && d + 5 < q && q + 4 < |t|
    && t[d] == ' ' && t[d + 1] == '-' && t[d + 2] == '-' && t[d + 3] == ' ' && !IsSpace(t[d + 4])
    && (forall k :: d + 3 <= k < q ==> NotDash(t[k]))
    && t[q - 1] == ' ' && t[q] == '-' && t[q + 1] == '-' && t[q + 2] == '>' && t[q + 3] == ' ' && !IsSpace(t[q + 4])
    && IdAt(t, q + 4) == Some(|t|)
  }

  lemma LabelledSpaceRuns(t: string, d: nat, q: nat)
    requires LabelledLayout(t, d, q)
    ensures RunEnd(t, d, IsSpace) == d + 1
    ensures RunEnd(t, d + 3, IsSpace) == d + 4
    ensures RunEnd(t, q + 3, IsSpace) == q + 4
  {
    RunEndAt(t, d, d + 1, IsSpace);
    RunEndAt(t, d + 3, d + 4, IsSpace);
    RunEndAt(t, q + 3, q + 4, IsSpace);
  }

  lemma LabelledDashRun(t: string, d: nat, q: nat)
    requires LabelledLayout(t, d, q)
    ensures RunEnd(t, d + 3, NotDash) == q
  {
    RunEndAt(t, d + 3, q, NotDash);
  }

  lemma LabelledArrows(t: string, d: nat, q: nat)
    requires LabelledLayout(t, d, q)
    ensures OccursAt(t, "--", d + 1) && OccursAt(t, "-->", q)
  {
    assert t[d + 1..d + 3] == "--";
    assert t[q..q + 3] == "-->";
  }

  lemma LabelledRuns(t: string, d: nat, q: nat)
    requires LabelledLayout(t, d, q)
    ensures RunEnd(t, d, IsSpace) == d + 1
    ensures RunEnd(t, d + 3, IsSpace) == d + 4
    ensures RunEnd(t, d + 3, NotDash) == q
    ensures RunEnd(t, q + 3, IsSpace) == q + 4
    ensures OccursAt(t, "--", d + 1) && OccursAt(t, "-->", q)
  {
    LabelledSpaceRuns(t, d, q);
    LabelledDashRun(t, d, q);
    LabelledArrows(t, d, q);
  }

  lemma MatchLabelledAt(t: string, d: nat, q: nat)
    ensures LabelledLayout(t, d, q) ==> MatchLabelled(t) == Some(Arrow(t[..d], t[d + 4..q - 1], t[q + 4..]))
  {
    if LabelledLayout(t, d, q) {
      LabelledRestAt(t, d, q);
      assert RunEnd(t, d, IsSpace) == d + 1 && OccursAt(t, "--", d + 1) by {
        LabelledSpaceRuns(t, d, q);
        LabelledArrows(t, d, q);
      }
    }
  }

  /** The part after the first `--` of a labelled line. */
  lemma LabelledRestAt(t: string, d: nat, q: nat)
    requires LabelledLayout(t, d, q)
    ensures LabelledRest(t, d, d + 3) == Some(Arrow(t[..d], t[d + 4..q - 1], t[q + 4..]))
  {
    LabelledRuns(t, d, q);
    LabelledTargetAt(t, d, q);
    LabelledRestFrom(t, d, q);
  }

  /** The same, from the run ends and the characters the matcher looks at. */
  lemma LabelledRestFrom(t: string, d: nat, q: nat)
    requires d + 5 < q && q + 4 <= |t|
    requires RunEnd(t, d + 3, IsSpace) == d + 4 && RunEnd(t, d + 3, NotDash) == q
    requires OccursAt(t, "-->", q) && t[q - 1] == ' '
    requires LabelledTarget(t, q) == Some(t[q + 4..])
    ensures LabelledRest(t, d, d + 3) == Some(Arrow(t[..d], t[d + 4..q - 1], t[q + 4..]))
  {
    assert IsSpace(t[q - 1]);
  }

  /** The target id of a labelled line. */
  lemma LabelledTargetAt(t: string, d: nat, q: nat)
    requires LabelledLayout(t, d, q)
    ensures LabelledTarget(t, q) == Some(t[q + 4..])
  {
    LabelledSpaceRuns(t, d, q);
    assert t[q + 4..|t|] == t[q + 4..];
  }

  /** The characters of the text between the two ids of an edge line. */
  lemma ArrowMiddle(relation: string)
    ensures var mid := " -- " + relation + " --> ";
      && |mid| == |relation| + 9
      && mid[0] == ' ' && mid[1] == '-' && mid[2] == '-' && mid[3] == ' '
      && (forall k :: 0 <= k < |relation| ==> mid[4 + k] == relation[k])
      && mid[|relation| + 4] == ' ' && mid[|relation| + 5] == '-' && mid[|relation| + 6] == '-'
      && mid[|relation| + 7] == '>' && mid[|relation| + 8] == ' '
  {
  }

  lemma ArrowSourceId(source: string, relation: string, target: string)
    requires IsMermaidId(source)
    ensures IdAt(source + (" -- " + relation + " --> ") + target, 0) == Some(|source|)
  {
    var mid := " -- " + relation + " --> ";
    ArrowMiddle(relation);
    IdBeforeChar(source, mid + target);
    assert source + mid + target == source + (mid + target);
  }

  lemma ArrowTargetId(source: string, relation: string, target: string)
    requires IsMermaidId(target)
    ensures var t := source + (" -- " + relation + " --> ") + target;
      IdAt(t, |source| + |relation| + 9) == Some(|t|) && t[|source| + |relation| + 9..] == target
  {
    var mid := " -- " + relation + " --> ";
    var t := source + mid + target;
    ArrowMiddle(relation);
    assert t[|source| + |mid|..] == target;
    IdAtEnd(t, |source| + |mid|, target);
  }

  lemma ArrowNoDash(source: string, relation: string, target: string)
    requires forall k :: 0 <= k < |relation| ==> NotDash(relation[k])
    ensures var t := source + (" -- " + relation + " --> ") + target;
      forall k :: |source| + 3 <= k < |source| + |relation| + 5 ==> NotDash(t[k])
  {
    var mid := " -- " + relation + " --> ";
    var t := source + mid + target;
    var d := |source|;
    ArrowMiddle(relation);
    forall k | d + 3 <= k < d + |relation| + 5 ensures NotDash(t[k]) {
      assert t[k] == mid[k - d];
      if d + 4 <= k < d + |relation| + 4 { assert mid[k - d] == relation[k - d - 4]; }
    }
  }

  lemma ArrowChars(source: string, relation: string, target: string)
    requires |relation| > 0
    ensures var t := source + (" -- " + relation + " --> ") + target;
      var d := |source|;
      var q := d + |relation| + 5;
      && q + 4 <= |t|
      && t[d] == ' ' && t[d + 1] == '-' && t[d + 2] == '-' && t[d + 3] == ' ' && t[d + 4] == relation[0]
      && t[q - 1] == ' ' && t[q] == '-' && t[q + 1] == '-' && t[q + 2] == '>' && t[q + 3] == ' '
      && t[..d] == source && t[d + 4..q - 1] == relation
  {
    var mid := " -- " + relation + " --> ";
    var n := |relation|;
    ArrowMiddle(relation);
    InfixIndex(source, mid, target, 0);
    InfixIndex(source, mid, target, 1);
    InfixIndex(source, mid, target, 2);
    InfixIndex(source, mid, target, 3);
    InfixIndex(source, mid, target, 4);
    InfixIndex(source, mid, target, n + 4);
    InfixIndex(source, mid, target, n + 5);
    InfixIndex(source, mid, target, n + 6);
    InfixIndex(source, mid, target, n + 7);
    InfixIndex(source, mid, target, n + 8);
    InfixSlice(source, mid, target, 4, n + 4);
    assert mid[4..n + 4] == relation;
  }

  /** Position `k` of the middle part of `a + m + b`. */
  lemma InfixIndex<T>(a: seq<T>, m: seq<T>, b: seq<T>, k: nat)
    requires k < |m|
    ensures (a + m + b)[|a| + k] == m[k]
  {
  }

  /** A slice of the middle part of `a + m + b`, and the prefix `a`. */
  lemma InfixSlice<T>(a: seq<T>, m: seq<T>, b: seq<T>, i: nat, j: nat)
    requires i <= j <= |m|
    ensures (a + m + b)[|a| + i..|a| + j] == m[i..j]
    ensures (a + m + b)[..|a|] == a
  {
    assert (a + m + b)[|a| + i..|a| + j] == (a + m + b)[|a|..|a| + |m|][i..j];
    assert (a + m + b)[|a|..|a| + |m|] == m;
  }

  lemma LabelledLayoutOf(source: string, relation: string, target: string)
    requires IsMermaidId(source) && IsMermaidId(target)
    requires |relation| > 0 && !IsSpace(relation[0])
    requires forall k :: 0 <= k < |relation| ==> NotDash(relation[k])
    ensures var t := source + (" -- " + relation + " --> ") + target;
      && LabelledLayout(t, |source|, |source| + |relation| + 5)
      && t[..|source|] == source
      && t[|source| + 4..|source| + |relation| + 4] == relation
      && t[|source| + |relation| + 9..] == target
  {
    ArrowSourceId(source, relation, target);
    ArrowTargetId(source, relation, target);
    ArrowNoDash(source, relation, target);
    ArrowChars(source, relation, target);
    assert IsUpper(target[0]);
  }

  lemma MatchLabelledParts(t: string, d: nat, q: nat, a: Arrow)
    requires LabelledLayout(t, d, q)
    requires t[..d] == a.source && t[d + 4..q - 1] == a.relation && t[q + 4..] == a.target
    ensures MatchLabelled(t) == Some(a)
  {
    MatchLabelledAt(t, d, q);
  }

  lemma MatchLabelledOf(source: string, relation: string, target: string)
    requires IsMermaidId(source) && IsMermaidId(target)
    requires |relation| > 0 && !IsSpace(relation[0])
    requires forall k :: 0 <= k < |relation| ==> NotDash(relation[k])
    ensures MatchLabelled(source + (" -- " + relation + " --> ") + target) == Some(Arrow(source, relation, target))
  {
    var t := source + (" -- " + relation + " --> ") + target;
    var d := |source|;
    var q := d + |relation| + 5;
    LabelledLayoutOf(source, relation, target);
    assert t[d + 4..q - 1] == relation;
    assert t[q + 4..] == target;
    MatchLabelledParts(t, d, q, Arrow(source, relation, target));
  }

  /** Trimming an edge line and dropping its `;` leaves the arrow text. */
  lemma EdgeLineCore(source: string, relation: string, target: string)
    requires IsMermaidId(source)
    ensures StripSemicolon(Trim("    " + source + " -- " + relation + " --> " + target + ";\n"))
            == source + (" -- " + relation + " --> ") + target
  {
    var t := source + (" -- " + relation + " --> ") + target;
    assert "    " + source + " -- " + relation + " --> " + target + ";\n" == "    " + (t + ";") + "\n";
    assert (t + ";")[0] == source[0];
    TrimPadded("    ", t + ";", "\n");
    assert StripSemicolon(t + ";") == t;
  }

  /** No edge line of this shape is taken for a subgraph header, an `end`
      or a node. */
  lemma EdgeLineNoEarlierMatch(source: string, relation: string, target: string)
    requires IsMermaidId(source) && IsMermaidId(target) && NoSubgraphWord(relation)
    ensures var t := source + (" -- " + relation + " --> ") + target;
      FindSubgraph(t, 0) == None && t != "end" && MatchNode(t) == None
  {
    var t := source + (" -- " + relation + " --> ") + target;
    assert t == (source + " -- ") + relation + (" --> " + target);
    forall k | 0 <= k < |source + " -- "| ensures !IsLower((source + " -- ")[k]) {
      if k < |source| { assert (source + " -- ")[k] == source[k]; }
    }
    forall k | 0 <= k < |" --> " + target| ensures !IsLower((" --> " + target)[k]) {
      if k >= 5 { assert (" --> " + target)[k] == target[k - 5]; }
    }
    SubgraphWordInside(source + " -- ", relation, " --> " + target);
    FindSubgraphNone(t, 0);
    ArrowSourceId(source, relation, target);
    assert t[|source|] == ' ';
  }

  /** An edge line as the serialiser writes it, `source -- relation -->
      target;`, reads back as that edge, provided both ids have the
      parser's form and the relation is non-empty, starts with no white
      space, has no `-` and does not contain the word `subgraph`. The
      relation comes back trimmed. */
  lemma EdgeLineReadsBack(source: string, relation: string, target: string)
    requires IsMermaidId(source) && IsMermaidId(target)
    requires |relation| > 0 && !IsSpace(relation[0]) && NoSubgraphWord(relation)
    requires forall k :: 0 <= k < |relation| ==> NotDash(relation[k])
    ensures ClassifyLine("    " + source + " -- " + relation + " --> " + target + ";\n")
            == Link(Arrow(source, Trim(relation), target))
    ensures ClassifyLine("    " + source + " -- " + relation + " --> " + target + ";")
            == Link(Arrow(source, Trim(relation), target))
  {
    var line := "    " + source + " -- " + relation + " --> " + target + ";";
    ClassifyIgnoresFinalNewline(line);
    assert line + "\n" == "    " + source + " -- " + relation + " --> " + target + ";\n";
    var t := source + (" -- " + relation + " --> ") + target;
    EdgeLineCore(source, relation, target);
    EdgeLineNoEarlierMatch(source, relation, target);
    MatchLabelledOf(source, relation, target);
    ClassifyTrimmedLabelled(t, Arrow(source, relation, target));
    ClassifyLineVia("    " + source + " -- " + relation + " --> " + target + ";\n", t);
  }

  /** The subgraph pattern, on a header laid out as it expects. */
  lemma MatchSubgraphAtLaidOut(t: string, e2: nat)
    requires OccursAt(t, "subgraph", 0) && 9 < e2 && e2 + 3 < |t|
    requires t[8] == ' ' && forall k :: 9 <= k < e2 ==> NotSpace(t[k])
    requires t[e2] == ' ' && t[e2 + 1] == '[' && t[|t| - 1] == ']'
    requires forall k :: e2 + 2 <= k < |t| - 1 ==> NotCloseBracket(t[k])
    ensures MatchSubgraphAt(t, 0) == Some(SubgraphHead(t[9..e2], t[e2 + 2..|t| - 1]))
  {
    RunEndAt(t, 8, 9, IsSpace);
    RunEndAt(t, 9, e2, NotSpace);
    RunEndAt(t, e2, e2 + 1, IsSpace);
    RunEndAt(t, e2 + 2, |t| - 1, NotCloseBracket);
  }

  /** The fixed characters of a block header around its key and caption. */
  lemma HeaderFrame(key: string, caption: string)
    ensures var t := "subgraph " + key + " [" + caption + "]";
      && |t| == 12 + |key| + |caption|
      && t[..8] == "subgraph" && t[8] == ' '
      && t[9 + |key|] == ' ' && t[10 + |key|] == '[' && t[|t| - 1] == ']'
  {
    var t := "subgraph " + key + " [" + caption + "]";
    var head := "subgraph ";
    var tail := " [" + caption + "]";
    assert t == head + key + tail;
    assert t[..9] == head;
    assert t[9 + |key|..] == tail;
  }

  lemma HeaderSlices(key: string, caption: string)
    ensures var t := "subgraph " + key + " [" + caption + "]";
      && |t| == 12 + |key| + |caption|
      && t[9..9 + |key|] == key && t[11 + |key|..|t| - 1] == caption
  {
    var t := "subgraph " + key + " [" + caption + "]";
    assert t == "subgraph " + (key + (" [" + (caption + "]")));
  }

  lemma MatchSubgraphAtOf(key: string, caption: string)
    requires |key| > 0 && forall k :: 0 <= k < |key| ==> NotSpace(key[k])
    requires |caption| > 0 && forall k :: 0 <= k < |caption| ==> NotCloseBracket(caption[k])
    ensures OccursAt("subgraph " + key + " [" + caption + "]", "subgraph", 0)
    ensures MatchSubgraphAt("subgraph " + key + " [" + caption + "]", 0) == Some(SubgraphHead(key, caption))
  {
    var t := "subgraph " + key + " [" + caption + "]";
    HeaderFrame(key, caption);
    HeaderSlices(key, caption);
    var e2 := 9 + |key|;
    forall k | 9 <= k < e2 ensures NotSpace(t[k]) { assert t[k] == t[9..e2][k - 9]; }
    forall k | e2 + 2 <= k < |t| - 1 ensures NotCloseBracket(t[k]) { assert t[k] == t[e2 + 2..|t| - 1][k - e2 - 2]; }
    MatchSubgraphAtLaidOut(t, e2);
  }

  lemma FindSubgraphFirst(t: string, h: SubgraphHead)
    ensures OccursAt(t, "subgraph", 0) && MatchSubgraphAt(t, 0) == Some(h) ==> FindSubgraph(t, 0) == Some(h)
  {
  }

  lemma ClassifyTrimmedBlock(t: string, h: SubgraphHead)
    ensures FindSubgraph(t, 0) == Some(h) ==> ClassifyTrimmed(t) == SubgraphLine(h)
  {
  }

  lemma BlockHeaderCore(key: string, caption: string)
    ensures StripSemicolon(Trim("    subgraph " + key + " [" + caption + "]\n")) == "subgraph " + key + " [" + caption + "]"
  {
    var t := "subgraph " + key + " [" + caption + "]";
    HeaderFrame(key, caption);
    assert "    subgraph " + key + " [" + caption + "]\n" == "    " + t + "\n";
    assert AllSpace("    ") by {
      forall k | 0 <= k < 4 ensures IsSpace("    "[k]) { assert "    "[k] == ' '; }
    }
    assert AllSpace("\n") by { assert "\n"[0] == '\n'; }
    assert t[0] == 's';
    TrimPadded("    ", t, "\n");
  }

  /** A block header as the serialiser writes it reads back as a block with
      that key and caption, provided the key is non-empty and free of white
      space and the caption is non-empty and free of `]`. */
  lemma BlockHeaderReadsBack(key: string, caption: string)
    requires |key| > 0 && forall k :: 0 <= k < |key| ==> NotSpace(key[k])
    requires |caption| > 0 && forall k :: 0 <= k < |caption| ==> NotCloseBracket(caption[k])
    ensures ClassifyLine("    subgraph " + key + " [" + caption + "]\n") == SubgraphLine(SubgraphHead(key, caption))
    ensures ClassifyLine("    subgraph " + key + " [" + caption + "]") == SubgraphLine(SubgraphHead(key, caption))
  {
    var line := "    subgraph " + key + " [" + caption + "]";
    ClassifyIgnoresFinalNewline(line);
    assert line + "\n" == "    subgraph " + key + " [" + caption + "]\n";
    var t := "subgraph " + key + " [" + caption + "]";
    var h := SubgraphHead(key, caption);
    BlockHeaderCore(key, caption);
    MatchSubgraphAtOf(key, caption);
    FindSubgraphFirst(t, h);
    ClassifyTrimmedBlock(t, h);
    ClassifyLineVia("    subgraph " + key + " [" + caption + "]\n", t);
  }

  lemma ClassifyTrimmedEnd(t: string)
    ensures FindSubgraph(t, 0) == None && t == "end" ==> ClassifyTrimmed(t) == EndLine
  {
  }

  lemma EndTrimmed(indent: string)
    requires AllSpace(indent)
    ensures StripSemicolon(Trim(indent + "end\n")) == "end"
  {
    var core, post := "end", "\n";
    assert indent + "end\n" == indent + core + post;
    assert AllSpace(post) by { assert post[0] == '\n'; }
    assert !IsSpace(core[0]) && !IsSpace(core[|core| - 1]) by {
      assert core[0] == 'e' && core[|core| - 1] == 'd';
    }
    TrimPadded(indent, core, post);
  }

  /** The closing line of a block, at any indentation, reads back as the
      end of the block. */
  lemma EndLineReadsBack(indent: string)
    requires AllSpace(indent)
    ensures ClassifyLine(indent + "end\n") == EndLine
    ensures ClassifyLine(indent + "end") == EndLine
  {
    ClassifyIgnoresFinalNewline(indent + "end");
    assert indent + "end" + "\n" == indent + "end\n";
    EndTrimmed(indent);
    assert FindSubgraph("end", 0) == None;
    ClassifyTrimmedEnd("end");
    ClassifyLineVia(indent + "end\n", "end");
  }

  /** The layout of `source --> target`: the two ids around a fixed
      five-character arrow. */
  lemma PlainLineChars(source: string, target: string)
    requires IsMermaidId(source) && IsMermaidId(target)
    ensures var t, d := source + " --> " + target, |source|;
      && |t| == d + 5 + |target| && t[..d] == source && t[d + 5..] == target
      && t[d] == ' ' && t[d + 1] == '-' && t[d + 2] == '-' && t[d + 3] == '>' && t[d + 4] == ' '
  {
    var mid := " --> ";
    var t, d := source + mid + target, |source|;
    assert t[..d] == source;
    assert t[d + 5..] == target;
    forall k | 0 <= k < 5 ensures t[d + k] == mid[k] {}
  }

  /** Every character of `source --> target` is a capital, a digit or part
      of the arrow. */
  lemma PlainLineCharset(source: string, target: string)
    requires IsMermaidId(source) && IsMermaidId(target)
    ensures var t := source + " --> " + target;
      forall k :: 0 <= k < |t| ==> IsUpper(t[k]) || IsDigit(t[k]) || t[k] == ' ' || t[k] == '-' || t[k] == '>'
  {
    var t, d := source + " --> " + target, |source|;
    PlainLineChars(source, target);
    forall k | 0 <= k < |t| ensures IsUpper(t[k]) || IsDigit(t[k]) || t[k] == ' ' || t[k] == '-' || t[k] == '>' {
      if k < d {
        assert t[k] == source[k];
      } else if k >= d + 5 {
        assert t[k] == target[k - d - 5];
      }
    }
  }

  lemma PlainLineHead(source: string, target: string)
    requires IsMermaidId(source) && IsMermaidId(target)
    ensures var t, d := source + " --> " + target, |source|;
      IdAt(t, 0) == Some(d) && RunEnd(t, d, IsSpace) == d + 1
  {
    var t, d := source + " --> " + target, |source|;
    PlainLineChars(source, target);
    IdAtEnd(t, 0, source);
    RunEndAt(t, d, d + 1, IsSpace);
  }

  lemma PlainLineNotNode(source: string, target: string)
    requires IsMermaidId(source) && IsMermaidId(target)
    ensures MatchNode(source + " --> " + target) == None
  {
    PlainLineChars(source, target);
    PlainLineHead(source, target);
  }

  /** After `--` comes `>`, not white space, so the labelled form fails. */
  lemma PlainLineNotLabelled(source: string, target: string)
    requires IsMermaidId(source) && IsMermaidId(target)
    ensures MatchLabelled(source + " --> " + target) == None
  {
    var t, d := source + " --> " + target, |source|;
    PlainLineChars(source, target);
    PlainLineHead(source, target);
    RunEndAt(t, d + 3, d + 3, IsSpace);
  }

  /** After `-->` comes white space, not `|`, so the piped form fails. */
  lemma PlainLineNotPiped(source: string, target: string)
    requires IsMermaidId(source) && IsMermaidId(target)
    ensures MatchPiped(source + " --> " + target) == None
  {
    PlainLineChars(source, target);
    PlainLineHead(source, target);
  }

  lemma PlainLineMatches(source: string, target: string)
    requires IsMermaidId(source) && IsMermaidId(target)
    ensures MatchPlain(source + " --> " + target) == Some(Arrow(source, "related-to", target))
  {
    var t, d := source + " --> " + target, |source|;
    PlainLineHead(source, target);
    PlainLineArrow(source, target);
    PlainLineTail(source, target);
    assert t[..d] == source;
  }

  lemma PlainLineArrow(source: string, target: string)
    requires IsMermaidId(source) && IsMermaidId(target)
    ensures var t, d := source + " --> " + target, |source|;
      OccursAt(t, "-->", d + 1) && RunEnd(t, d + 4, IsSpace) == d + 5
  {
    var t, d := source + " --> " + target, |source|;
    PlainLineChars(source, target);
    assert t[d + 1..d + 4] == "-->";
    assert t[d + 5] == target[0];
    RunEndAt(t, d + 4, d + 5, IsSpace);
  }

  lemma PlainLineTail(source: string, target: string)
    requires IsMermaidId(source) && IsMermaidId(target)
    ensures var t, d := source + " --> " + target, |source|;
      IdAt(t, d + 5) == Some(|t|) && t[d + 5..|t|] == target
  {
    var t, d := source + " --> " + target, |source|;
    PlainLineChars(source, target);
    assert t[d + 5..d + 5 + |target|] == target;
    IdAtEnd(t, d + 5, target);
  }

  /** An id neither starts nor ends with white space or `;`. */
  lemma IdEdges(id: string)
    requires IsMermaidId(id)
    ensures !IsSpace(id[0]) && !IsSpace(id[|id| - 1]) && id[|id| - 1] != ';'
  {
    var c := id[|id| - 1];
    assert IsUpper(c) || IsDigit(c);
  }

  lemma PlainLineTrimmed(source: string, target: string)
    requires IsMermaidId(source) && IsMermaidId(target)
    ensures var t := source + " --> " + target; StripSemicolon(Trim(t)) == t
  {
    var t, none := source + " --> " + target, "";
    IdEdges(source);
    IdEdges(target);
    assert t[0] == source[0];
    assert t[|t| - 1] == target[|target| - 1];
    assert none + t + none == t;
    TrimPadded(none, t, none);
  }

  lemma PlainLineNoSubgraph(source: string, target: string)
    requires IsMermaidId(source) && IsMermaidId(target)
    ensures FindSubgraph(source + " --> " + target, 0) == None
  {
    var t := source + " --> " + target;
    PlainLineCharset(source, target);
    forall k | 0 <= k < |t| ensures !IsLower(t[k]) {}
    SubgraphWordInside(t, "", "");
    assert t + "" + "" == t;
    FindSubgraphNone(t, 0);
  }

  /** A bare arrow between two ids, `source --> target`, reads as an arrow
      with the relation `related-to`. */
  lemma PlainArrowReadsBack(source: string, target: string)
    requires IsMermaidId(source) && IsMermaidId(target)
    ensures ClassifyLine(source + " --> " + target) == Link(Arrow(source, "related-to", target))
  {
    var t := source + " --> " + target;
    PlainLineTrimmed(source, target);
    PlainLineNoSubgraph(source, target);
    assert t != "end" by { assert t[0] == source[0]; }
    PlainLineNotNode(source, target);
    PlainLineNotLabelled(source, target);
    PlainLineNotPiped(source, target);
    PlainLineMatches(source, target);
    ClassifyTrimmedPlain(t, Arrow(source, "related-to", target));
    ClassifyLineVia(t, t);
  }

  /** A diagram of one line is parsed by a single step from the empty state. */
  lemma ParseOneLine(line: string)
    ensures ParseLines([line]) == ParseStep(ParseState([], [], None), ClassifyLine(line))
  {
    assert [line][..0] == [];
  }

  lemma LinkLineParsed(line: string, a: Arrow)
    requires ClassifyLine(line) == Link(a)
    ensures ParseLines([line]) == ParseState([], [ParsedEdge(1, a)], None)
  {
    ParseOneLine(line);
  }

  /** A diagram whose lines parse to edges only yields exactly those edges. */
  lemma EdgesOnlyGraph(code: string, createdAt: string, updatedAt: string, edges: seq<Edge>)
    requires ParseLines(Split(code, '\n')) == ParseState([], edges, None)
    ensures var r := ParseMermaid(code, createdAt, updatedAt);
      r.nodes == Some([]) && r.edges == Some(edges)
  {
  }

  /** Text without a line break splits into itself. */
  lemma SplitNoBreak(s: string)
    requires forall k :: 0 <= k < |s| ==> s[k] != '\n'
    ensures Split(s, '\n') == [s]
  {
  }

  lemma PlainLineSplit(source: string, target: string)
    requires IsMermaidId(source) && IsMermaidId(target)
    ensures var t := source + " --> " + target; Split(t, '\n') == [t]
  {
    PlainLineCharset(source, target);
    SplitNoBreak(source + " --> " + target);
  }

  /** A graph with no nodes and one complete edge fails on that edge. */
  lemma LoneEdgeDangles(o: Ontology, e: Edge)
    requires o.nodes == Some([]) && o.edges == Some([e]) && EdgeComplete(e)
    ensures ValidateOntology(Some(o)) == Invalid(ErrDangling(e.id))
  {
    assert !EdgeSound(e, NodeIds([]));
    assert FirstUnsound([e], NodeIds([]), 0);
  }

  lemma FirstEdgeId()
    ensures "edge-" + NatToString(1) == "edge-1"
  {
    assert '0' + (1 as char) == '1';
    assert NatToString(1) == "1";
  }

  lemma PlainArrowGraph(source: string, target: string, createdAt: string, updatedAt: string)
    requires IsMermaidId(source) && IsMermaidId(target)
    ensures var r := ParseMermaid(source + " --> " + target, createdAt, updatedAt);
      r.nodes == Some([]) && r.edges == Some([ParsedEdge(1, Arrow(source, "related-to", target))])
  {
    var t := source + " --> " + target;
    var a := Arrow(source, "related-to", target);
    PlainLineSplit(source, target);
    PlainArrowReadsBack(source, target);
    LinkLineParsed(t, a);
    EdgesOnlyGraph(t, createdAt, updatedAt, [ParsedEdge(1, a)]);
  }

  /** The parse checks no endpoint, so a diagram made of one bare arrow
      yields one edge between two unknown nodes and fails validation. */
  lemma PlainArrowDangles(source: string, target: string, createdAt: string, updatedAt: string)
    requires IsMermaidId(source) && IsMermaidId(target)
    ensures var r := ParseMermaid(source + " --> " + target, createdAt, updatedAt);
      r.nodes == Some([]) && |r.edges.value| == 1 && ValidateOntology(Some(r)) == Invalid(ErrDangling(Some("edge-1")))
  {
    var t := source + " --> " + target;
    PlainArrowGraph(source, target, createdAt, updatedAt);
    FirstEdgeId();
    LoneEdgeDangles(ParseMermaid(t, createdAt, updatedAt), ParsedEdge(1, Arrow(source, "related-to", target)));
  }
}

=== FILE: model.dfy ===
/** The records of the ontology core: concept nodes, relation edges and the
    graph that holds them, as the JavaScript code reads them from loosely
    typed JSON. A string property is a `Field`: `None` when the key is absent
    (or holds `undefined` / `null`), `Some(s)` otherwise. */
module Model {
  import opened Wrappers

  type Field = Option<string>

  /** JavaScript truthiness of a string property: present and non-empty. */
  predicate Truthy(f: Field) {
    f.Some? && f.value != ""
  }

  /** `f || fallback` with a string fallback. */
  function Or(f: Field, fallback: string): string {
    if Truthy(f) then f.value else fallback
  }

  /** `f || g`: the first operand when it is truthy, else the second. */
  function OrElse(f: Field, g: Field): Field {
    if Truthy(f) then f else g
  }

  /** `${f}` inside a template literal. */
  function Show(f: Field): string {
    if f.Some? then f.value else "undefined"
  }

  /** A node's `properties` bag, reduced to the keys the core reads. */
  datatype Props = Props(isSubgraph: bool, subgraph: Field, entityType: Field, domain: Field)

  /** A concept. `kind` is the record's `type` key and `source` its
      provenance (`manual` / `auto`). `caption` is its `label` key, set only when the record
      carries one of its own. */
  datatype Node = Node(
    id: Field,
    name: Field,
    kind: Field,
    description: Field,
    source: Field,
    caption: Field,
    properties: Option<Props>)

  /** A directed relation. The JSON record has a single `source` key, used
      both for the start node's id and, where code writes it twice, for
      provenance. */
  datatype Edge = Edge(
    id: Field,
    source: Field,
    target: Field,
    relation: Field,
    description: Field,
    relationType: Field,
    strength: Field,
    crossDomain: Option<bool>)

  datatype Metadata = Metadata(domainsUsed: seq<string>, crossDomainLinks: seq<string>, coreConcepts: seq<Field>)

  /** The graph. `nodes` / `edges` are `None` when the key does not hold an
      array. Timestamps are opaque strings supplied by the caller. */
  datatype Ontology = Ontology(
    version: int,
    createdAt: string,
    updatedAt: string,
    nodes: Option<seq<Node>>,
    edges: Option<seq<Edge>>,
    metadata: Option<Metadata>)

  /** Both collections are arrays, so code that maps or spreads them runs. */
  predicate Shaped(o: Ontology) {
    o.nodes.Some? && o.edges.Some?
  }

  /** The entries of a JavaScript object literal, in the order written. */
  type Entries = seq<(string, Field)>

  /** Reads `key` from an object literal: when the key is written more than
      once, the last entry wins. */
  function Lookup(entries: Entries, key: string): Field
  {
    if |entries| == 0 then None
    else if entries[|entries| - 1].0 == key then entries[|entries| - 1].1
    else Lookup(entries[..|entries| - 1], key)
  }

  /** An object literal's value for a key is the one in its last entry for
      that key, and a key it never names reads as absent. */
  lemma {:induction false} LookupLastWins(entries: Entries, key: string, i: int)
    requires 0 <= i < |entries| && entries[i].0 == key
    requires forall j :: i < j < |entries| ==> entries[j].0 != key
    ensures Lookup(entries, key) == entries[i].1
    decreases |entries|
  {
    if i < |entries| - 1 {
      LookupLastWins(entries[..|entries| - 1], key, i);
    }
  }

  lemma {:induction false} LookupAbsent(entries: Entries, key: string)
    requires forall j :: 0 <= j < |entries| ==> entries[j].0 != key
    ensures Lookup(entries, key) == None
    decreases |entries|
  {
    if |entries| > 0 {
      LookupAbsent(entries[..|entries| - 1], key);
    }
  }

  /** The edge record an object literal with these entries builds. */
  function EdgeOfLiteral(entries: Entries): Edge {
    Edge(
      Lookup(entries, "id"),
      Lookup(entries, "source"),
      Lookup(entries, "target"),
      Lookup(entries, "relation"),
      Lookup(entries, "description"),
      Lookup(entries, "relation_type"),
      Lookup(entries, "strength"),
      None)
  }

  /** The edge literal `{ id, source, target, relation, description,
      source: provenance }` written by the converters and the store: the
      second `source` entry replaces the endpoint. */
  lemma EdgeLiteralSourceTwice(id: Field, endpoint: Field, target: Field, relation: Field,
                               description: Field, provenance: Field)
    ensures EdgeOfLiteral([("id", id), ("source", endpoint), ("target", target), ("relation", relation),
                           ("description", description), ("source", provenance)])
            == Edge(id, provenance, target, relation, description, None, None, None)
  {
    var entries := [("id", id), ("source", endpoint), ("target", target), ("relation", relation),
                    ("description", description), ("source", provenance)];
    LookupLastWins(entries, "id", 0);
    LookupLastWins(entries, "source", 5);
    LookupLastWins(entries, "target", 2);
    LookupLastWins(entries, "relation", 3);
    LookupLastWins(entries, "description", 4);
    LookupAbsent(entries, "relation_type");
    LookupAbsent(entries, "strength");
  }
}

=== FILE: ontology_diff.dfy ===
/** Comparison of two graph snapshots: nodes and edges are matched by id and
    sorted into added, removed and modified, and the result is summarised as
    text. */
module OntologyDiff {
  import opened Wrappers
  import opened Model
  import opened Strings

  datatype Change<T> = Change(before: T, after: T)

  datatype Diff = Diff(
    addedNodes: seq<Node>,
    removedNodes: seq<Node>,
    modifiedNodes: seq<Change<Node>>,
    addedEdges: seq<Edge>,
    removedEdges: seq<Edge>,
    modifiedEdges: seq<Change<Edge>>)

  const NoDiff := Diff([], [], [], [], [], [])

  function NodeKey(n: Node): Field { n.id }

  function EdgeKey(e: Edge): Field { e.id }

  /** `isNodeModified`: only name, type and description are compared, so
      two nodes count as modified exactly when they still differ once id,
      provenance, label and properties are made equal. */
  function NodeModified(a: Node, b: Node): (r: bool)
    ensures r <==> a.(id := b.id, source := b.source, caption := b.caption, properties := b.properties) != b
  {
    a.name != b.name || a.kind != b.kind || a.description != b.description
  }

  /** `isEdgeModified`: endpoints, relation and description are compared,
      so two edges count as modified exactly when they still differ once
      id, relation type, strength and cross-domain flag are made equal. */
  function EdgeModified(a: Edge, b: Edge): (r: bool)
    ensures r <==> a.(id := b.id, relationType := b.relationType, strength := b.strength, crossDomain := b.crossDomain) != b
  {
    a.source != b.source || a.target != b.target || a.relation != b.relation || a.description != b.description
  }

  // ---------------------------------------------------------------------
  // Classification of one kind of record by key, shared by nodes and edges.

  function KeysOf<T(!new)>(items: seq<T>, key: T -> Field): set<Field> {
    set i | 0 <= i < |items| :: key(items[i])
  }

  predicate UniqueKeys<T(!new)>(items: seq<T>, key: T -> Field) {
    forall i, j :: 0 <= i < j < |items| ==> key(items[i]) != key(items[j])
  }

  /** The last item carrying key `k`. */
  function Latest<T(!new)>(items: seq<T>, key: T -> Field, k: Field): (r: Option<T>)
    ensures r.None? <==> k !in KeysOf(items, key)
    ensures r.Some? ==> exists i :: 0 <= i < |items| && items[i] == r.value && key(items[i]) == k
                                    && forall j :: i < j < |items| ==> key(items[j]) != k
  {
    if |items| == 0 then None
    else
      var last := items[|items| - 1];
      var front := items[..|items| - 1];
      assert forall i :: 0 <= i < |front| ==> front[i] == items[i];
      assert KeysOf(items, key) == KeysOf(front, key) + {key(last)} by {
        forall k' | k' in KeysOf(items, key) ensures k' in KeysOf(front, key) + {key(last)} {
          var i :| 0 <= i < |items| && key(items[i]) == k';
          if i < |front| { assert key(front[i]) == k'; }
        }
      }
      if key(last) == k then Some(last) else Latest(front, key, k)
  }

  /** With unique keys, the last item with a key is the only one. */
  lemma LatestUnique<T(!new)>(items: seq<T>, key: T -> Field, i: int)
    requires UniqueKeys(items, key) && 0 <= i < |items|
    ensures Latest(items, key, key(items[i])) == Some(items[i])
  {
    var r := Latest(items, key, key(items[i]));
    assert key(items[i]) in KeysOf(items, key);
    var j :| 0 <= j < |items| && items[j] == r.value && key(items[j]) == key(items[i])
             && forall m :: j < m < |items| ==> key(items[m]) != key(items[i]);
    assert i == j;
  }

  /** `new Map(items.map(x => [key(x), x]))`: a later item overwrites an
      earlier one with the same key. */
  function IndexBy<T(!new)>(items: seq<T>, key: T -> Field): (m: map<Field, T>)
    ensures m.Keys == KeysOf(items, key)
    ensures forall k :: k in m ==> Latest(items, key, k) == Some(m[k])
  {
    if |items| == 0 then map[]
    else
      var front := items[..|items| - 1];
      var last := items[|items| - 1];
      assert forall i :: 0 <= i < |front| ==> front[i] == items[i];
      assert KeysOf(items, key) == KeysOf(front, key) + {key(last)} by {
        forall k' | k' in KeysOf(items, key) ensures k' in KeysOf(front, key) + {key(last)} {
          var i :| 0 <= i < |items| && key(items[i]) == k';
          if i < |front| { assert key(front[i]) == k'; }
        }
      }
      IndexBy(front, key)[key(last) := last]
  }

  /** `items.filter(x => !index.has(key(x)))`: the items whose key is not
      among `keys`, in their original order. */
  function Unmatched<T(!new)>(items: seq<T>, keys: set<Field>, key: T -> Field): (r: seq<T>)
    ensures forall x :: x in r <==> x in items && key(x) !in keys
    ensures |r| <= |items|
  {
    if |items| == 0 then []
    else (if key(items[0]) !in keys then [items[0]] else []) + Unmatched(items[1..], keys, key)
  }

  /** Filtering keeps order: it distributes over concatenation. */
  lemma {:induction false} UnmatchedConcat<T(!new)>(a: seq<T>, b: seq<T>, keys: set<Field>, key: T -> Field)
    ensures Unmatched(a + b, keys, key) == Unmatched(a, keys, key) + Unmatched(b, keys, key)
  {
    if |a| > 0 {
      var h := if key(a[0]) !in keys then [a[0]] else [];
      assert (a + b)[0] == a[0];
      assert (a + b)[1..] == a[1..] + b;
      assert Unmatched(a + b, keys, key) == h + Unmatched(a[1..] + b, keys, key);
      assert Unmatched(a, keys, key) == h + Unmatched(a[1..], keys, key);
      UnmatchedConcat(a[1..], b, keys, key);
      assert h + (Unmatched(a[1..], keys, key) + Unmatched(b, keys, key))
          == (h + Unmatched(a[1..], keys, key)) + Unmatched(b, keys, key);
    } else {
      assert a + b == b;
    }
  }

  /** The items of `news` whose key `oldIndex` holds and whose stored
      counterpart differs, each paired with that counterpart. */
  function Changed<T(!new)>(news: seq<T>, oldIndex: map<Field, T>, key: T -> Field, differs: (T, T) -> bool)
    : (r: seq<Change<T>>)
    ensures forall c :: c in r <==> c.after in news && key(c.after) in oldIndex
                                    && c.before == oldIndex[key(c.after)] && differs(c.before, c.after)
  {
    if |news| == 0 then []
    else
      var x := news[0];
      var here := if key(x) in oldIndex && differs(oldIndex[key(x)], x) then [Change(oldIndex[key(x)], x)] else [];
      var r := here + Changed(news[1..], oldIndex, key, differs);
      assert forall y :: y in news <==> y == x || y in news[1..];
      r
  }

  /** The `forEach` / `push` loop keeps order and repeats: it distributes
      over concatenation (with `ChangedSingle`, this fixes the list). */
  lemma {:induction false} ChangedConcat<T(!new)>(a: seq<T>, b: seq<T>, oldIndex: map<Field, T>, key: T -> Field, differs: (T, T) -> bool)
    ensures Changed(a + b, oldIndex, key, differs) == Changed(a, oldIndex, key, differs) + Changed(b, oldIndex, key, differs)
    decreases |a|
  {
    if |a| > 0 {
      ChangedCons(a, oldIndex, key, differs);
      ChangedCons(a + b, oldIndex, key, differs);
      assert (a + b)[0] == a[0] && (a + b)[1..] == a[1..] + b;
      ChangedConcat(a[1..], b, oldIndex, key, differs);
    } else {
      assert a + b == b;
    }
  }

  lemma ChangedCons<T(!new)>(a: seq<T>, oldIndex: map<Field, T>, key: T -> Field, differs: (T, T) -> bool)
    requires |a| > 0
    ensures Changed(a, oldIndex, key, differs) == ChangeOf(a[0], oldIndex, key, differs) + Changed(a[1..], oldIndex, key, differs)
  {
  }

  datatype Classes<T> = Classes(added: seq<T>, removed: seq<T>, modified: seq<Change<T>>)

  /** One pass of `compareOntologies` over one kind of record. */
  function Classify<T(!new)>(olds: seq<T>, news: seq<T>, key: T -> Field, differs: (T, T) -> bool): Classes<T> {
    var oldIndex := IndexBy(olds, key);
    var newIndex := IndexBy(news, key);
    Classes(
      Unmatched(news, oldIndex.Keys, key),
      Unmatched(olds, newIndex.Keys, key),
      Changed(news, oldIndex, key, differs))
  }

  /** Added: the new items whose key the old side lacks. Removed: the old
      items whose key the new side lacks. Modified: a new item whose key the
      old side has, paired with the old side's last item of that key, when
      the two differ. */
  lemma ClassifySpec<T(!new)>(olds: seq<T>, news: seq<T>, key: T -> Field, differs: (T, T) -> bool)
    ensures var c := Classify(olds, news, key, differs);
      && (forall x :: x in c.added <==> x in news && key(x) !in KeysOf(olds, key))
      && (forall x :: x in c.removed <==> x in olds && key(x) !in KeysOf(news, key))
      && (forall ch :: ch in c.modified <==>
            ch.after in news && Latest(olds, key, key(ch.after)) == Some(ch.before) && differs(ch.before, ch.after))
  {
    var oldIndex := IndexBy(olds, key);
    var c := Classify(olds, news, key, differs);
    forall ch ensures ch in c.modified <==>
        ch.after in news && Latest(olds, key, key(ch.after)) == Some(ch.before) && differs(ch.before, ch.after)
    {
      if Latest(olds, key, key(ch.after)).Some? {
        assert key(ch.after) in oldIndex;
      }
    }
  }

  /** No key is reported in two classes, whether or not keys are unique. */
  lemma ClassifyDisjoint<T(!new)>(olds: seq<T>, news: seq<T>, key: T -> Field, differs: (T, T) -> bool)
    ensures var c := Classify(olds, news, key, differs);
      && (forall x, y :: x in c.added && y in c.removed ==> key(x) != key(y))
      && (forall x, ch :: x in c.added && ch in c.modified ==> key(x) != key(ch.after))
      && (forall y, ch :: y in c.removed && ch in c.modified ==> key(y) != key(ch.after))
  {
    var c := Classify(olds, news, key, differs);
    ClassifySpec(olds, news, key, differs);
    forall x, y | x in c.added && y in c.removed ensures key(x) != key(y) {
      var i :| 0 <= i < |olds| && olds[i] == y;
      assert key(y) in KeysOf(olds, key);
    }
    forall y, ch | y in c.removed && ch in c.modified ensures key(y) != key(ch.after) {
      var i :| 0 <= i < |news| && news[i] == ch.after;
      assert key(ch.after) in KeysOf(news, key);
    }
  }

  lemma {:induction false} UnmatchedNone<T(!new)>(items: seq<T>, keys: set<Field>, key: T -> Field)
    requires forall i :: 0 <= i < |items| ==> key(items[i]) in keys
    ensures Unmatched(items, keys, key) == []
  {
    if |items| > 0 {
      UnmatchedNone(items[1..], keys, key);
    }
  }

  lemma {:induction false} ChangedNone<T(!new)>(news: seq<T>, oldIndex: map<Field, T>, key: T -> Field,
                                                differs: (T, T) -> bool)
    requires forall i :: 0 <= i < |news| && key(news[i]) in oldIndex ==> !differs(oldIndex[key(news[i])], news[i])
    ensures Changed(news, oldIndex, key, differs) == []
  {
    if |news| > 0 {
      ChangedNone(news[1..], oldIndex, key, differs);
    }
  }

  /** A sequence of unique-keyed items compared with itself yields nothing,
      provided no item differs from itself. */
  lemma ClassifySelf<T(!new)>(items: seq<T>, key: T -> Field, differs: (T, T) -> bool)
    requires UniqueKeys(items, key)
    requires forall x :: x in items ==> !differs(x, x)
    ensures Classify(items, items, key, differs) == Classes([], [], [])
  {
    var index := IndexBy(items, key);
    forall i | 0 <= i < |items| ensures key(items[i]) in index && index[key(items[i])] == items[i] {
      assert key(items[i]) in KeysOf(items, key);
      LatestUnique(items, key, i);
    }
    UnmatchedNone(items, index.Keys, key);
    ChangedNone(items, index, key, differs);
  }

  // ---------------------------------------------------------------------
  // compareOntologies

  /** `o?.nodes || []` */
  function NodesOr(o: Option<Ontology>): seq<Node> {
    if o.Some? && o.value.nodes.Some? then o.value.nodes.value else []
  }

  /** `o?.edges || []` */
  function EdgesOr(o: Option<Ontology>): seq<Edge> {
    if o.Some? && o.value.edges.Some? then o.value.edges.value else []
  }

  /** `compareOntologies`. When both graphs are present their `nodes` and
      `edges` must be arrays, as the code maps over them. */
  function CompareOntologies(older: Option<Ontology>, newer: Option<Ontology>): (d: Diff)
    requires older.Some? && newer.Some? ==> Shaped(older.value) && Shaped(newer.value)
    ensures older.None? || newer.None? ==>
              d == Diff(NodesOr(newer), NodesOr(older), [], EdgesOr(newer), EdgesOr(older), [])
    ensures older.Some? && newer.Some? ==>
              var olds := older.value.nodes.value;
              var news := newer.value.nodes.value;
              && (forall n :: n in d.addedNodes <==> n in news && n.id !in KeysOf(olds, NodeKey))
              && (forall n :: n in d.removedNodes <==> n in olds && n.id !in KeysOf(news, NodeKey))
              && (forall ch :: ch in d.modifiedNodes <==>
                    ch.after in news && Latest(olds, NodeKey, ch.after.id) == Some(ch.before)
                    && NodeModified(ch.before, ch.after))
    ensures older.Some? && newer.Some? ==>
              var olds := older.value.edges.value;
              var news := newer.value.edges.value;
              && (forall e :: e in d.addedEdges <==> e in news && e.id !in KeysOf(olds, EdgeKey))
              && (forall e :: e in d.removedEdges <==> e in olds && e.id !in KeysOf(news, EdgeKey))
              && (forall ch :: ch in d.modifiedEdges <==>
                    ch.after in news && Latest(olds, EdgeKey, ch.after.id) == Some(ch.before)
                    && EdgeModified(ch.before, ch.after))
  {
    if older.None? || newer.None? then
      Diff(NodesOr(newer), NodesOr(older), [], EdgesOr(newer), EdgesOr(older), [])
    else
      var o := older.value;
      var n := newer.value;
      var nodes := Classify(o.nodes.value, n.nodes.value, NodeKey, NodeModified);
      var edges := Classify(o.edges.value, n.edges.value, EdgeKey, EdgeModified);
      ClassifySpec(o.nodes.value, n.nodes.value, NodeKey, NodeModified);
      ClassifySpec(o.edges.value, n.edges.value, EdgeKey, EdgeModified);
      Diff(nodes.added, nodes.removed, nodes.modified, edges.added, edges.removed, edges.modified)
  }

  /** The comparison of two present graphs is the per-kind classification
      of their node lists and of their edge lists. */
  lemma CompareIsPerKind(older: Ontology, newer: Ontology)
    requires Shaped(older) && Shaped(newer)
    ensures var d := CompareOntologies(Some(older), Some(newer));
      var nodes := Classify(older.nodes.value, newer.nodes.value, NodeKey, NodeModified);
      var edges := Classify(older.edges.value, newer.edges.value, EdgeKey, EdgeModified);
      d == Diff(nodes.added, nodes.removed, nodes.modified, edges.added, edges.removed, edges.modified)
  {
  }

  /** Node classification reads only the nodes: replacing the edge lists
      of either graph leaves the added, removed and modified nodes as they
      were. */
  lemma CompareNodesIgnoreEdges(older: Ontology, newer: Ontology, olderEdges: seq<Edge>, newerEdges: seq<Edge>)
    requires Shaped(older) && Shaped(newer)
    ensures var d := CompareOntologies(Some(older), Some(newer));
      var d' := CompareOntologies(Some(older.(edges := Some(olderEdges))), Some(newer.(edges := Some(newerEdges))));
      d'.addedNodes == d.addedNodes && d'.removedNodes == d.removedNodes && d'.modifiedNodes == d.modifiedNodes
  {
  }

  /** Edge classification reads only the edges: replacing the node lists of
      either graph leaves the added, removed and modified edges as they
      were. */
  lemma CompareEdgesIgnoreNodes(older: Ontology, newer: Ontology, olderNodes: seq<Node>, newerNodes: seq<Node>)
    requires Shaped(older) && Shaped(newer)
    ensures var d := CompareOntologies(Some(older), Some(newer));
      var d' := CompareOntologies(Some(older.(nodes := Some(olderNodes))), Some(newer.(nodes := Some(newerNodes))));
      d'.addedEdges == d.addedEdges && d'.removedEdges == d.removedEdges && d'.modifiedEdges == d.modifiedEdges
  {
  }

  /** Within each kind, no id is reported in two of added / removed /
      modified. This holds even when ids repeat. */
  lemma CompareDisjoint(older: Ontology, newer: Ontology)
    requires Shaped(older) && Shaped(newer)
    ensures var d := CompareOntologies(Some(older), Some(newer));
      && (forall x, y :: x in d.addedNodes && y in d.removedNodes ==> x.id != y.id)
      && (forall x, ch :: x in d.addedNodes && ch in d.modifiedNodes ==> x.id != ch.after.id)
      && (forall y, ch :: y in d.removedNodes && ch in d.modifiedNodes ==> y.id != ch.after.id)
      && (forall x, y :: x in d.addedEdges && y in d.removedEdges ==> x.id != y.id)
      && (forall x, ch :: x in d.addedEdges && ch in d.modifiedEdges ==> x.id != ch.after.id)
      && (forall y, ch :: y in d.removedEdges && ch in d.modifiedEdges ==> y.id != ch.after.id)
  {
    ClassifyDisjoint(older.nodes.value, newer.nodes.value, NodeKey, NodeModified);
    ClassifyDisjoint(older.edges.value, newer.edges.value, EdgeKey, EdgeModified);
  }

  /** A graph with unique node ids and unique edge ids compared with itself
      yields six empty lists. */
  lemma CompareSelfEmpty(g: Ontology)
    requires Shaped(g)
    requires UniqueKeys(g.nodes.value, NodeKey) && UniqueKeys(g.edges.value, EdgeKey)
    ensures CompareOntologies(Some(g), Some(g)) == NoDiff
  {
    ClassifySelf(g.nodes.value, NodeKey, NodeModified);
    ClassifySelf(g.edges.value, EdgeKey, EdgeModified);
  }

  /** The index of two records: the later wins on a shared key. */
  lemma IndexPair<T(!new)>(a: T, b: T, key: T -> Field)
    ensures IndexBy([a, b], key) == map[key(a) := a][key(b) := b]
  {
    assert [a, b][..1] == [a] && [a][..0] == [];
  }

  lemma UnmatchedPair<T(!new)>(a: T, b: T, keys: set<Field>, key: T -> Field)
    ensures Unmatched([a, b], keys, key) == (if key(a) !in keys then [a] else []) + (if key(b) !in keys then [b] else [])
  {
    assert [a, b][1..] == [b] && [b][1..] == [];
  }

  /** What `Changed` reports for one new record: one change exactly when
      its key is indexed and its stored counterpart differs. */
  function ChangeOf<T(!new)>(x: T, oldIndex: map<Field, T>, key: T -> Field, differs: (T, T) -> bool): seq<Change<T>> {
    if key(x) in oldIndex && differs(oldIndex[key(x)], x) then [Change(oldIndex[key(x)], x)] else []
  }

  /** A single new record yields one change exactly when its key is
      indexed and its stored counterpart differs. */
  lemma ChangedSingle<T(!new)>(x: T, oldIndex: map<Field, T>, key: T -> Field, differs: (T, T) -> bool)
    ensures Changed([x], oldIndex, key, differs) == ChangeOf(x, oldIndex, key, differs)
    ensures Changed([x], oldIndex, key, differs)
            == if key(x) in oldIndex && differs(oldIndex[key(x)], x) then [Change(oldIndex[key(x)], x)] else []
  {
    assert [x][1..] == [];
    assert Changed([x][1..], oldIndex, key, differs) == [];
  }

  lemma ChangedPair<T(!new)>(a: T, b: T, oldIndex: map<Field, T>, key: T -> Field, differs: (T, T) -> bool)
    ensures Changed([a, b], oldIndex, key, differs) == ChangeOf(a, oldIndex, key, differs) + ChangeOf(b, oldIndex, key, differs)
  {
    assert [a, b][1..] == [b];
    ChangedSingle(b, oldIndex, key, differs);
  }

  lemma IndexSingle<T(!new)>(x: T, key: T -> Field)
    ensures IndexBy([x], key) == map[key(x) := x]
  {
    assert [x][..0] == [];
  }

  lemma UnmatchedSingle<T(!new)>(x: T, keys: set<Field>, key: T -> Field)
    ensures Unmatched([x], keys, key) == if key(x) !in keys then [x] else []
  {
    assert [x][1..] == [];
  }

  /** Two records under one key compared with themselves: nothing is added
      or removed, and the earlier one is reported as modified against the
      later one that the index kept. */
  lemma ClassifyTwins<T(!new)>(a: T, b: T, key: T -> Field, differs: (T, T) -> bool)
    requires key(a) == key(b) && differs(b, a) && !differs(b, b)
    ensures Classify([a, b], [a, b], key, differs) == Classes([], [], [Change(b, a)])
  {
    var m := IndexBy([a, b], key);
    IndexPair(a, b, key);
    assert m == map[key(b) := b];
    UnmatchedPair(a, b, m.Keys, key);
    ChangedPair(a, b, m, key, differs);
  }

  function TwinA(): Node { Node(Some("a"), Some("A"), None, None, None, None, None) }
  function TwinB(): Node { Node(Some("a"), Some("B"), None, None, None, None, None) }

  /** With a repeated node id the self-comparison is not empty: the id map
      keeps the later node, and the earlier one is reported as modified
      against it. */
  lemma CompareSelfWithRepeatedId(now: string)
    ensures var g := Ontology(1, now, now, Some([TwinA(), TwinB()]), Some([]), None);
      CompareOntologies(Some(g), Some(g)).modifiedNodes == [Change(TwinB(), TwinA())]
  {
    ClassifyTwins(TwinA(), TwinB(), NodeKey, NodeModified);
  }

  /** One record kept unchanged, one dropped and one added under three
      distinct keys. */
  lemma ClassifyReplaceOne<T(!new)>(a: T, b: T, c: T, key: T -> Field, differs: (T, T) -> bool)
    requires key(a) != key(b) && key(a) != key(c) && key(b) != key(c) && !differs(a, a)
    ensures Classify([a, b], [a, c], key, differs) == Classes([c], [b], [])
  {
    var oi, ni := IndexBy([a, b], key), IndexBy([a, c], key);
    IndexPair(a, b, key);
    IndexPair(a, c, key);
    UnmatchedPair(a, c, oi.Keys, key);
    UnmatchedPair(a, b, ni.Keys, key);
    ChangedPair(a, c, oi, key, differs);
  }

  /** One record swapped for another under a different key. */
  lemma ClassifySwapSingle<T(!new)>(x: T, y: T, key: T -> Field, differs: (T, T) -> bool)
    requires key(x) != key(y)
    ensures Classify([x], [y], key, differs) == Classes([y], [x], [])
  {
    IndexSingle(x, key);
    IndexSingle(y, key);
    UnmatchedSingle(y, {key(x)}, key);
    UnmatchedSingle(x, {key(y)}, key);
    ChangedSingle(y, map[key(x) := x], key, differs);
  }

  /** An update that keeps one node, drops one and adds one, and swaps the
      only edge for another: exactly the new node and edge are added,
      exactly the old ones removed, and nothing is modified. */
  lemma CompareScenario(before: Ontology, after: Ontology, a: Node, b: Node, c: Node, x: Edge, y: Edge)
    requires before.nodes == Some([a, b]) && before.edges == Some([x])
    requires after.nodes == Some([a, c]) && after.edges == Some([y])
    requires a.id != b.id && a.id != c.id && b.id != c.id && x.id != y.id
    ensures CompareOntologies(Some(before), Some(after)) == Diff([c], [b], [], [y], [x], [])
  {
    ReplaceOneNode(a, b, c);
    ClassifySwapSingle(x, y, EdgeKey, EdgeModified);
    CompareIsPerKind(before, after);
  }

  lemma ReplaceOneNode(a: Node, b: Node, c: Node)
    requires a.id != b.id && a.id != c.id && b.id != c.id
    ensures Classify([a, b], [a, c], NodeKey, NodeModified) == Classes([c], [b], [])
  {
    assert !NodeModified(a, a);
    ClassifyReplaceOne(a, b, c, NodeKey, NodeModified);
  }

  // ---------------------------------------------------------------------
  // generateDiffSummary / hasSignificantChanges

  const NoChanges := "无变更"

  /** `list.map(n => n.name).join(', ')`: `join` renders a missing name as
      the empty string. */
  function JoinNames(names: seq<Field>): string {
    Join(seq(|names|, i requires 0 <= i < |names| => names[i].GetOr("")), ", ")
  }

  function NamesOf(nodes: seq<Node>): seq<Field> {
    seq(|nodes|, i requires 0 <= i < |nodes| => nodes[i].name)
  }

  function NewNamesOf(changes: seq<Change<Node>>): seq<Field> {
    seq(|changes|, i requires 0 <= i < |changes| => changes[i].after.name)
  }

  function CountText(n: nat): string {
    NatToString(n) + " 条"
  }

  /** The marker that heads each line of the summary. */
  const AddedNodesHeader := "✅ 新增节点: "
  const AddedEdgesHeader := "✅ 新增关系: "
  const ModifiedNodesHeader := "📝 修改节点: "
  const ModifiedEdgesHeader := "📝 修改关系: "
  const RemovedNodesHeader := "❌ 删除节点: "
  const RemovedEdgesHeader := "❌ 删除关系: "

  /** A line that is pushed only when its list has `n > 0` entries. */
  function LineWhen(n: nat, line: string): (r: seq<string>)
    ensures |r| == if n > 0 then 1 else 0
  {
    if n > 0 then [line] else []
  }

  /** The summary's lines, pushed in the code's order. */
  function SummaryLines(d: Diff): seq<string> {
    LineWhen(|d.addedNodes|, AddedNodesHeader + JoinNames(NamesOf(d.addedNodes)))
    + LineWhen(|d.addedEdges|, AddedEdgesHeader + CountText(|d.addedEdges|))
    + LineWhen(|d.modifiedNodes|, ModifiedNodesHeader + JoinNames(NewNamesOf(d.modifiedNodes)))
    + LineWhen(|d.modifiedEdges|, ModifiedEdgesHeader + CountText(|d.modifiedEdges|))
    + LineWhen(|d.removedNodes|, RemovedNodesHeader + JoinNames(NamesOf(d.removedNodes)))
    + LineWhen(|d.removedEdges|, RemovedEdgesHeader + CountText(|d.removedEdges|))
  }

  /** `generateDiffSummary`. */
  function GenerateDiffSummary(d: Diff): (r: string)
    ensures |SummaryLines(d)| == 0 ==> r == NoChanges
    ensures |SummaryLines(d)| > 0 ==> r == Join(SummaryLines(d), "\n")
  {
    var lines := SummaryLines(d);
    if |lines| == 0 then NoChanges else Join(lines, "\n")
  }

  /** `hasSignificantChanges`: some list is non-empty. */
  function HasSignificantChanges(d: Diff): (r: bool)
    ensures r <==> d != NoDiff
  {
    || |d.addedNodes| > 0
    || |d.removedNodes| > 0
    || |d.modifiedNodes| > 0
    || |d.addedEdges| > 0
    || |d.removedEdges| > 0
    || |d.modifiedEdges| > 0
  }

  /** The six categories in the order the summary lists them. */
  datatype Category = AddedNodes | AddedEdges | ModifiedNodes | ModifiedEdges | RemovedNodes | RemovedEdges

  const SummaryOrder: seq<Category> := [AddedNodes, AddedEdges, ModifiedNodes, ModifiedEdges, RemovedNodes, RemovedEdges]

  function Size(d: Diff, c: Category): nat {
    match c
    case AddedNodes => |d.addedNodes|
    case AddedEdges => |d.addedEdges|
    case ModifiedNodes => |d.modifiedNodes|
    case ModifiedEdges => |d.modifiedEdges|
    case RemovedNodes => |d.removedNodes|
    case RemovedEdges => |d.removedEdges|
  }

  function Header(c: Category): string {
    match c
    case AddedNodes => AddedNodesHeader
    case AddedEdges => AddedEdgesHeader
    case ModifiedNodes => ModifiedNodesHeader
    case ModifiedEdges => ModifiedEdgesHeader
    case RemovedNodes => RemovedNodesHeader
    case RemovedEdges => RemovedEdgesHeader
  }

  /** Node categories list names, edge categories a count. */
  function Detail(d: Diff, c: Category): string {
    match c
    case AddedNodes => JoinNames(NamesOf(d.addedNodes))
    case ModifiedNodes => JoinNames(NewNamesOf(d.modifiedNodes))
    case RemovedNodes => JoinNames(NamesOf(d.removedNodes))
    case _ => CountText(Size(d, c))
  }

  /** The line a category contributes: its marker, then its detail. */
  function Line(d: Diff, c: Category): string {
    Header(c) + Detail(d, c)
  }

  /** The category's line, if it has anything to report. */
  function LineIf(d: Diff, c: Category): seq<string> {
    LineWhen(Size(d, c), Line(d, c))
  }

  /** One line per non-empty category, taken in the order of `cats`. */
  function LinesFor(d: Diff, cats: seq<Category>): seq<string> {
    if |cats| == 0 then [] else LineIf(d, cats[0]) + LinesFor(d, cats[1..])
  }

  lemma LinesForSummaryOrder(d: Diff)
    ensures LinesFor(d, SummaryOrder)
            == LineIf(d, AddedNodes) + (LineIf(d, AddedEdges) + (LineIf(d, ModifiedNodes)
               + (LineIf(d, ModifiedEdges) + (LineIf(d, RemovedNodes) + LineIf(d, RemovedEdges)))))
  {
    var o := SummaryOrder;
    assert LinesFor(d, o[6..]) == [];
    assert LinesFor(d, o[5..]) == LineIf(d, RemovedEdges) by { assert o[5..][1..] == o[6..]; }
    assert LinesFor(d, o[4..]) == LineIf(d, RemovedNodes) + LinesFor(d, o[5..]) by { assert o[4..][1..] == o[5..]; }
    assert LinesFor(d, o[3..]) == LineIf(d, ModifiedEdges) + LinesFor(d, o[4..]) by { assert o[3..][1..] == o[4..]; }
    assert LinesFor(d, o[2..]) == LineIf(d, ModifiedNodes) + LinesFor(d, o[3..]) by { assert o[2..][1..] == o[3..]; }
    assert LinesFor(d, o[1..]) == LineIf(d, AddedEdges) + LinesFor(d, o[2..]) by { assert o[1..][1..] == o[2..]; }
  }

  /** Concatenation of six runs regrouped to the right. */
  lemma Regroup6<T>(a: seq<T>, b: seq<T>, c: seq<T>, m: seq<T>, r: seq<T>, e: seq<T>)
    ensures a + b + c + m + r + e == a + (b + (c + (m + (r + e))))
  {
  }

  /** The line the summary pushes for each category is that category's `LineIf`. */
  lemma SummaryPieces(d: Diff)
    ensures SummaryLines(d) == LineIf(d, AddedNodes) + LineIf(d, AddedEdges) + LineIf(d, ModifiedNodes)
                               + LineIf(d, ModifiedEdges) + LineIf(d, RemovedNodes) + LineIf(d, RemovedEdges)
  {
  }

  lemma SummaryIsLinesFor(d: Diff)
    ensures SummaryLines(d) == LinesFor(d, SummaryOrder)
  {
    SummaryPieces(d);
    LinesForSummaryOrder(d);
    Regroup6(LineIf(d, AddedNodes), LineIf(d, AddedEdges), LineIf(d, ModifiedNodes),
             LineIf(d, ModifiedEdges), LineIf(d, RemovedNodes), LineIf(d, RemovedEdges));
  }

  /** How many of `cats` have something to report. */
  function Reported(d: Diff, cats: seq<Category>): nat {
    if |cats| == 0 then 0 else (if Size(d, cats[0]) > 0 then 1 else 0) + Reported(d, cats[1..])
  }

  lemma {:induction false} ReportedConcat(d: Diff, a: seq<Category>, b: seq<Category>)
    ensures Reported(d, a + b) == Reported(d, a) + Reported(d, b)
    decreases |a|
  {
    if |a| > 0 {
      assert (a + b)[0] == a[0];
      assert (a + b)[1..] == a[1..] + b;
      ReportedConcat(d, a[1..], b);
    } else {
      assert a + b == b;
    }
  }

  /** One line per reporting category. */
  lemma {:induction false} LinesForLength(d: Diff, cats: seq<Category>)
    ensures |LinesFor(d, cats)| == Reported(d, cats)
    decreases |cats|
  {
    if |cats| > 0 {
      LinesForLength(d, cats[1..]);
    }
  }

  /** A reporting category adds to the count of the categories up to it. */
  lemma ReportedBefore(d: Diff, cats: seq<Category>, i: nat)
    requires i < |cats| && Size(d, cats[i]) > 0
    ensures Reported(d, cats[..i]) < Reported(d, cats)
  {
    ReportedConcat(d, cats[..i], cats[i..]);
    assert cats[..i] + cats[i..] == cats;
    assert cats[i..][0] == cats[i];
  }

  lemma ReportedPrefixTail(d: Diff, cats: seq<Category>, i: nat)
    requires 0 < i <= |cats|
    ensures Reported(d, cats[..i]) == |LineIf(d, cats[0])| + Reported(d, cats[1..][..i - 1])
  {
    assert cats[..i][0] == cats[0];
    assert cats[..i][1..] == cats[1..][..i - 1];
  }

  /** A reporting category's line sits after the lines of the reporting
      categories before it. */
  lemma {:induction false} LinesForPosition(d: Diff, cats: seq<Category>, i: nat)
    requires i < |cats| && Size(d, cats[i]) > 0
    ensures Reported(d, cats[..i]) < |LinesFor(d, cats)|
    ensures LinesFor(d, cats)[Reported(d, cats[..i])] == Line(d, cats[i])
    decreases |cats|
  {
    LinesForLength(d, cats);
    ReportedBefore(d, cats, i);
    if i == 0 {
      LinesForFirst(d, cats);
    } else {
      assert cats[1..][i - 1] == cats[i];
      LinesForPosition(d, cats[1..], i - 1);
      ReportedPrefixTail(d, cats, i);
      LinesForShift(d, cats, Reported(d, cats[1..][..i - 1]));
    }
  }

  lemma LinesForFirst(d: Diff, cats: seq<Category>)
    requires |cats| > 0 && Size(d, cats[0]) > 0
    ensures Reported(d, cats[..0]) == 0
    ensures LinesFor(d, cats)[0] == Line(d, cats[0])
  {
    assert cats[..0] == [];
  }

  lemma LinesForShift(d: Diff, cats: seq<Category>, k: nat)
    requires |cats| > 0 && k < |LinesFor(d, cats[1..])|
    ensures |LineIf(d, cats[0])| + k < |LinesFor(d, cats)|
    ensures LinesFor(d, cats)[|LineIf(d, cats[0])| + k] == LinesFor(d, cats[1..])[k]
  {
    assert LinesFor(d, cats) == LineIf(d, cats[0]) + LinesFor(d, cats[1..]);
  }

  /** Of two categories, the count up to the later one exceeds the count up
      to an earlier one that reports. */
  lemma ReportedIncreases(d: Diff, cats: seq<Category>, i: nat, j: nat)
    requires i < j <= |cats| && Size(d, cats[i]) > 0
    ensures Reported(d, cats[..i]) < Reported(d, cats[..j])
  {
    assert cats[..j][i] == cats[i];
    ReportedBefore(d, cats[..j], i);
    assert cats[..j][..i] == cats[..i];
  }

  /** Two different markers never head the same line. */
  lemma HeaderDetermines(c1: Category, c2: Category, x: string, y: string)
    requires Header(c1) + x == Header(c2) + y
    ensures c1 == c2
  {
    assert |Header(c1)| == 8 && |Header(c2)| == 8;
    assert (Header(c1) + x)[0] == Header(c1)[0] && (Header(c1) + x)[4] == Header(c1)[4];
    assert (Header(c2) + y)[0] == Header(c2)[0] && (Header(c2) + y)[4] == Header(c2)[4];
  }

  /** A category's line occurs only if the category is listed and reports. */
  lemma {:induction false} LineInLinesFor(d: Diff, cats: seq<Category>, c: Category)
    requires Line(d, c) in LinesFor(d, cats)
    ensures c in cats && Size(d, c) > 0
    decreases |cats|
  {
    var head := LineIf(d, cats[0]);
    assert LinesFor(d, cats) == head + LinesFor(d, cats[1..]);
    if Line(d, c) in head {
      HeaderDetermines(c, cats[0], Detail(d, c), Detail(d, cats[0]));
    } else {
      LineInLinesFor(d, cats[1..], c);
    }
  }

  function IndexIn(c: Category): nat {
    match c
    case AddedNodes => 0
    case AddedEdges => 1
    case ModifiedNodes => 2
    case ModifiedEdges => 3
    case RemovedNodes => 4
    case RemovedEdges => 5
  }

  /** A category's line appears in the summary exactly when the category
      has something to report. */
  lemma SummaryLineIffReported(d: Diff, c: Category)
    ensures Line(d, c) in SummaryLines(d) <==> Size(d, c) > 0
  {
    SummaryIsLinesFor(d);
    if Size(d, c) > 0 {
      assert SummaryOrder[IndexIn(c)] == c;
      LinesForPosition(d, SummaryOrder, IndexIn(c));
    }
    if Line(d, c) in SummaryLines(d) {
      LineInLinesFor(d, SummaryOrder, c);
    }
  }

  /** The summary has one line per reporting category, and the line of the
      `i`-th category of the fixed order (added nodes, added edges,
      modified nodes, modified edges, removed nodes, removed edges) comes
      right after the lines of the reporting categories before it. */
  lemma SummaryLinePosition(d: Diff, i: nat)
    requires i < 6 && Size(d, SummaryOrder[i]) > 0
    ensures |SummaryLines(d)| == Reported(d, SummaryOrder)
    ensures Reported(d, SummaryOrder[..i]) < |SummaryLines(d)|
    ensures SummaryLines(d)[Reported(d, SummaryOrder[..i])] == Line(d, SummaryOrder[i])
  {
    SummaryIsLinesFor(d);
    LinesForLength(d, SummaryOrder);
    LinesForPosition(d, SummaryOrder, i);
  }

  /** Of two reporting categories, the one earlier in the fixed order has
      its line earlier in the summary. */
  lemma SummaryFollowsCategoryOrder(d: Diff, i: nat, j: nat)
    requires i < j < 6 && Size(d, SummaryOrder[i]) > 0 && Size(d, SummaryOrder[j]) > 0
    ensures exists p, q :: 0 <= p < q < |SummaryLines(d)|
              && SummaryLines(d)[p] == Line(d, SummaryOrder[i])
              && SummaryLines(d)[q] == Line(d, SummaryOrder[j])
  {
    SummaryLinePosition(d, i);
    SummaryLinePosition(d, j);
    ReportedIncreases(d, SummaryOrder, i, j);
  }

  lemma {:induction false} JoinStartsWithFirst(parts: seq<string>, sep: string)
    requires |parts| > 0
    ensures StartsWith(Join(parts, sep), parts[0])
  {
    if |parts| > 1 {
      assert Join(parts, sep) == parts[0] + (sep + Join(parts[1..], sep));
    }
  }

  /** The summary is the no-change sentinel exactly when every list is
      empty, i.e. exactly when `hasSignificantChanges` is false. */
  lemma SummarySentinelIffNoChanges(d: Diff)
    ensures GenerateDiffSummary(d) == NoChanges <==> !HasSignificantChanges(d)
    ensures !HasSignificantChanges(d) ==> SummaryLines(d) == []
  {
    var lines := SummaryLines(d);
    if |lines| > 0 {
      JoinStartsWithFirst(lines, "\n");
      var s := Join(lines, "\n");
      assert lines[0][0] in {'✅', '📝', '❌'};
      assert s[0] == lines[0][0];
      assert NoChanges[0] == '无';
    }
  }

  /** No node name the summary lists holds `c`. */
  predicate NamesFree(d: Diff, c: char) {
    && (forall i :: 0 <= i < |d.addedNodes| ==> c !in d.addedNodes[i].name.GetOr(""))
    && (forall i :: 0 <= i < |d.modifiedNodes| ==> c !in d.modifiedNodes[i].after.name.GetOr(""))
    && (forall i :: 0 <= i < |d.removedNodes| ==> c !in d.removedNodes[i].name.GetOr(""))
  }

  lemma JoinNamesFree(names: seq<Field>)
    requires forall i :: 0 <= i < |names| ==> '\n' !in names[i].GetOr("")
    ensures '\n' !in JoinNames(names)
  {
    var parts := seq(|names|, i requires 0 <= i < |names| => names[i].GetOr(""));
    assert forall i :: 0 <= i < |parts| ==> '\n' !in parts[i];
    JoinFreeOf(parts, ", ", '\n');
  }

  /** With newline-free names, no line of the summary holds a newline. */
  lemma LineFree(d: Diff, c: Category)
    requires NamesFree(d, '\n')
    ensures '\n' !in Line(d, c)
  {
    assert '\n' !in Header(c);
    match c
    case AddedNodes => JoinNamesFree(NamesOf(d.addedNodes));
    case ModifiedNodes => JoinNamesFree(NewNamesOf(d.modifiedNodes));
    case RemovedNodes => JoinNamesFree(NamesOf(d.removedNodes));
    case _ =>
      var digits := NatToString(Size(d, c));
      assert forall k :: 0 <= k < |digits| ==> digits[k] != '\n';
      assert '\n' !in " 条";
  }

  lemma {:induction false} LinesForFree(d: Diff, cats: seq<Category>)
    requires NamesFree(d, '\n')
    ensures forall k :: 0 <= k < |LinesFor(d, cats)| ==> '\n' !in LinesFor(d, cats)[k]
    decreases |cats|
  {
    if |cats| > 0 {
      LineFree(d, cats[0]);
      LinesForFree(d, cats[1..]);
      assert LinesFor(d, cats) == LineIf(d, cats[0]) + LinesFor(d, cats[1..]);
    }
  }

  /** When no listed name holds a newline, splitting a non-sentinel summary
      at newlines gives back exactly the lines it was joined from. */
  lemma SummarySplitsIntoLines(d: Diff)
    requires NamesFree(d, '\n')
    ensures HasSignificantChanges(d) ==> Split(GenerateDiffSummary(d), '\n') == SummaryLines(d)
  {
    if HasSignificantChanges(d) {
      SummarySentinelIffNoChanges(d);
      SummaryIsLinesFor(d);
      LinesForFree(d, SummaryOrder);
      SplitJoin(SummaryLines(d), '\n');
    }
  }
}

=== FILE: ontology_store.dfy ===
/** The application store: the graph on screen, the history, the settings
    and the UI flags, with the actions that change them. Every graph edit
    builds a candidate graph, stamps it and hands it to `saveOntology`,
    which installs it only if it validates and the write succeeds. */
module OntologyStore {
  import opened Wrappers
  import opened Model
  import opened OntologyUtils
  import opened Storage

  const ErrNotInitialized := "本体未初始化"
  const ErrSaveFailed := "保存失败"

  datatype State = State(
    ontology: Option<Ontology>,
    contentHistory: seq<HistoryItem>,
    currentOutput: string,
    settings: Settings,
    isLoading: bool,
    error: Field,
    disk: Disk)

  /** The store as created, before `initialize`. */
  function InitialState(disk: Disk): State {
    State(None, [], "", Settings(Some("openai"), Some(""), Some("")), false, None, disk)
  }

  /** An action's resulting state and its returned flag. */
  datatype Outcome = Outcome(state: State, ok: bool)

  /** The held graph, if any, has array-valued `nodes` and `edges`, so the
      edit actions can spread and map them. */
  predicate HeldShaped(s: State) {
    s.ontology.Some? ==> Shaped(s.ontology.value)
  }

  /** The held graph, if any, passes validation. */
  predicate HeldValid(s: State) {
    s.ontology.Some? ==> WellFormed(s.ontology.value)
  }

  /** The transition changes the held graph only to a valid one. */
  predicate ChangesOnlyToValid(s: State, s': State) {
    s'.ontology == s.ontology || (s'.ontology.Some? && WellFormed(s'.ontology.value))
  }

  // ---------------------------------------------------------------------
  // saveOntology / updateOntology

  /** `saveOntology`: validate, write, and only then install. */
  function SaveOntology(s: State, o: Option<Ontology>): (r: Outcome)
    ensures r.ok <==> ValidateOntology(o) == Valid && s.disk.writable
    ensures r.ok ==> r.state == s.(ontology := o, error := None, disk := r.state.disk)
    ensures r.ok ==> GetOntology(r.state.disk) == o && Untouched(s.disk, r.state.disk, OntologyKey)
    ensures !r.ok ==> r.state == s.(error := r.state.error)
    ensures ValidateOntology(o).Invalid? ==> r.state.error == Some(ValidateOntology(o).error)
    ensures ValidateOntology(o).Valid? && !s.disk.writable ==> r.state.error == Some(ErrSaveFailed)
    ensures ChangesOnlyToValid(s, r.state)
  {
    match ValidateOntology(o)
    case Invalid(e) => Outcome(s.(error := Some(e)), false)
    case Valid =>
      var w := Storage.SaveOntology(s.disk, o.value);
      if w.ok then Outcome(s.(ontology := o, error := None, disk := w.disk), true)
      else Outcome(s.(error := Some(ErrSaveFailed)), false)
  }

  /** `updateOntology`: stamp `updated_at`, then save. */
  function UpdateOntology(s: State, o: Ontology, now: string): (r: Outcome)
    ensures r.ok <==> WellFormed(o) && s.disk.writable
    ensures r.ok ==> r.state.ontology == Some(o.(updatedAt := now)) && r.state.error == None
    ensures !r.ok ==> r.state == s.(error := r.state.error) && r.state.error.Some?
    ensures r.state.contentHistory == s.contentHistory && r.state.settings == s.settings
    ensures ChangesOnlyToValid(s, r.state)
  {
    SaveOntology(s, Some(UpdateOntologyTimestamp(o, now)))
  }

  // ---------------------------------------------------------------------
  // Node edits

  /** The fields `addNode` reads from its argument. */
  datatype NodeInput = NodeInput(id: Field, name: Field, kind: Field, description: Field)

  /** The record `addNode` appends: each missing or empty field takes its
      default, and the provenance is always manual. */
  function NewNode(data: NodeInput, genId: string): (n: Node)
    ensures Truthy(data.id) ==> n.id == data.id
    ensures !Truthy(data.id) ==> n.id == Some(genId)
    ensures Truthy(data.name) ==> n.name == data.name
    ensures !Truthy(data.name) ==> n.name == Some("新概念")
    ensures Truthy(data.kind) ==> n.kind == data.kind
    ensures !Truthy(data.kind) ==> n.kind == Some("concept")
    ensures Truthy(data.description) ==> n.description == data.description
    ensures !Truthy(data.description) ==> n.description == Some("")
    ensures Truthy(n.name) && Truthy(n.kind) && n.source == Some("manual")
    ensures n.description.Some? && n.caption.None? && n.properties.None?
  {
    Node(Some(Or(data.id, genId)), Some(Or(data.name, "新概念")), Some(Or(data.kind, "concept")),
         Some(Or(data.description, "")), Some("manual"), None, None)
  }

  /** `addNode`. */
  function AddNode(s: State, data: NodeInput, genId: string, now: string): (r: Outcome)
    requires HeldShaped(s)
    ensures s.ontology.None? ==> r == Outcome(s.(error := Some(ErrNotInitialized)), false)
    ensures s.ontology.Some? ==>
      var g := s.ontology.value;
      var g' := g.(nodes := Some(g.nodes.value + [NewNode(data, genId)]));
      && (r.ok <==> WellFormed(g') && s.disk.writable)
      && (r.ok ==> r.state.ontology == Some(g'.(updatedAt := now)))
    ensures !r.ok ==> r.state.ontology == s.ontology
    ensures ChangesOnlyToValid(s, r.state)
  {
    match s.ontology
    case None => Outcome(s.(error := Some(ErrNotInitialized)), false)
    case Some(g) => UpdateOntology(s, g.(nodes := Some(g.nodes.value + [NewNode(data, genId)])), now)
  }

  lemma NodeIdsAppend(nodes: seq<Node>, n: Node)
    ensures NodeIds(nodes + [n]) == NodeIds(nodes) + {n.id}
  {
    assert forall m :: m in nodes + [n] <==> m in nodes || m == n;
  }

  /** On a valid graph and a working store, `addNode` succeeds whenever the
      new node gets a non-empty id, and appends exactly that node. */
  lemma AddNodeSucceeds(s: State, data: NodeInput, genId: string, now: string)
    requires HeldValid(s) && s.ontology.Some? && s.disk.writable
    requires Truthy(data.id) || genId != ""
    ensures var r := AddNode(s, data, genId, now);
      && r.ok
      && r.state.ontology.value.nodes.value == s.ontology.value.nodes.value + [NewNode(data, genId)]
      && r.state.ontology.value.edges == s.ontology.value.edges
  {
    var g := s.ontology.value;
    NodeIdsAppend(g.nodes.value, NewNode(data, genId));
  }

  /** The keys present in an `updates` object: `Some(v)` replaces the
      field with `v`, `None` leaves it. */
  datatype NodePatch = NodePatch(
    id: Option<Field>,
    name: Option<Field>,
    kind: Option<Field>,
    description: Option<Field>,
    source: Option<Field>,
    caption: Option<Field>,
    properties: Option<Option<Props>>)

  function Override<T>(current: T, update: Option<T>): T {
    if update.Some? then update.value else current
  }

  /** `{ ...node, ...updates }` */
  function PatchNode(n: Node, p: NodePatch): Node {
    Node(Override(n.id, p.id), Override(n.name, p.name), Override(n.kind, p.kind),
         Override(n.description, p.description), Override(n.source, p.source),
         Override(n.caption, p.caption), Override(n.properties, p.properties))
  }

  /** `nodes.map(node => node.id === nodeId ? { ...node, ...updates } : node)` */
  function PatchNodes(nodes: seq<Node>, nodeId: Field, p: NodePatch): (r: seq<Node>)
    ensures |r| == |nodes|
    ensures forall i :: 0 <= i < |nodes| && nodes[i].id != nodeId ==> r[i] == nodes[i]
    ensures forall i :: 0 <= i < |nodes| && nodes[i].id == nodeId ==> r[i] == PatchNode(nodes[i], p)
  {
    if |nodes| == 0 then []
    else [if nodes[0].id == nodeId then PatchNode(nodes[0], p) else nodes[0]] + PatchNodes(nodes[1..], nodeId, p)
  }

  /** `updateNode`: no graph means false and no change at all. */
  function UpdateNode(s: State, nodeId: Field, p: NodePatch, now: string): (r: Outcome)
    requires HeldShaped(s)
    ensures s.ontology.None? ==> r == Outcome(s, false)
    ensures s.ontology.Some? ==>
      var g := s.ontology.value;
      var g' := g.(nodes := Some(PatchNodes(g.nodes.value, nodeId, p)));
      && (r.ok <==> WellFormed(g') && s.disk.writable)
      && (r.ok ==> r.state.ontology == Some(g'.(updatedAt := now)))
    ensures !r.ok ==> r.state.ontology == s.ontology
    ensures ChangesOnlyToValid(s, r.state)
  {
    match s.ontology
    case None => Outcome(s, false)
    case Some(g) => UpdateOntology(s, g.(nodes := Some(PatchNodes(g.nodes.value, nodeId, p))), now)
  }

  /** A patch without an id leaves every node's id where it was. */
  lemma PatchKeepsIds(nodes: seq<Node>, nodeId: Field, p: NodePatch)
    requires p.id.None?
    ensures NodeIds(PatchNodes(nodes, nodeId, p)) == NodeIds(nodes)
  {
    var nodes' := PatchNodes(nodes, nodeId, p);
    forall x | x in NodeIds(nodes) ensures x in NodeIds(nodes') {
      var n :| n in nodes && n.id == x;
      var i :| 0 <= i < |nodes| && nodes[i] == n;
      assert nodes'[i].id == x;
    }
    forall x | x in NodeIds(nodes') ensures x in NodeIds(nodes) {
      var n :| n in nodes' && n.id == x;
      var i :| 0 <= i < |nodes'| && nodes'[i] == n;
      assert nodes[i].id == x;
    }
  }

  /** A patch without an id and with a non-empty name, if any, keeps
      complete nodes complete. */
  lemma PatchKeepsComplete(nodes: seq<Node>, nodeId: Field, p: NodePatch)
    requires p.id.None?
    requires p.name.Some? ==> Truthy(p.name.value)
    ensures (forall n :: n in nodes ==> NodeComplete(n)) ==>
              forall n :: n in PatchNodes(nodes, nodeId, p) ==> NodeComplete(n)
  {
    var nodes' := PatchNodes(nodes, nodeId, p);
    if forall n :: n in nodes ==> NodeComplete(n) {
      forall n | n in nodes' ensures NodeComplete(n) {
        var i :| 0 <= i < |nodes'| && nodes'[i] == n;
        assert NodeComplete(nodes[i]);
      }
    }
  }

  /** A patch that leaves ids alone and gives a non-empty name when it names
      one keeps a valid graph valid, so on a working store `updateNode`
      succeeds. */
  lemma UpdateNodeKeepingIdsSucceeds(s: State, nodeId: Field, p: NodePatch, now: string)
    requires HeldValid(s) && s.ontology.Some? && s.disk.writable
    requires p.id.None?
    requires p.name.Some? ==> Truthy(p.name.value)
    ensures UpdateNode(s, nodeId, p, now).ok
  {
    var nodes := s.ontology.value.nodes.value;
    PatchKeepsIds(nodes, nodeId, p);
    PatchKeepsComplete(nodes, nodeId, p);
  }

  /** `Array.prototype.filter`: the items `keep` accepts, in order. */
  function Filter<T(!new)>(xs: seq<T>, keep: T -> bool): (r: seq<T>)
    ensures |r| <= |xs|
  {
    if |xs| == 0 then [] else (if keep(xs[0]) then [xs[0]] else []) + Filter(xs[1..], keep)
  }

  /** The filter keeps exactly the items `keep` accepts. */
  lemma {:induction false} FilterMembers<T(!new)>(xs: seq<T>, keep: T -> bool)
    ensures forall x :: x in Filter(xs, keep) <==> x in xs && keep(x)
    decreases |xs|
  {
    if |xs| > 0 {
      FilterCons(xs, keep);
      FilterMembers(xs[1..], keep);
      assert forall y :: y in xs <==> y == xs[0] || y in xs[1..];
    }
  }

  /** `filter` keeps order and repeats: it distributes over concatenation. */
  lemma {:induction false} FilterConcat<T(!new)>(a: seq<T>, b: seq<T>, keep: T -> bool)
    ensures Filter(a + b, keep) == Filter(a, keep) + Filter(b, keep)
    decreases |a|
  {
    if |a| > 0 {
      FilterCons(a, keep);
      FilterCons(a + b, keep);
      assert (a + b)[0] == a[0] && (a + b)[1..] == a[1..] + b;
      FilterConcat(a[1..], b, keep);
    } else {
      assert a + b == b;
    }
  }

  lemma FilterCons<T(!new)>(a: seq<T>, keep: T -> bool)
    requires |a| > 0
    ensures Filter(a, keep) == (if keep(a[0]) then [a[0]] else []) + Filter(a[1..], keep)
  {
  }

  /** A single item is kept exactly when `keep` accepts it. */
  lemma FilterSingle<T(!new)>(x: T, keep: T -> bool)
    ensures Filter([x], keep) == if keep(x) then [x] else []
  {
    assert [x][1..] == [];
  }

  function IdIsNot(nodeId: Field): Node -> bool {
    (n: Node) => n.id != nodeId
  }

  function EndsAvoid(nodeId: Field): Edge -> bool {
    (e: Edge) => e.source != nodeId && e.target != nodeId
  }

  function EdgeIdIsNot(edgeId: Field): Edge -> bool {
    (e: Edge) => e.id != edgeId
  }

  /** `nodes.filter(node => node.id !== nodeId)` */
  function NodesWithout(nodes: seq<Node>, nodeId: Field): (r: seq<Node>)
    ensures forall n :: n in r <==> n in nodes && n.id != nodeId
  {
    FilterMembers(nodes, IdIsNot(nodeId));
    Filter(nodes, IdIsNot(nodeId))
  }

  /** `edges.filter(edge => edge.source !== nodeId && edge.target !== nodeId)` */
  function EdgesAvoiding(edges: seq<Edge>, nodeId: Field): (r: seq<Edge>)
    ensures forall e :: e in r <==> e in edges && e.source != nodeId && e.target != nodeId
  {
    FilterMembers(edges, EndsAvoid(nodeId));
    Filter(edges, EndsAvoid(nodeId))
  }

  /** Deleting a node keeps the other nodes in order and with their
      repeats: the filter distributes over concatenation, and a single node
      is kept exactly when its id differs. */
  lemma NodesWithoutKeepsOrder(a: seq<Node>, b: seq<Node>, x: Node, nodeId: Field)
    ensures NodesWithout(a + b, nodeId) == NodesWithout(a, nodeId) + NodesWithout(b, nodeId)
    ensures NodesWithout([x], nodeId) == if x.id != nodeId then [x] else []
  {
    FilterConcat(a, b, IdIsNot(nodeId));
    FilterSingle(x, IdIsNot(nodeId));
  }

  /** The edges kept by `deleteNode` keep their order and repeats: a single
      edge is kept exactly when neither end is the node. */
  lemma EdgesAvoidingKeepsOrder(a: seq<Edge>, b: seq<Edge>, x: Edge, nodeId: Field)
    ensures EdgesAvoiding(a + b, nodeId) == EdgesAvoiding(a, nodeId) + EdgesAvoiding(b, nodeId)
    ensures EdgesAvoiding([x], nodeId) == if x.source != nodeId && x.target != nodeId then [x] else []
  {
    FilterConcat(a, b, EndsAvoid(nodeId));
    FilterSingle(x, EndsAvoid(nodeId));
  }

  /** The graph `deleteNode` saves: the node goes, and so does every edge
      that starts or ends at it. */
  function WithoutNode(g: Ontology, nodeId: Field): Ontology
    requires Shaped(g)
  {
    g.(nodes := Some(NodesWithout(g.nodes.value, nodeId)), edges := Some(EdgesAvoiding(g.edges.value, nodeId)))
  }

  /** Deleting a node together with its edges keeps a valid graph valid. */
  lemma WithoutNodeKeepsValid(g: Ontology, nodeId: Field)
    requires Shaped(g)
    ensures WellFormed(g) ==> WellFormed(WithoutNode(g, nodeId))
  {
    if !WellFormed(g) { return; }
    var g' := WithoutNode(g, nodeId);
    var ids := NodeIds(g.nodes.value);
    var ids' := NodeIds(g'.nodes.value);
    forall e | e in g'.edges.value ensures EdgeSound(e, ids') {
      assert EdgeSound(e, ids);
      var a :| a in g.nodes.value && a.id == e.source;
      var b :| b in g.nodes.value && b.id == e.target;
      assert a in g'.nodes.value && b in g'.nodes.value;
    }
  }

  /** `deleteNode`. On a valid graph it can fail only because the write
      fails. */
  function DeleteNode(s: State, nodeId: Field, now: string): (r: Outcome)
    requires HeldShaped(s)
    ensures s.ontology.None? ==> r == Outcome(s, false)
    ensures s.ontology.Some? ==>
      var g := s.ontology.value;
      && (r.ok <==> WellFormed(WithoutNode(g, nodeId)) && s.disk.writable)
      && (r.ok ==> r.state.ontology == Some(WithoutNode(g, nodeId).(updatedAt := now)))
    ensures HeldValid(s) && s.ontology.Some? ==> (r.ok <==> s.disk.writable)
    ensures r.ok ==> forall n :: n in r.state.ontology.value.nodes.value <==> n in s.ontology.value.nodes.value && n.id != nodeId
    ensures r.ok ==> forall e :: e in r.state.ontology.value.edges.value <==>
                                 e in s.ontology.value.edges.value && e.source != nodeId && e.target != nodeId
    ensures !r.ok ==> r.state.ontology == s.ontology
    ensures ChangesOnlyToValid(s, r.state)
  {
    match s.ontology
    case None => Outcome(s, false)
    case Some(g) =>
      WithoutNodeKeepsValid(g, nodeId);
      UpdateOntology(s, WithoutNode(g, nodeId), now)
  }

  // ---------------------------------------------------------------------
  // Edge edits

  /** The fields `addEdge` reads from its argument. */
  datatype EdgeInput = EdgeInput(id: Field, source: Field, target: Field, relation: Field, description: Field)

  /** The object literal `addEdge` writes, in the order written: `source`
      appears twice, first as the endpoint and then as the provenance. */
  function NewEdgeEntries(data: EdgeInput, genId: string): Entries {
    [("id", Some(Or(data.id, genId))),
     ("source", data.source),
     ("target", data.target),
     ("relation", Some(Or(data.relation, "关联"))),
     ("description", Some(Or(data.description, ""))),
     ("source", Some("manual"))]
  }

  /** The record `addEdge` appends: the endpoint is overwritten by the
      provenance marker. */
  function NewEdge(data: EdgeInput, genId: string): (e: Edge)
    ensures e.source == Some("manual")
    ensures e.target == data.target
    ensures e.id == Some(Or(data.id, genId))
    ensures e.relation == Some(Or(data.relation, "关联"))
  {
    var e := EdgeOfLiteral(NewEdgeEntries(data, genId));
    EdgeLiteralSourceTwice(Some(Or(data.id, genId)), data.source, data.target, Some(Or(data.relation, "关联")),
                           Some(Or(data.description, "")), Some("manual"));
    e
  }

  /** `addEdge` as written. */
  function AddEdge(s: State, data: EdgeInput, genId: string, now: string): (r: Outcome)
    requires HeldShaped(s)
    ensures s.ontology.None? ==> r == Outcome(s, false)
    ensures s.ontology.Some? ==>
      var g := s.ontology.value;
      var g' := g.(edges := Some(g.edges.value + [NewEdge(data, genId)]));
      && (r.ok <==> WellFormed(g') && s.disk.writable)
      && (r.ok ==> r.state.ontology == Some(g'.(updatedAt := now)))
    ensures !r.ok ==> r.state.ontology == s.ontology
    ensures ChangesOnlyToValid(s, r.state)
  {
    match s.ontology
    case None => Outcome(s, false)
    case Some(g) => UpdateOntology(s, g.(edges := Some(g.edges.value + [NewEdge(data, genId)])), now)
  }

  /** Unless some node has the id `manual`, `addEdge` never succeeds: the
      appended edge starts at `manual`, validation rejects it as dangling,
      and the graph stays as it was. */
  lemma AddEdgeAlwaysRejected(s: State, data: EdgeInput, genId: string, now: string)
    requires HeldValid(s) && s.ontology.Some?
    requires Some("manual") !in NodeIds(s.ontology.value.nodes.value)
    ensures var r := AddEdge(s, data, genId, now);
      && !r.ok
      && r.state.ontology == s.ontology
      && (Truthy(data.target) && (Truthy(data.id) || genId != "") ==>
            r.state.error == Some(ErrDangling(Some(Or(data.id, genId)))))
  {
    var g := s.ontology.value;
    var e := NewEdge(data, genId);
    var edges := g.edges.value + [e];
    var g' := g.(edges := Some(edges), updatedAt := now);
    var ids := NodeIds(g.nodes.value);
    assert !EdgeSound(e, ids);
    assert e in edges;
    if Truthy(data.target) && (Truthy(data.id) || genId != "") {
      assert FirstUnsound(edges, ids, |edges| - 1) by {
        forall j | 0 <= j < |edges| - 1 ensures EdgeSound(edges[j], ids) {
          assert edges[j] in g.edges.value;
        }
      }
      assert ValidateOntology(Some(g')) == Invalid(EdgeError(e, ids));
    }
  }

  /** The record `addEdge` evidently means to append: the given endpoints,
      without the second `source` entry. */
  function IntendedEdge(data: EdgeInput, genId: string): (e: Edge)
    ensures e.source == data.source && e.target == data.target
    ensures e.id == Some(Or(data.id, genId))
  {
    Edge(Some(Or(data.id, genId)), data.source, data.target, Some(Or(data.relation, "关联")),
         Some(Or(data.description, "")), None, None, None)
  }

  /** `addEdge` with the duplicate key removed. */
  function AddEdgeIntended(s: State, data: EdgeInput, genId: string, now: string): (r: Outcome)
    requires HeldShaped(s)
    ensures s.ontology.None? ==> r == Outcome(s, false)
    ensures s.ontology.Some? ==>
      var g := s.ontology.value;
      var g' := g.(edges := Some(g.edges.value + [IntendedEdge(data, genId)]));
      && (r.ok <==> WellFormed(g') && s.disk.writable)
      && (r.ok ==> r.state.ontology == Some(g'.(updatedAt := now)))
    ensures !r.ok ==> r.state.ontology == s.ontology
    ensures ChangesOnlyToValid(s, r.state)
  {
    match s.ontology
    case None => Outcome(s, false)
    case Some(g) => UpdateOntology(s, g.(edges := Some(g.edges.value + [IntendedEdge(data, genId)])), now)
  }

  /** With the corrected record, adding an edge between two existing nodes
      of a valid graph succeeds on a working store, and the new edge keeps
      its start node. */
  lemma AddEdgeIntendedSucceeds(s: State, data: EdgeInput, genId: string, now: string)
    requires HeldValid(s) && s.ontology.Some? && s.disk.writable
    requires Truthy(data.id) || genId != ""
    requires Truthy(data.source) && Truthy(data.target)
    requires data.source in NodeIds(s.ontology.value.nodes.value)
    requires data.target in NodeIds(s.ontology.value.nodes.value)
    ensures var r := AddEdgeIntended(s, data, genId, now);
      && r.ok
      && r.state.ontology.value.edges.value == s.ontology.value.edges.value + [IntendedEdge(data, genId)]
      && r.state.ontology.value.edges.value[|s.ontology.value.edges.value|].source == data.source
  {
  }

  /** The keys present in an edge `updates` object. */
  datatype EdgePatch = EdgePatch(
    id: Option<Field>,
    source: Option<Field>,
    target: Option<Field>,
    relation: Option<Field>,
    description: Option<Field>,
    relationType: Option<Field>,
    strength: Option<Field>,
    crossDomain: Option<Option<bool>>)

  /** `{ ...edge, ...updates }` */
  function PatchEdge(e: Edge, p: EdgePatch): Edge {
    Edge(Override(e.id, p.id), Override(e.source, p.source), Override(e.target, p.target),
         Override(e.relation, p.relation), Override(e.description, p.description),
         Override(e.relationType, p.relationType), Override(e.strength, p.strength),
         Override(e.crossDomain, p.crossDomain))
  }

  /** `edges.map(edge => edge.id === edgeId ? { ...edge, ...updates } : edge)` */
  function PatchEdges(edges: seq<Edge>, edgeId: Field, p: EdgePatch): (r: seq<Edge>)
    ensures |r| == |edges|
    ensures forall i :: 0 <= i < |edges| && edges[i].id != edgeId ==> r[i] == edges[i]
    ensures forall i :: 0 <= i < |edges| && edges[i].id == edgeId ==> r[i] == PatchEdge(edges[i], p)
  {
    if |edges| == 0 then []
    else [if edges[0].id == edgeId then PatchEdge(edges[0], p) else edges[0]] + PatchEdges(edges[1..], edgeId, p)
  }

  /** `updateEdge`. */
  function UpdateEdge(s: State, edgeId: Field, p: EdgePatch, now: string): (r: Outcome)
    requires HeldShaped(s)
    ensures s.ontology.None? ==> r == Outcome(s, false)
    ensures s.ontology.Some? ==>
      var g := s.ontology.value;
      var g' := g.(edges := Some(PatchEdges(g.edges.value, edgeId, p)));
      && (r.ok <==> WellFormed(g') && s.disk.writable)
      && (r.ok ==> r.state.ontology == Some(g'.(updatedAt := now)))
    ensures !r.ok ==> r.state.ontology == s.ontology
    ensures ChangesOnlyToValid(s, r.state)
  {
    match s.ontology
    case None => Outcome(s, false)
    case Some(g) => UpdateOntology(s, g.(edges := Some(PatchEdges(g.edges.value, edgeId, p))), now)
  }

  /** A patch that keeps the id non-empty and moves endpoints only onto
      existing nodes keeps a valid graph valid, so on a working store
      `updateEdge` succeeds. */
  lemma UpdateEdgeWithinGraphSucceeds(s: State, edgeId: Field, p: EdgePatch, now: string)
    requires HeldValid(s) && s.ontology.Some? && s.disk.writable
    requires p.id.Some? ==> Truthy(p.id.value)
    requires p.source.Some? ==> Truthy(p.source.value) && p.source.value in NodeIds(s.ontology.value.nodes.value)
    requires p.target.Some? ==> Truthy(p.target.value) && p.target.value in NodeIds(s.ontology.value.nodes.value)
    ensures UpdateEdge(s, edgeId, p, now).ok
  {
    var g := s.ontology.value;
    var edges' := PatchEdges(g.edges.value, edgeId, p);
    forall e | e in edges' ensures EdgeSound(e, NodeIds(g.nodes.value)) {
      var i :| 0 <= i < |edges'| && edges'[i] == e;
      assert g.edges.value[i] in g.edges.value;
    }
  }

  /** `edges.filter(edge => edge.id !== edgeId)` */
  function EdgesWithout(edges: seq<Edge>, edgeId: Field): (r: seq<Edge>)
    ensures forall e :: e in r <==> e in edges && e.id != edgeId
  {
    FilterMembers(edges, EdgeIdIsNot(edgeId));
    Filter(edges, EdgeIdIsNot(edgeId))
  }

  /** Deleting an edge keeps the other edges in order and with their
      repeats: a single edge is kept exactly when its id differs. */
  lemma EdgesWithoutKeepsOrder(a: seq<Edge>, b: seq<Edge>, x: Edge, edgeId: Field)
    ensures EdgesWithout(a + b, edgeId) == EdgesWithout(a, edgeId) + EdgesWithout(b, edgeId)
    ensures EdgesWithout([x], edgeId) == if x.id != edgeId then [x] else []
  {
    FilterConcat(a, b, EdgeIdIsNot(edgeId));
    FilterSingle(x, EdgeIdIsNot(edgeId));
  }

  /** `deleteEdge`: the nodes are untouched, and on a valid graph it can
      fail only because the write fails. */
  function DeleteEdge(s: State, edgeId: Field, now: string): (r: Outcome)
    requires HeldShaped(s)
    ensures s.ontology.None? ==> r == Outcome(s, false)
    ensures s.ontology.Some? ==>
      var g := s.ontology.value;
      var g' := g.(edges := Some(EdgesWithout(g.edges.value, edgeId)));
      && (r.ok <==> WellFormed(g') && s.disk.writable)
      && (r.ok ==> r.state.ontology == Some(g'.(updatedAt := now)))
    ensures HeldValid(s) && s.ontology.Some? ==> (r.ok <==> s.disk.writable)
    ensures r.ok ==> r.state.ontology.value.nodes == s.ontology.value.nodes
    ensures r.ok ==> forall e :: e in r.state.ontology.value.edges.value <==> e in s.ontology.value.edges.value && e.id != edgeId
    ensures !r.ok ==> r.state.ontology == s.ontology
    ensures ChangesOnlyToValid(s, r.state)
  {
    match s.ontology
    case None => Outcome(s, false)
    case Some(g) => UpdateOntology(s, g.(edges := Some(EdgesWithout(g.edges.value, edgeId))), now)
  }

  // ---------------------------------------------------------------------
  // The remaining actions

  /** `clearOntology`: the stored graph is removed and a fresh empty graph
      is shown. */
  function ClearOntology(s: State, createdAt: string, updatedAt: string): (r: State)
    ensures r.ontology == Some(CreateEmptyOntology(createdAt, updatedAt)) && HeldValid(r)
    ensures r.currentOutput == "" && r.error == None
    ensures GetOntology(r.disk) == None && Untouched(s.disk, r.disk, OntologyKey)
    ensures r.(ontology := s.ontology, currentOutput := s.currentOutput, error := s.error, disk := s.disk) == s
  {
    s.(ontology := Some(CreateEmptyOntology(createdAt, updatedAt)), currentOutput := "", error := None,
       disk := Storage.ClearOntology(s.disk))
  }

  /** The keys present in a settings update. */
  datatype SettingsPatch = SettingsPatch(modelProvider: Option<Field>, modelName: Option<Field>, apiToken: Option<Field>)

  /** `updateSettings`: a shallow merge in which the update's keys win. The
      merged record is shown whether or not the write succeeds. */
  function UpdateSettings(s: State, p: SettingsPatch): (r: State)
    ensures r.settings.modelProvider == (if p.modelProvider.Some? then p.modelProvider.value else s.settings.modelProvider)
    ensures r.settings.modelName == (if p.modelName.Some? then p.modelName.value else s.settings.modelName)
    ensures r.settings.apiToken == (if p.apiToken.Some? then p.apiToken.value else s.settings.apiToken)
    ensures s.disk.writable ==> SavedSettings(r.disk) == Some(r.settings)
    ensures !s.disk.writable ==> r.disk == s.disk
    ensures r.(settings := s.settings, disk := s.disk) == s
  {
    var merged := Settings(Override(s.settings.modelProvider, p.modelProvider), Override(s.settings.modelName, p.modelName),
                           Override(s.settings.apiToken, p.apiToken));
    s.(settings := merged, disk := SaveSettings(s.disk, merged).disk)
  }

  /** `{ id: generateId('history'), timestamp: now, ...item }`: keys the item
      carries win over the generated ones. */
  function StampItem(item: HistoryItem, genId: string, now: string): (r: HistoryItem)
    ensures r.id == (if item.id.Some? then item.id else Some(genId))
    ensures r.timestamp == (if item.timestamp.Some? then item.timestamp else Some(now))
    ensures r.(id := item.id, timestamp := item.timestamp) == item
  {
    item.(id := if item.id.Some? then item.id else Some(genId),
          timestamp := if item.timestamp.Some? then item.timestamp else Some(now))
  }

  /** `addHistoryItem`: store the stamped item, then re-read the history. */
  function AddHistoryItem(s: State, item: HistoryItem, genId: string, now: string): (r: State)
    ensures s.disk.writable ==> r.contentHistory == PushBounded(GetHistory(s.disk), StampItem(item, genId, now))
    ensures !s.disk.writable ==> r.contentHistory == GetHistory(s.disk) && r.disk == s.disk
    ensures r.contentHistory == GetHistory(r.disk)
    ensures r.(contentHistory := s.contentHistory, disk := s.disk) == s
  {
    var d := Storage.AddHistoryItem(s.disk, StampItem(item, genId, now)).disk;
    s.(contentHistory := GetHistory(d), disk := d)
  }

  /** `initialize`: whatever graph the store holds is installed without
      validation. */
  function Initialize(s: State, env: Env): (r: State)
    ensures r.ontology == GetOntology(s.disk)
    ensures r.contentHistory == GetHistory(s.disk) && r.settings == GetSettings(s.disk, env)
    ensures r.currentOutput == ""
    ensures r.(ontology := s.ontology, contentHistory := s.contentHistory, currentOutput := s.currentOutput,
               settings := s.settings) == s
  {
    s.(ontology := GetOntology(s.disk), contentHistory := GetHistory(s.disk), currentOutput := "",
       settings := GetSettings(s.disk, env))
  }

  /** `initialize` can install a graph that fails validation: the bundled
      sample graph, once stored, is loaded as is. */
  lemma InitializeSkipsValidation(s: State, env: Env, now: string)
    requires s.disk.entries == map[OntologyKey := GraphDoc(SampleOntology(now))]
    ensures Initialize(s, env).ontology == Some(SampleOntology(now))
    ensures !HeldValid(Initialize(s, env))
  {
    SampleOntologyRejected(now);
  }

  /** `loadOntology`: a stored graph is installed only if it validates. */
  function LoadOntology(s: State): (r: Outcome)
    ensures r.ok <==> GetOntology(s.disk).Some? && WellFormed(GetOntology(s.disk).value)
    ensures r.ok ==> r.state == s.(ontology := GetOntology(s.disk), error := None)
    ensures !r.ok ==> r.state.ontology == s.ontology && r.state == s.(error := r.state.error)
    ensures GetOntology(s.disk).None? ==> r == Outcome(s, false)
    ensures ChangesOnlyToValid(s, r.state)
  {
    match GetOntology(s.disk)
    case None => Outcome(s, false)
    case Some(o) =>
      match ValidateOntology(Some(o))
      case Valid => Outcome(s.(ontology := Some(o), error := None), true)
      case Invalid(e) => Outcome(s.(error := Some(e)), false)
  }

  // ---------------------------------------------------------------------
  // The store as a state machine

  /** Every action of the store except `initialize`, with the clock
      readings and generated ids it uses. */
  datatype Action =
    | Save(o: Option<Ontology>)
    | Update(g: Ontology, now: string)
    | AddNodeAction(node: NodeInput, genId: string, now: string)
    | UpdateNodeAction(nodeId: Field, nodePatch: NodePatch, now: string)
    | DeleteNodeAction(nodeId: Field, now: string)
    | AddEdgeAction(edge: EdgeInput, genId: string, now: string)
    | UpdateEdgeAction(edgeId: Field, edgePatch: EdgePatch, now: string)
    | DeleteEdgeAction(edgeId: Field, now: string)
    | Clear(createdAt: string, updatedAt: string)
    | Load
    | SetOutput(output: string)
    | AddHistory(item: HistoryItem, genId: string, now: string)
    | ClearHistory
    | ChangeSettings(settingsPatch: SettingsPatch)
    | SetLoading(isLoading: bool)
    | SetError(error: Field)
    | ClearError

  function Step(s: State, a: Action): (r: State)
    requires HeldShaped(s)
    ensures ChangesOnlyToValid(s, r)
  {
    match a
    case Save(o) => SaveOntology(s, o).state
    case Update(g, now) => UpdateOntology(s, g, now).state
    case AddNodeAction(n, genId, now) => AddNode(s, n, genId, now).state
    case UpdateNodeAction(id, p, now) => UpdateNode(s, id, p, now).state
    case DeleteNodeAction(id, now) => DeleteNode(s, id, now).state
    case AddEdgeAction(e, genId, now) => AddEdge(s, e, genId, now).state
    case UpdateEdgeAction(id, p, now) => UpdateEdge(s, id, p, now).state
    case DeleteEdgeAction(id, now) => DeleteEdge(s, id, now).state
    case Clear(c, u) => ClearOntology(s, c, u)
    case Load => LoadOntology(s).state
    case SetOutput(out) => s.(currentOutput := out)
    case AddHistory(item, genId, now) => AddHistoryItem(s, item, genId, now)
    case ClearHistory => s.(contentHistory := [], disk := Storage.ClearHistory(s.disk))
    case ChangeSettings(p) => UpdateSettings(s, p)
    case SetLoading(b) => s.(isLoading := b)
    case SetError(e) => s.(error := e)
    case ClearError => s.(error := None)
  }

  /** The actions applied in order. */
  function Run(s: State, actions: seq<Action>): (r: State)
    requires HeldShaped(s)
    ensures HeldShaped(r)
    decreases |actions|
  {
    if |actions| == 0 then s
    else
      var next := Step(s, actions[0]);
      Run(next, actions[1..])
  }

  /** From a state whose graph is valid (or absent), no sequence of actions
      leads to a state holding an invalid graph. */
  lemma {:induction false} RunKeepsValid(s: State, actions: seq<Action>)
    requires HeldValid(s)
    ensures HeldValid(Run(s, actions))
    decreases |actions|
  {
    if |actions| > 0 {
      var next := Step(s, actions[0]);
      RunKeepsValid(next, actions[1..]);
    }
  }
}

=== FILE: ontology_utils.dfy ===
/** Structural validation of a graph, its two constructors, and the
    conversions to and from the records of the graph-drawing widget. */
module OntologyUtils {
  import opened Wrappers
  import opened Model

  datatype Validation = Valid | Invalid(error: string)

  const ErrNotObject := "本体数据无效"
  const ErrNodesNotArray := "节点数据格式错误"
  const ErrEdgesNotArray := "边数据格式错误"
  const ErrNodeFields := "节点缺少必要字段（id或name）"
  const ErrEdgeFields := "边缺少必要字段（id、source或target）"

  function ErrDangling(edgeId: Field): string {
    "边引用了不存在的节点: " + Show(edgeId)
  }

  predicate NodeComplete(n: Node) {
    Truthy(n.id) && Truthy(n.name)
  }

  predicate EdgeComplete(e: Edge) {
    Truthy(e.id) && Truthy(e.source) && Truthy(e.target)
  }

  function NodeIds(nodes: seq<Node>): set<Field> {
    set n | n in nodes :: n.id
  }

  /** A complete edge whose two endpoints are ids of the given nodes. */
  predicate EdgeSound(e: Edge, ids: set<Field>) {
    EdgeComplete(e) && e.source in ids && e.target in ids
  }

  /** The structural invariant: both collections are arrays, every node has
      an id and a name, every edge has an id and two endpoints naming nodes
      of the same graph. Ids need not be unique. */
  predicate WellFormed(o: Ontology) {
    && Shaped(o)
    && (forall n :: n in o.nodes.value ==> NodeComplete(n))
    && (forall e :: e in o.edges.value ==> EdgeSound(e, NodeIds(o.nodes.value)))
  }

  /** Edge `i` is the first one that fails its check. */
  predicate FirstUnsound(edges: seq<Edge>, ids: set<Field>, i: int) {
    && 0 <= i < |edges|
    && !EdgeSound(edges[i], ids)
    && forall j :: 0 <= j < i ==> EdgeSound(edges[j], ids)
  }

  /** The message for an edge that fails: missing fields are checked before
      the endpoints. */
  function EdgeError(e: Edge, ids: set<Field>): string {
    if !EdgeComplete(e) then ErrEdgeFields else ErrDangling(e.id)
  }

  /** The node loop of the validator: the first incomplete node stops it. */
  function CheckNodes(nodes: seq<Node>): (r: Validation)
    ensures r.Valid? <==> forall i :: 0 <= i < |nodes| ==> NodeComplete(nodes[i])
    ensures r.Invalid? ==> r.error == ErrNodeFields
  {
    if |nodes| == 0 then Valid
    else if !NodeComplete(nodes[0]) then Invalid(ErrNodeFields)
    else
      var r := CheckNodes(nodes[1..]);
      assert forall i :: 1 <= i < |nodes| ==> nodes[i] == nodes[1..][i - 1];
      r
  }

  /** The edge loop of the validator: the first failing edge decides the
      message. */
  function CheckEdges(edges: seq<Edge>, ids: set<Field>): (r: Validation)
    ensures r.Valid? <==> forall i :: 0 <= i < |edges| ==> EdgeSound(edges[i], ids)
    ensures r.Invalid? ==> exists i :: FirstUnsound(edges, ids, i) && r.error == EdgeError(edges[i], ids)
  {
    if |edges| == 0 then Valid
    else if !EdgeSound(edges[0], ids) then
      assert FirstUnsound(edges, ids, 0);
      Invalid(EdgeError(edges[0], ids))
    else
      var r := CheckEdges(edges[1..], ids);
      assert forall i :: 1 <= i < |edges| ==> edges[i] == edges[1..][i - 1];
      if r.Invalid? then
        var i :| FirstUnsound(edges[1..], ids, i) && r.error == EdgeError(edges[1..][i], ids);
        assert FirstUnsound(edges, ids, i + 1);
        r
      else r
  }

  /** At most one edge is the first to fail. */
  lemma FirstUnsoundUnique(edges: seq<Edge>, ids: set<Field>, i: int, j: int)
    requires FirstUnsound(edges, ids, i) && FirstUnsound(edges, ids, j)
    ensures i == j
  {
  }

  /** `validateOntology`: ordered checks, first failure wins. `None` stands
      for `null`, `undefined` or a non-object argument. */
  function ValidateOntology(o: Option<Ontology>): (r: Validation)
    ensures r.Valid? <==> o.Some? && WellFormed(o.value)
    ensures o.None? ==> r == Invalid(ErrNotObject)
    ensures o.Some? && o.value.nodes.None? ==> r == Invalid(ErrNodesNotArray)
    ensures o.Some? && o.value.nodes.Some? && o.value.edges.None? ==> r == Invalid(ErrEdgesNotArray)
    ensures o.Some? && Shaped(o.value) && (exists n :: n in o.value.nodes.value && !NodeComplete(n))
            ==> r == Invalid(ErrNodeFields)
    ensures o.Some? && Shaped(o.value) && (forall n :: n in o.value.nodes.value ==> NodeComplete(n))
            ==> forall i :: FirstUnsound(o.value.edges.value, NodeIds(o.value.nodes.value), i)
                  ==> r == Invalid(EdgeError(o.value.edges.value[i], NodeIds(o.value.nodes.value)))
  {
    if o.None? then Invalid(ErrNotObject)
    else if o.value.nodes.None? then Invalid(ErrNodesNotArray)
    else if o.value.edges.None? then Invalid(ErrEdgesNotArray)
    else
      var nodes := o.value.nodes.value;
      var edges := o.value.edges.value;
      CheckNodesMembers(nodes);
      match CheckNodes(nodes)
      case Invalid(e) => Invalid(e)
      case Valid =>
        CheckEdgesMembers(edges, NodeIds(nodes));
        CheckEdgesFirst(edges, NodeIds(nodes));
        CheckEdges(edges, NodeIds(nodes))
  }

  lemma CheckNodesMembers(nodes: seq<Node>)
    ensures CheckNodes(nodes).Valid? <==> forall n :: n in nodes ==> NodeComplete(n)
  {
  }

  lemma CheckEdgesMembers(edges: seq<Edge>, ids: set<Field>)
    ensures CheckEdges(edges, ids).Valid? <==> forall e :: e in edges ==> EdgeSound(e, ids)
  {
  }

  /** The edge loop reports the first failing edge. */
  lemma CheckEdgesFirst(edges: seq<Edge>, ids: set<Field>)
    ensures forall i :: FirstUnsound(edges, ids, i) ==> CheckEdges(edges, ids) == Invalid(EdgeError(edges[i], ids))
  {
    forall i | FirstUnsound(edges, ids, i) ensures CheckEdges(edges, ids) == Invalid(EdgeError(edges[i], ids)) {
      var j :| FirstUnsound(edges, ids, j) && CheckEdges(edges, ids).error == EdgeError(edges[j], ids);
      FirstUnsoundUnique(edges, ids, i, j);
    }
  }

  /** `createEmptyOntology`; the clock is read twice, so the two stamps are
      separate arguments. */
  function CreateEmptyOntology(createdAt: string, updatedAt: string): (r: Ontology)
    ensures r.version == 1 && r.nodes == Some([]) && r.edges == Some([])
    ensures r.createdAt == createdAt && r.updatedAt == updatedAt
    ensures ValidateOntology(Some(r)) == Valid
  {
    Ontology(1, createdAt, updatedAt, Some([]), Some([]), None)
  }

  /** `updateOntologyTimestamp`: a copy with a new `updated_at`. */
  function UpdateOntologyTimestamp(o: Ontology, now: string): (r: Ontology)
    ensures r.updatedAt == now
    ensures r.(updatedAt := o.updatedAt) == o
    ensures ValidateOntology(Some(r)) == ValidateOntology(Some(o))
  {
    o.(updatedAt := now)
  }

  function SampleNode(id: string, name: string, kind: string, description: string): Node {
    Node(Some(id), Some(name), Some(kind), Some(description), Some("manual"), None, None)
  }

  /** A sample edge literal with the duplicate `source: 'manual'` key. */
  function SampleEdge(id: string, from: string, to: string, relation: string, description: string): Edge {
    EdgeOfLiteral([("id", Some(id)), ("source", Some(from)), ("target", Some(to)),
                   ("relation", Some(relation)), ("description", Some(description)), ("source", Some("manual"))])
  }

  /** A sample graph whose edges, like those built by `addEdge`, carry the
      duplicate `source: 'manual'` key: the later key erases the endpoint. */
  function SampleOntology(now: string): Ontology {
    Ontology(1, now, now,
      Some([
        SampleNode("node-1", "Transformer", "architecture", "基于注意力机制的神经网络架构"),
        SampleNode("node-2", "Self-Attention", "mechanism", "自注意力机制，允许模型关注输入序列的不同位置"),
        SampleNode("node-3", "BERT", "model", "双向编码器表示模型，基于Transformer的预训练语言模型"),
        SampleNode("node-4", "Encoder", "component", "Transformer的编码器部分"),
        SampleNode("node-5", "Decoder", "component", "Transformer的解码器部分")
      ]),
      Some([
        SampleEdge("edge-1", "node-1", "node-2", "包含", "Transformer包含Self-Attention机制"),
        SampleEdge("edge-2", "node-3", "node-1", "基于", "BERT基于Transformer架构"),
        SampleEdge("edge-3", "node-1", "node-4", "包含", "Transformer包含Encoder"),
        SampleEdge("edge-4", "node-1", "node-5", "包含", "Transformer包含Decoder")
      ]),
      None)
  }

  lemma SampleNodesComplete(now: string)
    ensures var nodes := SampleOntology(now).nodes.value;
      (forall n :: n in nodes ==> NodeComplete(n)) && Some("manual") !in NodeIds(nodes)
  {
    var nodes := SampleOntology(now).nodes.value;
    assert nodes[0].id == Some("node-1") && nodes[1].id == Some("node-2") && nodes[2].id == Some("node-3")
        && nodes[3].id == Some("node-4") && nodes[4].id == Some("node-5");
    forall n | n in nodes ensures n.id != Some("manual") {
      var k :| 0 <= k < 5 && nodes[k] == n;
    }
  }

  lemma SampleFirstEdgeManual(now: string)
    ensures var e := SampleOntology(now).edges.value[0];
      e.source == Some("manual") && e.id == Some("edge-1") && EdgeComplete(e)
  {
    EdgeLiteralSourceTwice(Some("edge-1"), Some("node-1"), Some("node-2"), Some("包含"),
                           Some("Transformer包含Self-Attention机制"), Some("manual"));
  }

  /** The sample graph is rejected at its first edge, whose `source` reads
      'manual', an id no node has. */
  lemma SampleOntologyRejected(now: string)
    ensures ValidateOntology(Some(SampleOntology(now))) == Invalid(ErrDangling(Some("edge-1")))
  {
    var o := SampleOntology(now);
    SampleNodesComplete(now);
    SampleFirstEdgeManual(now);
    assert FirstUnsound(o.edges.value, NodeIds(o.nodes.value), 0);
  }

  /** Duplicate node ids and duplicate edge ids are accepted. */
  lemma DuplicateIdsAccepted(now: string)
    ensures ValidateOntology(Some(Ontology(1, now, now,
              Some([Node(Some("a"), Some("A"), None, None, None, None, None),
                    Node(Some("a"), Some("B"), None, None, None, None, None)]),
              Some([Edge(Some("e"), Some("a"), Some("a"), None, None, None, None, None),
                    Edge(Some("e"), Some("a"), Some("a"), None, None, None, None, None)]),
              None))) == Valid
  {
  }

  // ---------------------------------------------------------------------
  // Graph-widget records. Positions and styles are layout only and are not
  // modelled; a widget node keeps its id and the spread node as `data`.

  datatype FlowNode = FlowNode(id: Field, data: Node)

  datatype FlowEdge = FlowEdge(id: Field, source: Field, target: Field, caption: Field, data: Option<Edge>)

  /** `{ label: node.name, ...node }`: the node's own `label` key, when it
      has one, overrides the name. */
  function FlowData(n: Node): Node {
    n.(caption := if n.caption.Some? then n.caption else n.name)
  }

  /** `convertToReactFlowNodes`. */
  function ToFlowNodes(nodes: Option<seq<Node>>): (r: seq<FlowNode>)
    ensures nodes.None? ==> r == []
    ensures nodes.Some? ==> |r| == |nodes.value|
    ensures nodes.Some? ==> forall i :: 0 <= i < |r| ==>
              && r[i].id == nodes.value[i].id
              && r[i].data.(caption := nodes.value[i].caption) == nodes.value[i]
              && r[i].data.caption == (if nodes.value[i].caption.Some? then nodes.value[i].caption else nodes.value[i].name)
  {
    if nodes.None? then []
    else seq(|nodes.value|, i requires 0 <= i < |nodes.value| => FlowNode(nodes.value[i].id, FlowData(nodes.value[i])))
  }

  /** `convertToReactFlowEdges`. */
  function ToFlowEdges(edges: Option<seq<Edge>>): (r: seq<FlowEdge>)
    ensures edges.None? ==> r == []
    ensures edges.Some? ==> |r| == |edges.value|
    ensures edges.Some? ==> forall i :: 0 <= i < |r| ==>
              && r[i].id == edges.value[i].id
              && r[i].source == edges.value[i].source
              && r[i].target == edges.value[i].target
              && r[i].caption == edges.value[i].relation
              && r[i].data == Some(edges.value[i])
  {
    if edges.None? then []
    else seq(|edges.value|, i requires 0 <= i < |edges.value| =>
               var e := edges.value[i];
               FlowEdge(e.id, e.source, e.target, e.relation, Some(e)))
  }

  function NodeOfFlow(f: FlowNode): Node {
    Node(
      f.id,
      OrElse(f.data.caption, f.data.name),
      Some(Or(f.data.kind, "concept")),
      Some(Or(f.data.description, "")),
      Some(Or(f.data.source, "manual")),
      None,
      None)
  }

  /** `convertFromReactFlowNodes`. */
  function FromFlowNodes(flow: Option<seq<FlowNode>>): (r: seq<Node>)
    ensures flow.None? ==> r == []
    ensures flow.Some? ==> |r| == |flow.value| && forall i :: 0 <= i < |r| ==> r[i].id == flow.value[i].id
    ensures flow.Some? ==> forall i :: 0 <= i < |r| ==>
              var d := flow.value[i].data;
              && (Truthy(d.caption) ==> r[i].name == d.caption)
              && (!Truthy(d.caption) ==> r[i].name == d.name)
              && (Truthy(d.kind) ==> r[i].kind == d.kind)
              && (!Truthy(d.kind) ==> r[i].kind == Some("concept"))
              && (Truthy(d.description) ==> r[i].description == d.description)
              && (!Truthy(d.description) ==> r[i].description == Some(""))
              && (Truthy(d.source) ==> r[i].source == d.source)
              && (!Truthy(d.source) ==> r[i].source == Some("manual"))
              && r[i].caption.None? && r[i].properties.None?
  {
    if flow.None? then []
    else seq(|flow.value|, i requires 0 <= i < |flow.value| => NodeOfFlow(flow.value[i]))
  }

  /** A widget edge's `data`, read through `?.`: every key is absent when
      the edge carries no data. */
  function DataOf(f: FlowEdge): Edge {
    f.data.GetOr(Edge(None, None, None, None, None, None, None, None))
  }

  /** The object literal `convertFromReactFlowEdges` writes per edge; `source`
      is written twice. */
  function FlowEdgeEntries(f: FlowEdge): Entries {
    var relation := if Truthy(f.caption) then f.caption.value
                    else Or(DataOf(f).relation, "关联");
    [ ("id", f.id),
      ("source", f.source),
      ("target", f.target),
      ("relation", Some(relation)),
      ("description", Some(Or(DataOf(f).description, ""))),
      ("source", Some(Or(DataOf(f).source, "manual"))) ]
  }

  /** The record the literal above denotes. */
  function FlowEdgeRecord(f: FlowEdge): Edge {
    var e := FlowEdgeEntries(f);
    Edge(f.id, e[5].1, f.target, e[3].1, e[4].1, None, None, None)
  }

  /** `convertFromReactFlowEdges`: the later `source` key wins, so the
      result's `source` is the data's `source` (or 'manual'), never the
      widget edge's own endpoint. */
  function FromFlowEdges(flow: Option<seq<FlowEdge>>): (r: seq<Edge>)
    ensures flow.None? ==> r == []
    ensures flow.Some? ==> |r| == |flow.value|
    ensures flow.Some? ==> forall i :: 0 <= i < |r| ==>
              && r[i].id == flow.value[i].id
              && r[i].target == flow.value[i].target
              && r[i].source == Some(Or(DataOf(flow.value[i]).source, "manual"))
    ensures flow.Some? ==> forall i :: 0 <= i < |r| ==>
              var f := flow.value[i];
              && (Truthy(f.caption) ==> r[i].relation == f.caption)
              && (!Truthy(f.caption) && Truthy(DataOf(f).relation) ==> r[i].relation == DataOf(f).relation)
              && (!Truthy(f.caption) && !Truthy(DataOf(f).relation) ==> r[i].relation == Some("关联"))
              && (Truthy(DataOf(f).description) ==> r[i].description == DataOf(f).description)
              && (!Truthy(DataOf(f).description) ==> r[i].description == Some(""))
              && r[i].relationType.None? && r[i].strength.None? && r[i].crossDomain.None?
  {
    if flow.None? then []
    else
      var r := seq(|flow.value|, i requires 0 <= i < |flow.value| => EdgeOfLiteral(FlowEdgeEntries(flow.value[i])));
      assert forall i :: 0 <= i < |r| ==> r[i] == FlowEdgeRecord(flow.value[i]) by {
        forall i | 0 <= i < |r| ensures r[i] == FlowEdgeRecord(flow.value[i]) {
          var f := flow.value[i];
          var e := FlowEdgeEntries(f);
          EdgeLiteralSourceTwice(f.id, f.source, f.target, e[3].1, e[4].1, e[5].1);
        }
      }
      r
  }

  /** A widget edge drawn between two nodes, with no data attached, comes
      back with `source` 'manual' whatever its endpoint. */
  lemma FlowEdgeEndpointLost(id: string, from: string, to: string)
    ensures FromFlowEdges(Some([FlowEdge(Some(id), Some(from), Some(to), None, None)]))[0].source == Some("manual")
  {
  }

  /** Nodes survive the trip to the widget and back with id and name intact
      when they carry no `label` of their own (an own truthy `label` takes
      the name's place); type, description and provenance fall back to
      'concept', '' and 'manual'. */
  lemma NodeRoundTrip(nodes: seq<Node>)
    ensures |FromFlowNodes(Some(ToFlowNodes(Some(nodes))))| == |nodes|
    ensures forall i :: 0 <= i < |nodes| ==>
              var n := nodes[i];
              var r := FromFlowNodes(Some(ToFlowNodes(Some(nodes))))[i];
              && r.id == n.id
              && (n.caption.None? ==> r.name == n.name)
              && (Truthy(n.caption) ==> r.name == n.caption)
              && r.kind == Some(Or(n.kind, "concept"))
              && r.description == Some(Or(n.description, ""))
              && r.source == Some(Or(n.source, "manual"))
    ensures forall i :: 0 <= i < |nodes| ==>
              var n := nodes[i];
              (n.caption.None? && n.properties.None? && Truthy(n.kind) && Truthy(n.description) && Truthy(n.source))
              ==> FromFlowNodes(Some(ToFlowNodes(Some(nodes))))[i] == n
  {
  }

  /** Edges survive the trip with id, endpoints and relation intact when
      those are set; empty fields fall back to the converter's defaults. */
  lemma EdgeRoundTrip(edges: seq<Edge>)
    ensures |FromFlowEdges(Some(ToFlowEdges(Some(edges))))| == |edges|
    ensures forall i :: 0 <= i < |edges| ==>
              var e := edges[i];
              var r := FromFlowEdges(Some(ToFlowEdges(Some(edges))))[i];
              && r.id == e.id
              && r.target == e.target
              && r.source == Some(Or(e.source, "manual"))
              && r.relation == Some(Or(e.relation, "关联"))
              && r.description == Some(Or(e.description, ""))
    ensures forall i :: 0 <= i < |edges| && EdgeComplete(edges[i]) ==>
              FromFlowEdges(Some(ToFlowEdges(Some(edges))))[i].source == edges[i].source
  {
    var flow := ToFlowEdges(Some(edges));
    forall i | 0 <= i < |edges|
      ensures FromFlowEdges(Some(flow))[i].relation == Some(Or(edges[i].relation, "关联"))
      ensures FromFlowEdges(Some(flow))[i].description == Some(Or(edges[i].description, ""))
    {
      LookupLastWins(FlowEdgeEntries(flow[i]), "relation", 3);
      LookupLastWins(FlowEdgeEntries(flow[i]), "description", 4);
    }
  }
}

=== FILE: storage.dfy ===
/** The persistence adapter: the graph, the processing history and the
    model settings kept under three keys of the browser's key/value store.
    The store is a map from key to the document its JSON text encodes, plus
    a flag saying whether writes currently succeed (a full or disabled
    store makes `setItem` throw). JSON encoding is the identity. */
module Storage {
  import opened Wrappers
  import opened Model

  const OntologyKey := "ontology_reading_ontology"
  const HistoryKey := "ontology_reading_history"
  const SettingsKey := "ontology_reading_settings"

  /** Most entries the history keeps after an addition. */
  const HistoryLimit := 100

  /** One processing record. `kind` is its `type` key (`build` / `update`). */
  datatype HistoryItem = HistoryItem(
    id: Field,
    timestamp: Field,
    kind: Field,
    input: Field,
    output: Field,
    ontologyVersion: Option<int>,
    changes: Field)

  datatype Settings = Settings(modelProvider: Field, modelName: Field, apiToken: Field)

  /** The build-time variables `VITE_AI_PROVIDER`, `VITE_AI_MODEL` and
      `VITE_AI_API_TOKEN`. */
  datatype Env = Env(provider: Field, model: Field, token: Field)

  /** What a key holds: the text of a value one of the save operations
      wrote, or text that `JSON.parse` rejects. */
  datatype Doc =
    | GraphDoc(graph: Ontology)
    | HistoryDoc(items: seq<HistoryItem>)
    | SettingsDoc(settings: Settings)
    | Unparsable

  datatype Disk = Disk(entries: map<string, Doc>, writable: bool)

  /** The result of a write: the store afterwards and the returned flag. */
  datatype Written = Written(disk: Disk, ok: bool)

  /** Every key other than `key` holds what it held, and writability is
      unchanged. */
  predicate Untouched(a: Disk, b: Disk, key: string) {
    && a.writable == b.writable
    && a.entries - {key} == b.entries - {key}
  }

  /** `localStorage.setItem(key, JSON.stringify(v))` inside a try block. */
  function Put(d: Disk, key: string, doc: Doc): (r: Written)
    ensures r.ok == d.writable
    ensures r.ok ==> key in r.disk.entries && r.disk.entries[key] == doc
    ensures !r.ok ==> r.disk == d
    ensures Untouched(d, r.disk, key)
  {
    if d.writable then Written(d.(entries := d.entries[key := doc]), true) else Written(d, false)
  }

  /** `localStorage.removeItem(key)`, which does not fail. */
  function Remove(d: Disk, key: string): (r: Disk)
    ensures key !in r.entries
    ensures Untouched(d, r, key)
  {
    d.(entries := d.entries - {key})
  }

  // ---------------------------------------------------------------------
  // The graph

  /** `getOntology`: null when the key is absent or does not parse. */
  function GetOntology(d: Disk): (r: Option<Ontology>)
    ensures r.Some? ==> OntologyKey in d.entries && d.entries[OntologyKey] == GraphDoc(r.value)
    ensures OntologyKey !in d.entries || d.entries[OntologyKey] == Unparsable ==> r.None?
  {
    if OntologyKey in d.entries && d.entries[OntologyKey].GraphDoc? then Some(d.entries[OntologyKey].graph) else None
  }

  /** `saveOntology`: a successful write reads back as the graph written. */
  function SaveOntology(d: Disk, o: Ontology): (r: Written)
    ensures r.ok == d.writable
    ensures r.ok ==> GetOntology(r.disk) == Some(o)
    ensures !r.ok ==> r.disk == d
    ensures Untouched(d, r.disk, OntologyKey)
  {
    Put(d, OntologyKey, GraphDoc(o))
  }

  /** `clearOntology`. */
  function ClearOntology(d: Disk): (r: Disk)
    ensures GetOntology(r) == None
    ensures Untouched(d, r, OntologyKey)
  {
    Remove(d, OntologyKey)
  }

  // ---------------------------------------------------------------------
  // The history

  /** `getHistory`: empty when the key is absent or does not parse. */
  function GetHistory(d: Disk): (r: seq<HistoryItem>)
    ensures r != [] ==> HistoryKey in d.entries && d.entries[HistoryKey] == HistoryDoc(r)
    ensures HistoryKey !in d.entries || d.entries[HistoryKey] == Unparsable ==> r == []
  {
    if HistoryKey in d.entries && d.entries[HistoryKey].HistoryDoc? then d.entries[HistoryKey].items else []
  }

  /** `saveHistory`. */
  function SaveHistory(d: Disk, h: seq<HistoryItem>): (r: Written)
    ensures r.ok == d.writable
    ensures r.ok ==> GetHistory(r.disk) == h
    ensures !r.ok ==> r.disk == d
    ensures Untouched(d, r.disk, HistoryKey)
  {
    Put(d, HistoryKey, HistoryDoc(h))
  }

  /** `clearHistory`. */
  function ClearHistory(d: Disk): (r: Disk)
    ensures GetHistory(r) == []
    ensures Untouched(d, r, HistoryKey)
  {
    Remove(d, HistoryKey)
  }

  /** Each getter reads its own key only: a store that differs from another
      at most under one key reads the same under the other two. */
  lemma ReadsOwnKeyOnly(a: Disk, b: Disk, key: string)
    requires Untouched(a, b, key)
    ensures key != OntologyKey ==> GetOntology(a) == GetOntology(b)
    ensures key != HistoryKey ==> GetHistory(a) == GetHistory(b)
    ensures key != SettingsKey ==> SavedSettings(a) == SavedSettings(b)
  {
    var x, y := a.entries - {key}, b.entries - {key};
    forall k | k != key
      ensures (k in a.entries <==> k in b.entries) && (k in a.entries ==> a.entries[k] == b.entries[k])
    {
      assert k in a.entries <==> k in x;
      assert k in b.entries <==> k in y;
      if k in a.entries { assert x[k] == a.entries[k] && y[k] == b.entries[k]; }
    }
  }

  /** `unshift` the item, then `pop` once if the list has grown past the
      limit. The new item is first and the older ones follow in their
      order; a list already longer than the limit loses only its last
      entry. */
  function PushBounded(h: seq<HistoryItem>, item: HistoryItem): (r: seq<HistoryItem>)
    ensures |r| == if |h| < HistoryLimit then |h| + 1 else |h|
    ensures r[0] == item
    ensures r[1..] == h[..|r| - 1]
  {
    var grown := [item] + h;
    if |grown| > HistoryLimit then grown[..|grown| - 1] else grown
  }

  /** `addHistoryItem`. */
  function AddHistoryItem(d: Disk, item: HistoryItem): (r: Written)
    ensures r.ok == d.writable
    ensures r.ok ==> GetHistory(r.disk) == PushBounded(GetHistory(d), item)
    ensures !r.ok ==> r.disk == d
    ensures Untouched(d, r.disk, HistoryKey)
  {
    SaveHistory(d, PushBounded(GetHistory(d), item))
  }

  /** The store after adding `items` one by one, first to last. */
  function AddAll(d: Disk, items: seq<HistoryItem>): Disk
  {
    if |items| == 0 then d
    else AddHistoryItem(AddAll(d, items[..|items| - 1]), items[|items| - 1]).disk
  }

  function Min(a: int, b: int): int { if a < b then a else b }

  /** The last `HistoryLimit` items, newest first. */
  function Newest(items: seq<HistoryItem>): (r: seq<HistoryItem>)
    ensures |r| == Min(|items|, HistoryLimit)
  {
    seq(Min(|items|, HistoryLimit), i requires 0 <= i < Min(|items|, HistoryLimit) => items[|items| - 1 - i])
  }

  lemma NewestPush(items: seq<HistoryItem>, item: HistoryItem)
    ensures PushBounded(Newest(items), item) == Newest(items + [item])
  {
    var l := PushBounded(Newest(items), item);
    var r := Newest(items + [item]);
    assert |l| == |r|;
    forall i | 0 <= i < |l| ensures l[i] == r[i] {
      if i > 0 {
        assert l[i] == l[1..][i - 1];
      }
    }
  }

  lemma NewestPushLast(items: seq<HistoryItem>)
    requires |items| > 0
    ensures PushBounded(Newest(items[..|items| - 1]), items[|items| - 1]) == Newest(items)
  {
    NewestPush(items[..|items| - 1], items[|items| - 1]);
    assert items[..|items| - 1] + [items[|items| - 1]] == items;
  }

  /** One more item on a working store is pushed onto the history. */
  lemma AddAllStep(d: Disk, items: seq<HistoryItem>)
    requires |items| > 0 && AddAll(d, items[..|items| - 1]).writable
    ensures var prev := AddAll(d, items[..|items| - 1]);
      && AddAll(d, items).writable
      && GetHistory(AddAll(d, items)) == PushBounded(GetHistory(prev), items[|items| - 1])
  {
  }

  /** Starting from an empty history on a working store, adding items one
      at a time leaves the most recent hundred, newest first. */
  lemma {:induction false} AddAllKeepsNewest(d: Disk, items: seq<HistoryItem>)
    requires d.writable && GetHistory(d) == []
    ensures GetHistory(AddAll(d, items)) == Newest(items)
    ensures AddAll(d, items).writable
    decreases |items|
  {
    if |items| == 0 {
      assert Newest(items) == [];
    } else {
      var front := items[..|items| - 1];
      var last := items[|items| - 1];
      AddAllKeepsNewest(d, front);
      AddAllStep(d, items);
      NewestPushLast(items);
    }
  }

  // ---------------------------------------------------------------------
  // The settings

  /** The settings record stored under its key, if any parses. */
  function SavedSettings(d: Disk): Option<Settings> {
    if SettingsKey in d.entries && d.entries[SettingsKey].SettingsDoc? then Some(d.entries[SettingsKey].settings) else None
  }

  /** The environment's values, with the built-in last resorts. */
  function EnvDefaults(env: Env): Settings {
    Settings(Some(Or(env.provider, "moonshot")), Some(Or(env.model, "moonshot-v1-8k")), Some(Or(env.token, "")))
  }

  /** `getSettings`: each field separately, the saved value when it is
      truthy, else the environment's when it is truthy, else the built-in
      value. The provider and model are therefore never empty. */
  function GetSettings(d: Disk, env: Env): (r: Settings)
    ensures r.modelProvider.Some? && r.modelName.Some? && r.apiToken.Some?
    ensures Truthy(r.modelProvider) && Truthy(r.modelName)
    ensures var s := SavedSettings(d);
      && (s.Some? && Truthy(s.value.modelProvider) ==> r.modelProvider == s.value.modelProvider)
      && (s.Some? && Truthy(s.value.modelName) ==> r.modelName == s.value.modelName)
      && (s.Some? && Truthy(s.value.apiToken) ==> r.apiToken == s.value.apiToken)
      && (!(s.Some? && Truthy(s.value.modelProvider)) ==>
            r.modelProvider == (if Truthy(env.provider) then env.provider else Some("moonshot")))
      && (!(s.Some? && Truthy(s.value.modelName)) ==>
            r.modelName == (if Truthy(env.model) then env.model else Some("moonshot-v1-8k")))
      && (!(s.Some? && Truthy(s.value.apiToken)) ==>
            r.apiToken == (if Truthy(env.token) then env.token else Some("")))
  {
    var defaults := EnvDefaults(env);
    match SavedSettings(d)
    case None => defaults
    case Some(saved) =>
      Settings(
        Some(Or(saved.modelProvider, defaults.modelProvider.value)),
        Some(Or(saved.modelName, defaults.modelName.value)),
        Some(Or(saved.apiToken, defaults.apiToken.value)))
  }

  /** `saveSettings`. */
  function SaveSettings(d: Disk, s: Settings): (r: Written)
    ensures r.ok == d.writable
    ensures r.ok ==> SavedSettings(r.disk) == Some(s)
    ensures !r.ok ==> r.disk == d
    ensures Untouched(d, r.disk, SettingsKey)
  {
    Put(d, SettingsKey, SettingsDoc(s))
  }

  /** Settings with every field truthy read back unchanged after a save. */
  lemma SettingsRoundTrip(d: Disk, s: Settings, env: Env)
    requires d.writable
    requires Truthy(s.modelProvider) && Truthy(s.modelName) && Truthy(s.apiToken)
    ensures GetSettings(SaveSettings(d, s).disk, env) == s
  {
  }

  /** Saving the resolved settings and resolving again, against the same
      environment, changes nothing. */
  lemma SettingsResolutionIdempotent(d: Disk, d': Disk, env: Env)
    requires d'.writable
    ensures GetSettings(SaveSettings(d', GetSettings(d, env)).disk, env) == GetSettings(d, env)
  {
  }

  // ---------------------------------------------------------------------
  // Export, import, clear

  /** The object `exportAll` returns; `exportDate` is supplied by the caller. */
  datatype Export = Export(ontology: Option<Ontology>, history: seq<HistoryItem>, settings: Settings, exportDate: string)

  /** The argument of `importAll`: each section is present or not. An array
      is truthy even when empty, so an empty history is still written. */
  datatype Bundle = Bundle(ontology: Option<Ontology>, history: Option<seq<HistoryItem>>, settings: Option<Settings>)

  /** `exportAll`. */
  function ExportAll(d: Disk, env: Env, exportDate: string): (r: Export)
    ensures r.ontology == GetOntology(d) && r.history == GetHistory(d) && r.settings == GetSettings(d, env)
    ensures r.exportDate == exportDate
  {
    Export(GetOntology(d), GetHistory(d), GetSettings(d, env), exportDate)
  }

  function SaveOntologyIf(d: Disk, o: Option<Ontology>): Disk {
    if o.Some? then SaveOntology(d, o.value).disk else d
  }

  function SaveHistoryIf(d: Disk, h: Option<seq<HistoryItem>>): Disk {
    if h.Some? then SaveHistory(d, h.value).disk else d
  }

  function SaveSettingsIf(d: Disk, s: Option<Settings>): Disk {
    if s.Some? then SaveSettings(d, s.value).disk else d
  }

  /** `importAll`. A missing argument makes the first property access
      throw, which is caught: false and nothing written. Otherwise each
      present section is saved and the answer is true, even when the
      writes themselves failed. */
  function ImportAll(d: Disk, data: Option<Bundle>): (r: Written)
    ensures data.None? ==> r == Written(d, false)
    ensures data.Some? ==> r.ok
    ensures !d.writable ==> r.disk == d
    ensures r.disk.writable == d.writable
    ensures d.writable && data.Some? ==>
      var b := data.value;
      && GetOntology(r.disk) == (if b.ontology.Some? then b.ontology else GetOntology(d))
      && GetHistory(r.disk) == (if b.history.Some? then b.history.value else GetHistory(d))
      && SavedSettings(r.disk) == (if b.settings.Some? then b.settings else SavedSettings(d))
    ensures r.disk.entries - {OntologyKey, HistoryKey, SettingsKey} == d.entries - {OntologyKey, HistoryKey, SettingsKey}
  {
    match data
    case None => Written(d, false)
    case Some(b) =>
      var d1 := SaveOntologyIf(d, b.ontology);
      var d2 := SaveHistoryIf(d1, b.history);
      var d3 := SaveSettingsIf(d2, b.settings);
      Written(d3, true)
  }

  /** Exporting and importing the result into a working store reproduces
      what the three getters return. */
  lemma ExportImportRoundTrip(d: Disk, target: Disk, env: Env, date: string)
    requires target.writable
    requires GetOntology(d).Some?
    ensures var e := ExportAll(d, env, date);
      var t := ImportAll(target, Some(Bundle(e.ontology, Some(e.history), Some(e.settings)))).disk;
      && GetOntology(t) == GetOntology(d)
      && GetHistory(t) == GetHistory(d)
      && GetSettings(t, env) == GetSettings(d, env)
  {
    var e := ExportAll(d, env, date);
    var t := ImportAll(target, Some(Bundle(e.ontology, Some(e.history), Some(e.settings)))).disk;
    assert SavedSettings(t) == Some(GetSettings(d, env));
  }

  /** `clearAll`: the graph and the history go, the settings stay. */
  function ClearAll(d: Disk): (r: Disk)
    ensures GetOntology(r) == None && GetHistory(r) == []
    ensures SavedSettings(r) == SavedSettings(d)
    ensures r.writable == d.writable
    ensures r.entries - {OntologyKey, HistoryKey} == d.entries - {OntologyKey, HistoryKey}
  {
    ClearHistory(ClearOntology(d))
  }
}

=== FILE: strings.dfy ===
/** The handful of JavaScript string built-ins the core relies on:
    `trim`, `split`, `Array.prototype.join`, `String.prototype.replace`
    with a string pattern, `startsWith`, and the decimal rendering of a
    non-negative integer inside a template literal. */
module Strings {
  import opened Wrappers

  /** ECMAScript WhiteSpace and LineTerminator code points: exactly what
      `String.prototype.trim` strips and what `\s` matches in a regular
      expression. */
  predicate IsSpace(c: char) {
    || c == '\t' || c == '\n' || c == '\U{000B}' || c == '\U{000C}' || c == '\r'
    || c == ' ' || c == '\U{00A0}' || c == '\U{1680}'
    || ('\U{2000}' <= c <= '\U{200A}')
    || c == '\U{2028}' || c == '\U{2029}' || c == '\U{202F}' || c == '\U{205F}'
    || c == '\U{3000}' || c == '\U{FEFF}'
  }

  predicate IsDigit(c: char) { '0' <= c <= '9' }

  predicate StartsWith(s: string, prefix: string) {
    |prefix| <= |s| && s[..|prefix|] == prefix
  }

  /** True when `pat` occurs in `s` starting at index `j`. */
  predicate OccursAt(s: string, pat: string, j: nat) {
    j + |pat| <= |s| && s[j..j + |pat|] == pat
  }

  /** Leading white space removed. */
  function TrimStart(s: string): (r: string)
    ensures |r| <= |s|
  {
    if |s| > 0 && IsSpace(s[0]) then TrimStart(s[1..]) else s
  }

  /** Trailing white space removed. */
  function TrimEnd(s: string): (r: string)
    ensures |r| <= |s|
  {
    if |s| > 0 && IsSpace(s[|s| - 1]) then TrimEnd(s[..|s| - 1]) else s
  }

  /** `String.prototype.trim`. */
  function Trim(s: string): (r: string)
  {
    TrimEnd(TrimStart(s))
  }

  lemma {:induction false} TrimStartIsSuffix(s: string)
    ensures TrimStart(s) == s[|s| - |TrimStart(s)|..]
    decreases |s|
  {
    if |s| > 0 && IsSpace(s[0]) {
      TrimStartIsSuffix(s[1..]);
      assert s[1..][|s| - 1 - |TrimStart(s)|..] == s[|s| - |TrimStart(s)|..];
    }
  }

  lemma {:induction false} TrimStartDropsSpace(s: string)
    ensures forall i :: 0 <= i < |s| - |TrimStart(s)| ==> IsSpace(s[i])
    decreases |s|
  {
    if |s| > 0 && IsSpace(s[0]) {
      TrimStartDropsSpace(s[1..]);
      forall i | 1 <= i < |s| - |TrimStart(s)| ensures IsSpace(s[i]) {
        assert s[i] == s[1..][i - 1];
      }
    }
  }

  lemma {:induction false} TrimStartFirst(s: string)
    ensures TrimStart(s) == [] || !IsSpace(TrimStart(s)[0])
    decreases |s|
  {
    if |s| > 0 && IsSpace(s[0]) {
      TrimStartFirst(s[1..]);
    }
  }

  lemma {:induction false} TrimEndIsPrefix(s: string)
    ensures TrimEnd(s) == s[..|TrimEnd(s)|]
    decreases |s|
  {
    if |s| > 0 && IsSpace(s[|s| - 1]) {
      TrimEndIsPrefix(s[..|s| - 1]);
      assert s[..|s| - 1][..|TrimEnd(s)|] == s[..|TrimEnd(s)|];
    }
  }

  lemma {:induction false} TrimEndDropsSpace(s: string)
    ensures forall i :: |TrimEnd(s)| <= i < |s| ==> IsSpace(s[i])
    decreases |s|
  {
    if |s| > 0 && IsSpace(s[|s| - 1]) {
      TrimEndDropsSpace(s[..|s| - 1]);
      forall i | |TrimEnd(s)| <= i < |s| - 1 ensures IsSpace(s[i]) {
        assert s[i] == s[..|s| - 1][i];
      }
    }
  }

  lemma {:induction false} TrimEndLast(s: string)
    ensures TrimEnd(s) == [] || !IsSpace(TrimEnd(s)[|TrimEnd(s)| - 1])
    decreases |s|
  {
    if |s| > 0 && IsSpace(s[|s| - 1]) {
      TrimEndLast(s[..|s| - 1]);
    }
  }

  /** Leading trimming of `x + y` stops inside `x` unless `x` is all white
      space. */
  lemma {:induction false} TrimStartAppend(x: string, y: string)
    ensures TrimStart(x + y) == if TrimStart(x) == [] then TrimStart(y) else TrimStart(x) + y
    decreases |x|
  {
    if |x| == 0 {
      assert x + y == y;
    } else {
      assert (x + y)[0] == x[0];
      assert (x + y)[1..] == x[1..] + y;
      if IsSpace(x[0]) {
        TrimStartAppend(x[1..], y);
      }
    }
  }

  lemma TrimEndSpace(x: string, c: char)
    requires IsSpace(c)
    ensures TrimEnd(x + [c]) == TrimEnd(x)
  {
    assert (x + [c])[..|x|] == x;
  }

  /** A final white-space character, such as the newline a line of
      generated text ends with, makes no difference to the trimmed text. */
  lemma TrimDropsFinalSpace(s: string, c: char)
    requires IsSpace(c)
    ensures Trim(s + [c]) == Trim(s)
  {
    TrimStartAppend(s, [c]);
    if TrimStart(s) == [] {
      assert TrimStart([c]) == TrimStart([c][1..]);
      assert [c][1..] == [];
    } else {
      TrimEndSpace(TrimStart(s), c);
    }
  }

  /** Trim yields the slice of `s` between its leading and trailing white
      space, and that slice neither starts nor ends with white space. */
  lemma TrimIsInnerSlice(s: string)
    ensures var a := |s| - |TrimStart(s)|; var b := a + |Trim(s)|;
      && b <= |s| && Trim(s) == s[a..b]
      && (forall i :: 0 <= i < a ==> IsSpace(s[i]))
      && (forall i :: b <= i < |s| ==> IsSpace(s[i]))
      && (Trim(s) == [] || (!IsSpace(Trim(s)[0]) && !IsSpace(Trim(s)[|Trim(s)| - 1])))
  {
    TrimSlice(s);
    TrimStartDropsSpace(s);
    TrimTrailing(s);
    TrimEnds(s);
  }

  lemma TrimSlice(s: string)
    ensures var a := |s| - |TrimStart(s)|; var b := a + |Trim(s)|;
      b <= |s| && Trim(s) == s[a..b]
  {
    var t, u := TrimStart(s), Trim(s);
    assert u == TrimEnd(t);
    TrimStartIsSuffix(s);
    TrimEndIsPrefix(t);
    SliceOfSlice(s, |s| - |t|, |u|);
  }

  lemma TrimTrailing(s: string)
    ensures var b := |s| - |TrimStart(s)| + |Trim(s)|;
      forall i :: b <= i < |s| ==> IsSpace(s[i])
  {
    var t, u := TrimStart(s), Trim(s);
    var a := |s| - |t|;
    assert u == TrimEnd(t);
    TrimStartIsSuffix(s);
    TrimEndDropsSpace(t);
    forall i | a + |u| <= i < |s| ensures IsSpace(s[i]) {
      assert s[i] == t[i - a];
    }
  }

  lemma SliceOfSlice<T>(s: seq<T>, a: nat, n: nat)
    requires a + n <= |s|
    ensures s[a..][..n] == s[a..a + n]
  {
  }

  lemma TrimEnds(s: string)
    ensures Trim(s) == [] || (!IsSpace(Trim(s)[0]) && !IsSpace(Trim(s)[|Trim(s)| - 1]))
  {
    var t := TrimStart(s);
    var u := TrimEnd(t);
    assert Trim(s) == u;
    TrimStartFirst(s);
    TrimEndIsPrefix(t);
    TrimEndLast(t);
    if u != [] {
      assert u[0] == t[0];
    }
  }

  /** Index of the first occurrence of `sep` in `s`, if any. */
  function IndexOfChar(s: string, sep: char): (r: Option<nat>)
    ensures r.Some? ==> r.value < |s| && s[r.value] == sep && sep !in s[..r.value]
    ensures r.None? ==> sep !in s
  {
    if |s| == 0 then None
    else if s[0] == sep then Some(0)
    else match IndexOfChar(s[1..], sep)
      case None => None
      case Some(i) => assert s[..i + 1] == [s[0]] + s[1..][..i]; Some(i + 1)
  }

  /** `Array.prototype.join` over strings. */
  function Join(parts: seq<string>, sep: string): string
  {
    if |parts| == 0 then ""
    else if |parts| == 1 then parts[0]
    else parts[0] + sep + Join(parts[1..], sep)
  }

  /** `String.prototype.split` with a one-character separator: the pieces
      between separators, which join back to the input. */
  function Split(s: string, sep: char): (r: seq<string>)
    ensures |r| >= 1
    ensures forall i :: 0 <= i < |r| ==> sep !in r[i]
    ensures Join(r, [sep]) == s
    decreases |s|
  {
    match IndexOfChar(s, sep)
    case None => [s]
    case Some(i) =>
      var rest := Split(s[i + 1..], sep);
      assert s == s[..i] + [sep] + s[i + 1..];
      [s[..i]] + rest
  }

  /** A join never introduces a character that neither the parts nor the
      separator hold. */
  lemma {:induction false} JoinFreeOf(parts: seq<string>, sep: string, c: char)
    requires forall i :: 0 <= i < |parts| ==> c !in parts[i]
    requires c !in sep
    ensures c !in Join(parts, sep)
  {
    if |parts| > 1 {
      JoinFreeOf(parts[1..], sep, c);
      assert Join(parts, sep) == parts[0] + sep + Join(parts[1..], sep);
    }
  }

  /** Splitting on a character gives back the parts it joined, provided no
      part holds that character. */
  lemma {:induction false} SplitJoin(parts: seq<string>, sep: char)
    requires |parts| >= 1
    requires forall i :: 0 <= i < |parts| ==> sep !in parts[i]
    ensures Split(Join(parts, [sep]), sep) == parts
    decreases |parts|
  {
    var s := Join(parts, [sep]);
    if |parts| == 1 {
      assert IndexOfChar(s, sep) == None;
    } else {
      var tail := Join(parts[1..], [sep]);
      assert s == parts[0] + [sep] + tail;
      IndexOfCharAfterFree(parts[0], tail, sep);
      assert s[..|parts[0]|] == parts[0];
      assert s[|parts[0]| + 1..] == tail;
      assert Split(s, sep) == [parts[0]] + Split(tail, sep);
      SplitJoin(parts[1..], sep);
      assert parts == [parts[0]] + parts[1..];
    }
  }

  /** The first `sep` of `a + [sep] + b` is the one after `a`, when `a` has none. */
  lemma IndexOfCharAfterFree(a: string, b: string, sep: char)
    requires sep !in a
    ensures IndexOfChar(a + [sep] + b, sep) == Some(|a|)
  {
    var s := a + [sep] + b;
    assert s[|a|] == sep;
    assert s[..|a|] == a;
  }

  /** Decimal digits of a natural number, as a template literal renders it. */
  function NatToString(n: nat): (r: string)
    ensures |r| >= 1 && forall i :: 0 <= i < |r| ==> IsDigit(r[i])
    ensures r[0] == '0' ==> n == 0
    decreases n
  {
    var d := ['0' + (n % 10) as char];
    if n < 10 then d else NatToString(n / 10) + d
  }

  /** Reads a string of decimal digits back as a number. */
  function DecimalValue(s: string): int
    requires forall i :: 0 <= i < |s| ==> IsDigit(s[i])
  {
    if |s| == 0 then 0
    else 10 * DecimalValue(s[..|s| - 1]) + (s[|s| - 1] as int - '0' as int)
  }

  /** The decimal rendering reads back as the number it renders. */
  lemma {:induction false} DecimalRoundTrip(n: nat)
    ensures DecimalValue(NatToString(n)) == n
    decreases n
  {
    var d := ['0' + (n % 10) as char];
    if n >= 10 {
      DecimalRoundTrip(n / 10);
      var s := NatToString(n / 10) + d;
      assert s[..|s| - 1] == NatToString(n / 10);
    }
  }

  /** Distinct numbers render as distinct strings. */
  lemma NatToStringInjective(m: nat, n: nat)
    requires m != n
    ensures NatToString(m) != NatToString(n)
  {
    DecimalRoundTrip(m);
    DecimalRoundTrip(n);
  }

  /** Index of the first occurrence of `pat` in `s`, if any. */
  function IndexOf(s: string, pat: string, from: nat := 0): (r: Option<nat>)
    requires from <= |s|
    ensures r.Some? ==> from <= r.value && OccursAt(s, pat, r.value)
    ensures r.Some? ==> forall j :: from <= j < r.value ==> !OccursAt(s, pat, j)
    ensures r.None? ==> forall j :: from <= j <= |s| ==> !OccursAt(s, pat, j)
    decreases |s| - from
  {
    if OccursAt(s, pat, from) then Some(from)
    else if from + |pat| >= |s| then None
    else IndexOf(s, pat, from + 1)
  }

  /** `String.prototype.replace` with a string pattern: only the first
      occurrence is replaced. Replacement patterns such as `$&` are not
      interpreted. */
  function ReplaceFirst(s: string, pat: string, v: string): string
  {
    match IndexOf(s, pat)
    case None => s
    case Some(i) => s[..i] + v + s[i + |pat|..]
  }

  /** Replacing the first occurrence splices `v` in exactly where `pat`
      first occurs, and leaves a text without `pat` alone. */
  lemma ReplaceFirstSpec(s: string, pat: string, v: string)
    ensures (forall j :: 0 <= j <= |s| ==> !OccursAt(s, pat, j)) ==> ReplaceFirst(s, pat, v) == s
    ensures forall i :: 0 <= i <= |s| && OccursAt(s, pat, i) && (forall j :: 0 <= j < i ==> !OccursAt(s, pat, j))
               ==> ReplaceFirst(s, pat, v) == s[..i] + v + s[i + |pat|..]
  {
    match IndexOf(s, pat)
    case None =>
    case Some(k) =>
      forall i | 0 <= i <= |s| && OccursAt(s, pat, i) && (forall j :: 0 <= j < i ==> !OccursAt(s, pat, j))
        ensures ReplaceFirst(s, pat, v) == s[..i] + v + s[i + |pat|..]
      {
        assert !(k < i) && !(i < k);
      }
  }
}

=== FILE: templates.dfy ===
/** Prompt templates for the language-model calls and `getPromptTemplate`,
    which picks one by name and fills its `{key}` placeholders from a
    parameter object. */
module Templates {
  import opened Model
  import opened Strings

  const BuildPrompt: string :=
    "你是一个知识本体构建专家，擅长从文本中提取核心概念和关系。\n"
    + "\n"
    + "用户输入的资讯内容：\n"
    + "{content}\n"
    + "\n"
    + "任务：\n"
    + "1. 识别文本中的核心概念（实体、术语、关键词）\n"
    + "2. 识别概念之间的关系\n"
    + "3. 以 JSON 格式输出本体结构\n"
    + "\n"
    + "输出格式（严格遵守JSON格式，不要有额外说明）：\n"
    + "{\n"
    + "  \"nodes\": [\n"
    + "    {\n"
    + "      \"id\": \"唯一ID（小写字母和连字符）\",\n"
    + "      \"name\": \"概念名称\",\n"
    + "      \"type\": \"类型（architecture/mechanism/model/component/concept）\",\n"
    + "      \"description\": \"简短描述\"\n"
    + "    }\n"
    + "  ],\n"
    + "  \"edges\": [\n"
    + "    {\n"
    + "      \"id\": \"唯一ID\",\n"
    + "      \"source\": \"源节点ID\",\n"
    + "      \"target\": \"目标节点ID\",\n"
    + "      \"relation\": \"关系类型（包含/属于/基于/导致/关联等）\",\n"
    + "      \"description\": \"关系描述\"\n"
    + "    }\n"
    + "  ]\n"
    + "}\n"
    + "\n"
    + "注意事项：\n"
    + "- 保持概念精简（5-15个核心概念）\n"
    + "- 关系要有明确语义\n"
    + "- 所有ID使用小写字母和连字符格式，如：transformer-1\n"
    + "- 只返回JSON，不要其他文本"

  const UpdatePrompt: string :=
    "你是一个知识本体融合专家，擅长将新知识整合到现有本体中。\n"
    + "\n"
    + "现有本体结构：\n"
    + "{existingOntology}\n"
    + "\n"
    + "新输入的资讯内容：\n"
    + "{content}\n"
    + "\n"
    + "任务：\n"
    + "1. 分析新内容与现有本体的关联\n"
    + "2. 识别需要新增的概念和关系\n"
    + "3. 识别需要删除或修改的概念（如果有）\n"
    + "4. 生成更新后的完整本体\n"
    + "\n"
    + "输出格式（严格遵守JSON格式）：\n"
    + "{\n"
    + "  \"nodes\": [...完整的节点列表...],\n"
    + "  \"edges\": [...完整的边列表...],\n"
    + "  \"changes\": {\n"
    + "    \"added_nodes\": [\"新增节点ID1\", \"新增节点ID2\"],\n"
    + "    \"added_edges\": [\"新增边ID1\"],\n"
    + "    \"removed_nodes\": [\"删除节点ID（如有）\"],\n"
    + "    \"removed_edges\": [\"删除边ID（如有）\"],\n"
    + "    \"modified_nodes\": [\"修改节点ID（如有）\"]\n"
    + "  }\n"
    + "}\n"
    + "\n"
    + "注意事项：\n"
    + "- 保留所有现有的有效概念\n"
    + "- 合理融合新旧知识\n"
    + "- 避免重复概念\n"
    + "- 只返回JSON，不要其他文本"

  const FormatPrompt: string :=
    "你是一个内容整理专家，基于本体结构组织和呈现信息。\n"
    + "\n"
    + "本体结构：\n"
    + "{ontology}\n"
    + "\n"
    + "原始资讯内容：\n"
    + "{content}\n"
    + "\n"
    + "任务：\n"
    + "1. 基于本体结构重新组织内容\n"
    + "2. 使用 Markdown 格式输出\n"
    + "3. 高亮核心概念（用[]括起来）\n"
    + "4. 说明概念间的关系\n"
    + "\n"
    + "输出格式：\n"
    + "## 核心概念\n"
    + "- **[概念1]** (类型): 描述\n"
    + "- **[概念2]** (类型): 描述\n"
    + "\n"
    + "## 概念关系\n"
    + "- [概念1] --关系--> [概念2]\n"
    + "- [概念A] --关系--> [概念B]\n"
    + "\n"
    + "## 内容摘要\n"
    + "基于本体的结构化内容说明...\n"
    + "\n"
    + "注意事项：\n"
    + "- 所有概念名称用[]括起来\n"
    + "- 保持内容简洁清晰\n"
    + "- 突出重点和关联"

  /** A parameter value. `Graph` is a graph object; JSON serialisation of a
      value is supplied by the caller (`JSON.stringify(v, null, 2)`). */
  datatype PValue = Text(s: string) | Undefined | Null | Graph(graph: Ontology)

  /** The parameter object's entries, in `Object.entries` order. */
  type Params = seq<(string, PValue)>

  predicate IsTruthy(v: PValue) {
    match v
    case Text(s) => s != ""
    case Undefined => false
    case Null => false
    case Graph(_) => true
  }

  /** `String(v)`, the text `replace` splices in for a non-string value. */
  function AsText(v: PValue): string {
    match v
    case Text(s) => s
    case Undefined => "undefined"
    case Null => "null"
    case Graph(_) => "[object Object]"
  }

  function Placeholder(key: string): string {
    "{" + key + "}"
  }

  /** The substitution loop: each entry, in order, replaces the first
      occurrence of its placeholder in the text produced so far. */
  function Fill(template: string, params: Params): string
    decreases |params|
  {
    if |params| == 0 then template
    else Fill(ReplaceFirst(template, Placeholder(params[0].0), AsText(params[0].1)), params[1..])
  }

  /** `params[key] = JSON.stringify(params[key], null, 2)` when the value
      is truthy; a missing key reads as `undefined` and is left alone. */
  function StringifyParam(params: Params, key: string, stringify: PValue -> string): (r: Params)
    ensures |r| == |params|
    ensures forall i :: 0 <= i < |r| ==> r[i].0 == params[i].0
    ensures forall i :: 0 <= i < |r| ==>
              r[i].1 == (if params[i].0 == key && IsTruthy(params[i].1) then Text(stringify(params[i].1)) else params[i].1)
  {
    if |params| == 0 then []
    else
      var (k, v) := params[0];
      [(k, if k == key && IsTruthy(v) then Text(stringify(v)) else v)] + StringifyParam(params[1..], key, stringify)
  }

  /** The filled prompt, and the parameter object as the call leaves it
      (the source mutates it in place). */
  datatype Prompted = UnknownType(message: string) | Prompted(text: string, params: Params)

  /** `getPromptTemplate`. `build`, `update` and `format` choose their
      template; `update` first serialises a truthy `existingOntology` and
      `format` a truthy `ontology`; any other name is an error. */
  function GetPromptTemplate(kind: string, params: Params, stringify: PValue -> string): (r: Prompted)
    ensures kind != "build" && kind != "update" && kind != "format" <==> r.UnknownType?
    ensures r.UnknownType? ==> r.message == "Unknown prompt type: " + kind
    ensures kind == "build" ==> r == Prompted(Fill(BuildPrompt, params), params)
    ensures kind == "update" ==>
              r.Prompted? && r.text == Fill(UpdatePrompt, r.params)
              && r.params == StringifyParam(params, "existingOntology", stringify)
    ensures kind == "format" ==>
              r.Prompted? && r.text == Fill(FormatPrompt, r.params)
              && r.params == StringifyParam(params, "ontology", stringify)
  {
    if kind == "build" then Prompted(Fill(BuildPrompt, params), params)
    else if kind == "update" then
      var p := StringifyParam(params, "existingOntology", stringify);
      Prompted(Fill(UpdatePrompt, p), p)
    else if kind == "format" then
      var p := StringifyParam(params, "ontology", stringify);
      Prompted(Fill(FormatPrompt, p), p)
    else UnknownType("Unknown prompt type: " + kind)
  }

  /** `placeholder` occurs nowhere in `s`. */
  predicate Absent(s: string, placeholder: string) {
    forall j :: 0 <= j <= |s| ==> !OccursAt(s, placeholder, j)
  }

  /** Parameters whose placeholders the template does not contain leave it
      exactly as it is. */
  lemma {:induction false} FillVerbatim(template: string, params: Params)
    requires forall i :: 0 <= i < |params| ==> Absent(template, Placeholder(params[i].0))
    ensures Fill(template, params) == template
    decreases |params|
  {
    if |params| > 0 {
      ReplaceFirstSpec(template, Placeholder(params[0].0), AsText(params[0].1));
      assert Absent(template, Placeholder(params[0].0));
      FillVerbatim(template, params[1..]);
    }
  }

  /** Filling with two runs of entries is filling with the first run and
      then with the second. */
  lemma {:induction false} FillConcat(template: string, p: Params, q: Params)
    ensures Fill(template, p + q) == Fill(Fill(template, p), q)
    decreases |p|
  {
    if |p| > 0 {
      assert (p + q)[1..] == p[1..] + q;
      FillConcat(ReplaceFirst(template, Placeholder(p[0].0), AsText(p[0].1)), p[1..], q);
    } else {
      assert p + q == q;
    }
  }

  /** One entry replaces the first occurrence of its placeholder and
      nothing else: a second occurrence survives in the text after the
      spliced value. */
  lemma FillOneEntry(template: string, key: string, v: PValue, i: nat)
    requires OccursAt(template, Placeholder(key), i)
    requires forall j :: 0 <= j < i ==> !OccursAt(template, Placeholder(key), j)
    ensures Fill(template, [(key, v)]) == template[..i] + AsText(v) + template[i + |Placeholder(key)|..]
  {
    ReplaceFirstSpec(template, Placeholder(key), AsText(v));
    assert [(key, v)][1..] == [];
  }
}

=== FILE: wrappers.dfy ===
/** The optional-value datatype used throughout the model for JavaScript's
    `undefined` / `null` / absent property. */
module Wrappers {

  datatype Option<+T> = None | Some(value: T) {

    /** Returns the value held in Some, or `default` when None */
    function GetOr(default: T): T {
      match this
      case Some(v) => v
      case None => default
    }
  }
}
